=== FILE: README.md ===
# openstatus core, modelled in Dafny

This project models the rules at the heart of openstatus, an uptime-monitoring
service. It covers these parts:

- **The check ingress.** The `/checker` and `/googleTest` handlers, and the check-payload schema.
- **The alerting step.** The per-region status upsert, and the fan-out of a monitor's alert to its linked notification channels.
- **The provider dispatch table and the Slack adapter.**
- **The incident lifecycle.** Open, then acknowledged, then resolved.
- **The incident PUT route.**
- **The monitor REST API.** The region-list codec, the plan gates, the 404-before-401 ownership checks, soft delete, and the newer single-monitor GET.
- **The workspace router.** Slug choice, owner-only mutations, and the usage counts.
- **The status-report tables** and the route that posts an update and emails subscribers.
- **The public status-report list.**
- **The browser-side helpers.** Notification-channel data encoding and plan gating, the checker playground's stream handling and status dot, the monitor table's filters, the web-vitals rating bands, and the conversion of a time zone to an `Etc/GMT` name.

Tables are sequences of rows, or maps and sets where the schema declares keys.
Side effects become values:

- a handler returns its reply and the new table;
- the alert fan-out returns its list of dispatch and audit events;
- the Slack adapter returns the post it attempted and whether it threw.

Everything outside the code is a parameter:

- the database's choice of a fresh id;
- the random slug generator;
- a fetch that throws;
- `JSON.parse` of a checker row;
- date coercion;
- the time-zone offset lookup.

`JsNumber` models JavaScript's `Number(string)`, truthiness, `>=` and `String(number)` on exact values; rounding to double precision and the exponent form of large numbers are not modelled (see `JsNumber.ToNumber` under "## Left out"). Route handlers that compare `Number(id)` with a column (the monitor GET, DELETE and summary routes, the newer monitor GET, the incident update and the status-report update) take that number as their parameter; `JsNumber.ToNumber` is what produces it from the path. The monitor PUT takes the path text itself, since it refuses an empty one first. `JSON.stringify` and `JSON.parse` are modelled in `Json` for the flat string-valued objects the notification data uses. `Wrappers` holds `Option` and `Result`. `Seqs` holds `Array.prototype.filter` and a `map` followed by a filter of the `null`s; every list filter of the model is one of these two, and each comes with its meaning (membership and multiplicity) and the law that filtering a concatenation is the concatenation of the filtered parts. `Text` holds `split` and `join` on one separator character, shared by the region codec and the checker's stream reader; `Tables` holds the database's auto-incremented id, shared by the monitor and workspace routers.

Behaviour of the code that the model keeps as written:

- **Channel isolation.** A notification channel whose send throws is not isolated. The loop in apps/server/src/checker/alerting.ts has no `try`, so the fan-out stops there. `Alerting.AbortedFanOut` states this.
- **Cross-region status resolution and transition detection** are outside the modelled files and are not modelled. `checker.ts` and `catchTooManyRetry` are not part of this model; the ingress only records that they were invoked.
- **The payload schema.** The ingress imports a `./schema` that is not part of this model. The payload schema modelled is apps/web/src/app/api/checker/schema.ts.
- **`pageId` on status reports.** The `status_report` table as declared has no `page_id` column, yet the update route reads `pageId` from the updated report. `Report` carries an optional `pageId`. `StatusReportPost.NoPageNoEmail` shows that without one no email is sent.
- **Workspace counts.** `getCurrentWorkspaceNumbers` reads `rows?.[0].count || 0`. The optional chaining guards only the array, not its first element, so an empty result throws (`Workspaces.CountOf`). A `count(*)` query always yields one row, so the reported numbers are the counts (`Workspaces.CurrentNumbers`). The fallback to 0 covers only a 0 or null count.
- **Sorting reports with no `updatedAt`.** The status-report comparator answers 1 for two reports that both lack `updatedAt`, which is not a consistent order. The model fixes the order an insertion sort gives and proves only what any consistent run guarantees: dated reports first, in non-increasing date order.
- **`is32CharHex`.** It is imported by the checker form from a file that is not part of this model. It is modelled as "exactly 32 hexadecimal digits, either case".

## Model

| member | source | states |
|---|---|---|
| CheckerPayload.Validate | apps/web/src/app/api/checker/schema.ts:5-15 | the payload is accepted exactly when the input is an object whose every field meets its schema entry; a refusal names the failing fields; an accepted payload carries the object's members |
| CheckerPayload.ValidateEncode | apps/web/src/app/api/checker/schema.ts:5-15 | round trip: every payload whose method and status belong to the enumerations validates back to itself from the object a producer sends |
| CheckerPayload.EncodeConforms | apps/web/src/app/api/checker/schema.ts:6-14 | the object sent for a payload whose method and status belong to the enumerations meets every field's schema entry |
| CheckerPayload.HeadersRoundTrip | apps/web/src/app/api/checker/schema.ts:10 | header objects as sent are `{ key, value }` string pairs and read back as the same headers, in order |
| CheckerPayload.PayloadOf | apps/web/src/app/api/checker/schema.ts:5-15 | an object meeting the schema gives a payload whose method and status are enumeration members, with body and headers present exactly when sent and assertions absent exactly when `null` |
| CheckerPayload.RequiredAndOptionalMembers | apps/web/src/app/api/checker/schema.ts:6-14 | from a valid object, removing a member keeps it valid exactly when that member is body or headers; every other member, assertions included, is required |
| CheckerPayload.AllFieldsComplete | apps/web/src/app/api/checker/schema.ts:5-15 | the field list covers every field of the schema |
| CheckerRoute.Checker | apps/server/src/checker/index.ts:22-55 | a body that is not JSON gives 500 and sets nothing in motion; an invalid payload gives 422 and sets nothing in motion whatever the retry header says; otherwise exactly one action on the validated payload, the too-many-retries diversion exactly when the retry count is at least 2 (200), else the checker (200, or 500 when the call throws) |
| CheckerRoute.GoogleTest | apps/server/src/checker/index.ts:57-75 | a body that is not JSON gives 500 before the secret is checked; then 401 exactly when the Authorization header is not `Basic <secret>`, checked before the payload; then 422 exactly for an invalid payload, else 200; the checker never runs |
| CheckerRoute.RetryThreshold | apps/server/src/checker/index.ts:32 | a retry header carrying the number n diverts exactly when n >= 2; a missing or empty header counts as 0 and never diverts |
| CheckerRoute.NonNumericHeaderRunsChecker | apps/server/src/checker/index.ts:32 | a header that reads as NaN never diverts, so the checker runs |
| CheckerRoute.WordHeaderIsNaN | apps/server/src/checker/index.ts:32 | the header "two" reads as NaN |
| CheckerRoute.CheckerOfEncoded | apps/server/src/checker/index.ts:25-54 | end to end: a well-formed payload with retry count n is diverted when n >= 2 and otherwise handed to the checker |
| CheckerRoute.GoogleTestOfEncoded | apps/server/src/checker/index.ts:57-75 | end to end: a well-formed payload sent with the shared secret is answered 200, and with any other authorization 401, the checker never running |
| Alerting.StatusOf | apps/server/src/checker/alerting.ts:72-81 | a key has a status exactly when some row carries that key, and the status is that row's |
| Alerting.Upsert | apps/server/src/checker/alerting.ts:72-81 | a new key appends one row with the column defaults; an existing key rewrites only status and updatedAt of the first row with that key; rows of other keys are unchanged |
| Alerting.StatusAfterUpsert | apps/server/src/checker/alerting.ts:72-81 | after the upsert the key holds the new status and every other key's status is what it was |
| Alerting.UpsertKeepsKeysUnique | apps/server/src/checker/alerting.ts:75-79 | the composite key (monitorId, region) stays unique, and exactly one row holds the upserted key |
| Alerting.UpsertIdempotent | apps/server/src/checker/alerting.ts:72-81 | repeating an upsert changes no key's status |
| Alerting.Channels | apps/server/src/checker/alerting.ts:27-39 | the channels considered are the notifications joined to a monitor whose id is `Number(monitorId)` |
| Alerting.LinkedChannelsIncluded | apps/server/src/checker/alerting.ts:27-39 | every link of the monitor whose notification and monitor exist yields its channel |
| Alerting.SendAll | apps/server/src/checker/alerting.ts:40-60 | the loop emits exactly the reference fan-out: a dispatch and its audit entry per channel in order, stopping after the first send that throws; it completes exactly when no send throws |
| Alerting.TriggerAlerting | apps/server/src/checker/alerting.ts:15-61 | the loop's events are the reference fan-out over the joined channels, with the region's location in the alert; it completes exactly when no channel's send throws |
| Alerting.CompletedFanOut | apps/server/src/checker/alerting.ts:40-59 | without a throwing send, each channel in query order produces a dispatch then a "notification.sent" audit entry for the monitor and its provider: two events per channel |
| Alerting.AbortedFanOut | apps/server/src/checker/alerting.ts:45-58 | a throwing send ends the loop: the earlier channels' events, then that channel's dispatch, no audit entry for it and nothing for later channels |
| Providers.FromName | apps/server/src/checker/utils.ts:52-79 | reading a provider name back gives the provider that has that name |
| Providers.NamesRoundTrip | apps/server/src/checker/utils.ts:52-79 | every provider is in the table, its name reads back as itself, and no two providers share a name |
| Providers.NoCrossWiring | apps/server/src/checker/utils.ts:6-79 | looked up under the name a channel stores for its provider, the entry offers sendAlert, sendRecovery and sendDegraded from that provider's own package, and no two table slots share a function |
| Providers.TableKeysAreProviderNames | apps/server/src/checker/utils.ts:52-79 | the table has an entry under a key exactly when the key is a provider name |
| Slack.Webhook | packages/notifications/slack/src/index.ts:26-27 | the webhook is the `slack` member of the parsed channel data; a parse error is a failure |
| Slack.Send | packages/notifications/slack/src/index.ts:26-62 | a data parse error escapes before any post; otherwise one post to the webhook, and a post failure is logged twice and swallowed |
| Slack.SendAlert | packages/notifications/slack/src/index.ts:15-63 | throws only on unparsable data; the post carries the alert text |
| Slack.SendRecovery | packages/notifications/slack/src/index.ts:65-110 | throws only on unparsable data; the post carries the recovery text |
| Slack.SendTestSlackMessage | packages/notifications/slack/src/index.ts:112-132 | posts the fixed test text to the given URL and answers true exactly when the post does not throw |
| Slack.WebhookOfStoredData | packages/notifications/slack/src/index.ts:26-27 | data stored by the notification form for Slack yields its URL as the webhook |
| Slack.PostFailureSwallowed | packages/notifications/slack/src/index.ts:59-62 | whether sendAlert or sendRecovery throws does not depend on whether the post fails |
| Slack.AlertDetailChoice | packages/notifications/slack/src/index.ts:38-42 | a truthy status code is reported and the message is not; an absent or zero code reports the message, and zero counts as absent |
| Slack.StatusCodePrinted | packages/notifications/slack/src/index.ts:38-42 | a status code is printed in decimal after "status code ", and reads back as the same number |
| Slack.RecoveryIgnoresDetail | packages/notifications/slack/src/index.ts:88-89 | the recovery message does not depend on the status code or the message |
| Incidents.Find | packages/api/src/router/incident.ts:49-58 | the lookup finds the first row matching both id and workspace, and none exactly when no row matches |
| Incidents.Acknowledge | packages/api/src/router/incident.ts:46-78 | "not found" without a matching row, "already acknowledged" when it is; succeeds exactly for an unacknowledged match, setting acknowledgedAt and acknowledgedBy to the caller on the matching rows only, and returns true |
| Incidents.Resolve | packages/api/src/router/incident.ts:79-114 | "not found", then "not acknowledged", then "already resolved", in that order; a success sets resolvedAt and resolvedBy on the matching rows only and returns true |
| Incidents.StageTransitions | packages/api/src/router/incident.ts:59-113 | a successful acknowledge moves the incident from open to acknowledged, and a successful resolve from acknowledged to resolved; every other row is unchanged |
| Incidents.MutationsKeepStaging | packages/api/src/router/incident.ts:62-100 | both mutations keep the invariant "resolved only once acknowledged" on every row |
| Incidents.OtherWorkspaceNotFound | packages/api/src/router/incident.ts:36-61 | an incident of another workspace is "not found" to acknowledge, resolve and read by id |
| Incidents.GetById | packages/api/src/router/incident.ts:29-44 | succeeds exactly when a row matches id and workspace, and returns such a row |
| Incidents.ByWorkspace | packages/api/src/router/incident.ts:10-27 | lists exactly the workspace's incidents, each with its monitor's name when the monitor exists and none otherwise |
| Incidents.ByWorkspaceAppend | packages/api/src/router/incident.ts:10-27 | the listing of two tables joined is the two listings joined, and one incident is listed (with its monitor's name) exactly when it belongs to the workspace: with the membership clauses this fixes the listing's order and multiplicity |
| IncidentPut.ParseBody | apps/server/src/v1/incidents/put.ts:22-30 | the body holds only optional acknowledgedAt and resolvedAt, each present exactly when sent and valid exactly when it coerces to a date |
| IncidentPut.Apply | apps/server/src/v1/incidents/put.ts:75-80 | the partial update overwrites exactly the timestamps the body carries and keeps every other column |
| IncidentPut.Lookup | apps/server/src/v1/incidents/put.ts:56-65 | finds a row whose id and workspace equal `Number` of the path id and of the caller's workspace, and none exactly when no row does |
| IncidentPut.Put | apps/server/src/v1/incidents/put.ts:50-86 | 404 exactly when the scoped lookup fails, with the table unchanged; otherwise 200 with the updated incident, only rows with the path id being rewritten |
| IncidentPut.NeverUnauthorized | apps/server/src/v1/incidents/put.ts:71-73 | the 401 branch is unreachable, because the lookup already matched the workspace |
| IncidentPut.PutTouchesOnlyTarget | apps/server/src/v1/incidents/put.ts:75-80 | with unique ids, the route rewrites only the looked-up incident and returns it |
| IncidentPut.PutCanResolveUnacknowledged | apps/server/src/v1/incidents/put.ts:75-80 | there is no acknowledged-before-resolved check: resolving an unacknowledged incident succeeds and breaks the lifecycle invariant |
| Text.Join | apps/server/src/v1/monitor.ts:38 | `String` of an array, the elements joined with ",": an empty list gives "" and a single element gives itself |
| Text.Split | apps/server/src/v1/monitor.ts:54-63 | `split` on one separator character ("," here, "\n" in the checker form) yields at least one piece and no piece contains the separator |
| Text.SplitJoin | apps/server/src/v1/monitor.ts:38-63 | splitting undoes joining for a non-empty list of pieces free of the separator |
| RegionCodec.Decode | apps/server/src/v1/monitor.ts:54-63 | a missing or empty stored value decodes to []; any other is split on "," and accepted exactly when every piece is a known region |
| RegionCodec.DecodeOfJoin | apps/server/src/v1/monitor.ts:38-63 | round trip: every list of known region codes decodes back to itself |
| RegionCodec.TrailingCommaRejected | apps/server/src/v1/monitor.ts:54-63 | a stored value with a trailing comma has an empty piece and is rejected |
| MonitorApi.ToView | apps/server/src/v1/monitor.ts:40-65 | of the schema's checks only the region list is modelled: a row parses exactly when its regions decode, and the view keeps the row's other fields |
| MonitorApi.FindById | apps/server/src/v1/monitor.ts:259-264 | the first row whose id is `Number(id)`, and none exactly when no row has it |
| MonitorApi.OwnedLookup | apps/server/src/v1/monitor.ts:266-269 | 404 exactly when no row has the id, 401 exactly when the row found belongs to another workspace, in that order; success names the caller's row |
| MonitorApi.Get | apps/server/src/v1/monitor.ts:255-273 | the lookup's 404 or 401, otherwise the found row's response |
| MonitorApi.InWorkspace | apps/server/src/v1/monitor.ts:206-210 | keeps exactly the rows of the workspace, each as many times as the table holds it |
| MonitorApi.InWorkspaceAppend | apps/server/src/v1/monitor.ts:206-210 | the query over two tables joined is the two answers joined, and one row is kept exactly when it is the workspace's, so the table's order is kept |
| MonitorApi.ToViews | apps/server/src/v1/monitor.ts:214 | the array parses exactly when every row parses, view by view |
| MonitorApi.GetAll | apps/server/src/v1/monitor.ts:203-217 | 200 exactly when every row of the workspace parses, and then only that workspace's rows are listed; else 500 |
| MonitorApi.LiveRows | apps/server/src/v1/monitor.ts:324-335 | the rows counted against the plan are exactly the workspace's rows that are not deleted, each as many times as the table holds it |
| MonitorApi.LiveRowsAppend | apps/server/src/v1/monitor.ts:324-335 | over two tables joined the live rows are the two answers joined and the count is the sum of the counts; one row is live exactly when it is the workspace's and not deleted |
| Tables.NextId | apps/server/src/v1/monitor.ts:343-351 | the id the database assigns a new row (a monitor here, a workspace in the workspace router) exceeds every id in use |
| MonitorApi.Create | apps/server/src/v1/monitor.ts:319-364 | 403 with the table unchanged when the live count reaches the plan's limit or the periodicity is not allowed; otherwise exactly one row is appended: the request's fields (`...rest` and the stringified headers), owned by the caller's workspace, not deleted, under a fresh id; the reply is that row's response |
| MonitorApi.UpdateGate | apps/server/src/v1/monitor.ts:409-423 | 400 for an empty id, then 403 for a periodicity outside the plan, then the 404/401 lookup: the periodicity check comes before existence |
| MonitorApi.UpdateAsWritten | apps/server/src/v1/monitor.ts:403-437 | as written: once the gates pass, every row of the table is overwritten with the input |
| MonitorApi.Update | apps/server/src/v1/monitor.ts:403-437 | corrected: once the gates pass, only the looked-up monitor is overwritten and returned |
| MonitorApi.UpdateTouchesOnlyTarget | apps/server/src/v1/monitor.ts:417-433 | with unique ids the corrected update rewrites only the monitor with the path id, which keeps its id and workspace |
| MonitorApi.PeriodicityBeforeExistence | apps/server/src/v1/monitor.ts:411-420 | a disallowed periodicity gives 403 even for a monitor that does not exist |
| MonitorApi.UpdateAsWrittenClobbers | apps/server/src/v1/monitor.ts:426-433 | updating monitor 2 of workspace 2 also rewrites monitor 1 of workspace 1, and the reply carries monitor 1 |
| MonitorApi.Delete | apps/server/src/v1/monitor.ts:472-493 | the lookup's 404 or 401 with the table unchanged; otherwise the found monitor becomes inactive with deletedAt set and the reply is 200 |
| MonitorApi.DeleteIsSoft | apps/server/src/v1/monitor.ts:488-492 | after a delete the row remains and the older GET still finds it; only that row changes |
| MonitorApi.SummaryCacheStable | apps/server/src/v1/monitor.ts:548-586 | a second summary request gets the same reply as the first, whatever the analytics would return then, and leaves the cache as the first left it; a request caches under its own monitor's key only, every other entry kept |
| MonitorApi.CreatedIsReadable | apps/server/src/v1/monitor.ts:341-363 | a monitor created by a workspace gets a positive id under which that workspace's GET finds it and answers with the request's fields, the same reply the create gave |
| Tables.NextIdPositive | apps/server/src/v1/monitor.ts:343-351 | fresh ids are positive |
| MonitorGet.FindVisible | apps/server/src/v1/monitors/get.ts:37-47 | finds a row matching id and workspace with no deletedAt, and none exactly when no row does |
| MonitorGet.Get | apps/server/src/v1/monitors/get.ts:32-57 | 404 exactly when no live row of the caller's workspace has the id; otherwise that row read through the route's response schema, 200 with it when it parses and 500 when it does not |
| MonitorGet.OtherWorkspaceIs404 | apps/server/src/v1/monitors/get.ts:43-51 | another workspace's monitor is 404 here, where the older route answers 401 |
| MonitorGet.DeletedIsHidden | apps/server/src/v1/monitors/get.ts:44-51 | a soft-deleted monitor is 404 here |
| MonitorGet.AgreesWithOlderRoute | apps/server/src/v1/monitors/get.ts:37-55 | when the route's response schema reads rows as the older route's `MonitorSchema` does, whatever this route serves, the older route serves the same |
| Workspaces.FirstFresh | packages/api/src/router/workspace.ts:28-39 | reference for the slug loop: the first candidate that is non-empty and not used by any workspace, and none exactly when no candidate is |
| Workspaces.PickSlug | packages/api/src/router/workspace.ts:26-39 | the loop ends with the candidate the reference names, or with none when the candidates run out |
| Workspaces.FreshAt | packages/api/src/router/workspace.ts:28-39 | an acceptable candidate preceded only by unacceptable ones is the one chosen |
| Workspaces.CreateWorkspace | packages/api/src/router/workspace.ts:22-56 | creates a workspace with an unused slug, name "" and a new id, and links the session user, not the input's userId, to it as owner |
| Workspaces.CreateKeepsSlugsUnique | packages/api/src/router/workspace.ts:28-45 | slugs stay unique after a create |
| Workspaces.MembershipOf | packages/api/src/router/workspace.ts:113-119 | finds a membership of the caller in the workspace, and none exactly when there is none |
| Workspaces.OwnerCheck | packages/api/src/router/workspace.ts:121-124 | no membership fails first, then a role other than owner |
| Workspaces.Without | packages/api/src/router/workspace.ts:129-137 | deletes exactly the target's memberships in that workspace; every other membership keeps its multiplicity |
| Workspaces.WithoutAppend | packages/api/src/router/workspace.ts:129-137 | deleting from two tables joined is the two results joined, and one membership survives exactly when it is not the target's in that workspace, so the table's order is kept |
| Workspaces.RemoveWorkspaceUser | packages/api/src/router/workspace.ts:110-138 | fails without a membership, then unless owner, then when the target is the caller; a success deletes only the target's membership in the workspace |
| Workspaces.RemovalKeepsCaller | packages/api/src/router/workspace.ts:123-137 | a successful removal keeps the caller's own owner membership |
| Workspaces.ChangePlan | packages/api/src/router/workspace.ts:140-184 | fails without a membership, then unless owner, then without a Stripe id; a success changes only the plan of the current workspace |
| Workspaces.MembersAreNotOwners | packages/api/src/router/workspace.ts:123-157 | a member who is not the owner can neither remove users nor change the plan |
| Workspaces.CountOf | packages/api/src/router/workspace.ts:201-203 | an empty result throws; a null or zero count gives 0; any other count is itself |
| Workspaces.CountIn | packages/api/src/router/workspace.ts:188-199 | the count is the number of the table's rows that belong to the workspace, so zero exactly when none does |
| Workspaces.CurrentNumbers | packages/api/src/router/workspace.ts:186-208 | the numbers are the counts of the workspace's notification channels, monitors and status pages, and never fail |
| StatusReportSchema.StatusFromName | packages/db/src/schema/status_reports/status_reports.ts:13-22 | only the four names the status column is typed with denote a status, each its own |
| StatusReportSchema.StatusNamesRoundTrip | packages/db/src/schema/status_reports/status_reports.ts:13-18 | the enum lists every status under a distinct name that reads back as the status |
| StatusReportSchema.LinkMonitor | packages/db/src/schema/status_reports/status_reports.ts:76-89 | a link is inserted exactly when its (monitorId, statusReportId) key is new and both rows exist; integrity is kept |
| StatusReportSchema.LinkPage | packages/db/src/schema/status_reports/status_reports.ts:105-118 | a link is inserted exactly when its (pageId, statusReportId) key is new and both rows exist; integrity is kept |
| StatusReportSchema.AddUpdate | packages/db/src/schema/status_reports/status_reports.ts:35-44 | an update is inserted exactly when its id is new and its report exists; integrity is kept |
| StatusReportSchema.DeleteReport | packages/db/src/schema/status_reports/status_reports.ts:42-44 | deleting a report deletes exactly its updates and the join rows that name it |
| StatusReportSchema.DeleteMonitor | packages/db/src/schema/status_reports/status_reports.ts:79-81 | deleting a monitor deletes exactly its report links |
| StatusReportSchema.DeletePage | packages/db/src/schema/status_reports/status_reports.ts:108-110 | deleting a page deletes exactly its report links |
| StatusReportSchema.CascadesKeepIntegrity | packages/db/src/schema/status_reports/status_reports.ts:42-113 | every cascade keeps all foreign keys intact and leaves no row naming the deleted one |
| StatusReportSchema.CascadeIsNeeded | packages/db/src/schema/status_reports/status_reports.ts:42-44 | without the cascade, deleting a report with updates breaks integrity |
| StatusReportPost.KeyOf | apps/server/src/v1/statusReports/update/post.ts:59 | `Number(id)` denotes a key exactly when it is a finite integer |
| StatusReportPost.Target | apps/server/src/v1/statusReports/update/post.ts:54-64 | the report updated is the one whose id is `Number(id)` and whose workspace is the caller's, if there is one |
| StatusReportPost.Accepted | apps/server/src/v1/statusReports/update/post.ts:81-90 | exactly the page's subscribers with a non-null acceptedAt, each as many times as the table holds it |
| StatusReportPost.AcceptedAppend | apps/server/src/v1/statusReports/update/post.ts:81-90 | the query over two tables joined is the two answers joined, and one subscriber is selected exactly when it is the page's and accepted |
| StatusReportPost.Mails | apps/server/src/v1/statusReports/update/post.ts:97-105 | one email per recipient, in order, with the subject "New status update for " and the page title |
| StatusReportPost.Post | apps/server/src/v1/statusReports/update/post.ts:54-112 | 404 exactly when the scoped lookup fails, with nothing inserted; otherwise the report's status becomes the input status and one update row with the input date and the report's id is inserted |
| StatusReportPost.PostKeepsIntegrity | apps/server/src/v1/statusReports/update/post.ts:54-78 | posting keeps the foreign keys intact and changes only the target report's status |
| StatusReportPost.MailsReachAccepted | apps/server/src/v1/statusReports/update/post.ts:81-105 | an email is in the batch exactly when it goes to an accepted subscriber of the page, with that page's subject |
| StatusReportPost.RecipientsAreAcceptedSubscribers | apps/server/src/v1/statusReports/update/post.ts:80-106 | when the report's page id is truthy (present and not 0) and names a page, the emails go to exactly that page's accepted subscribers, one each |
| StatusReportPost.NoPageNoEmail | apps/server/src/v1/statusReports/update/post.ts:80 | reports without a truthy page id (none, or 0) send no email |
| StatusReportList.Visible | apps/web/src/components/status-page/status-report-list.tsx:30-40 | "all" keeps every report; "latest" keeps exactly the reports with an update dated strictly after seven days ago, each as many times as the list holds it |
| StatusReportList.VisibleAppend | apps/web/src/components/status-page/status-report-list.tsx:30-40 | the visible part of two lists joined is the two visible parts joined, and one report is visible exactly when the context is "all" or it was updated within the week, so the list's order is kept |
| StatusReportList.Insert | apps/web/src/components/status-page/status-report-list.tsx:42-46 | inserting into a sorted list keeps it sorted and adds exactly the one report |
| StatusReportList.Sort | apps/web/src/components/status-page/status-report-list.tsx:42-46 | the result is a permutation of the input and is sorted |
| StatusReportList.Shown | apps/web/src/components/status-page/status-report-list.tsx:40-46 | the shown list is a permutation of the visible reports, dated reports first, in non-increasing updatedAt |
| StatusReportList.LatestWindow | apps/web/src/components/status-page/status-report-list.tsx:30-38 | a report with every update at least a week old is not shown as latest; one with a newer update is |
| StatusReportList.FindMonitor | apps/web/src/components/status-page/status-report-list.tsx:59 | finds a public monitor with the link's id, and none exactly when there is none |
| StatusReportList.PublicLinks | apps/web/src/components/status-page/status-report-list.tsx:59-62 | the links kept are exactly those naming a public monitor, each as many times as the report has it |
| StatusReportList.PublicLinksAppend | apps/web/src/components/status-page/status-report-list.tsx:59-62 | the links kept from two lists joined are the two results joined, and one link is kept exactly when it names a public monitor, so link order is kept |
| StatusReportList.Affected | apps/web/src/components/status-page/status-report-list.tsx:57-62 | at most one monitor per link, each one of the public monitors |
| StatusReportList.AffectedFollowsPublicLinks | apps/web/src/components/status-page/status-report-list.tsx:57-62 | one monitor per link to a public monitor, in link order, each the monitor `find` returns for that link, mixed lists included |
| StatusReportList.AffectedFollowsLinks | apps/web/src/components/status-page/status-report-list.tsx:57-62 | when every linked monitor is public, the affected monitors follow the links one for one, each with the link's id |
| StatusReportList.UnknownLinksDropped | apps/web/src/components/status-page/status-report-list.tsx:60-62 | links to monitors that are not public contribute nothing |
| NotificationForm.DefaultProviderData | apps/web/src/components/forms/notification-form.tsx:42-45 | "" without a provider; otherwise the provider's member of the parsed data, missing or empty data reading as "{}", and a parse error throwing |
| NotificationForm.DefaultOfStored | apps/web/src/components/forms/notification-form.tsx:42-49 | round trip: stored data for a provider reads back as the data |
| NotificationForm.OtherProviderIsUndefined | apps/web/src/components/forms/notification-form.tsx:42-49 | data stored for one provider reads as undefined under another |
| NotificationForm.PlansOf | apps/web/src/components/forms/notification-form.tsx:51-98 | every plan a provider lists is one of the four plans |
| NotificationForm.PlanGating | apps/web/src/components/forms/notification-form.tsx:58-96 | a provider is disabled exactly when it is sms and the plan is free or starter |
| NotificationForm.TestOnlyForWebhooks | apps/web/src/components/forms/notification-form.tsx:58-96 | only slack and discord have a test function |
| NotificationForm.Submit | apps/web/src/components/forms/notification-form.tsx:131-162 | empty data is a required-field error and nothing is sent; otherwise an update when editing, else a create, whose stored data reads back as the input |
| NotificationForm.TestPing | apps/web/src/components/forms/notification-form.tsx:164-175 | empty data does nothing; otherwise the provider's test is called only when it has one, and success is shown only when that test succeeds |
| Json.ParseOfStringify | apps/web/src/components/forms/notification-form.tsx:44-49 | parsing the JSON text of a flat string-valued object gives back its members |
| Json.Get | apps/web/src/components/forms/notification-form.tsx:44 | a member lookup is defined exactly when some member has the name, and then gives the value of the last member with that name |
| CheckerForm.DefaultsFillOnlyGaps | apps/web/src/app/play/checker/_components/checker-form.tsx:71-77 | the defaults fill only what is missing: a complete form is kept as it is, and a bare URL becomes a GET without redirect |
| Text.JoinSplit | apps/web/src/app/play/checker/_components/checker-form.tsx:136 | splitting loses nothing: the pieces of a chunk joined again with line feeds give it back |
| CheckerForm.NonEmpty | apps/web/src/app/play/checker/_components/checker-form.tsx:136 | keeps exactly the non-empty lines, each as many times as the chunk has it |
| CheckerForm.NonEmptyAppend | apps/web/src/app/play/checker/_components/checker-form.tsx:136 | the non-empty lines of two line lists joined are the two results joined, and one line is kept exactly when it is not empty, so line order is kept |
| CheckerForm.Rows | apps/web/src/app/play/checker/_components/checker-form.tsx:138-174 | every row is the parse of some line that is not an id, and every non-id line that parses gives its row |
| CheckerForm.RowsAppend | apps/web/src/app/play/checker/_components/checker-form.tsx:138-174 | the rows of two line lists joined are the two row lists joined, and one line gives its parse exactly when it is not an id and parses, else nothing: rows come one per such line, in line order |
| CheckerForm.IdLines | apps/web/src/app/play/checker/_components/checker-form.tsx:141 | keeps exactly the lines that are 32-character hex ids, each as many times as the chunk has it |
| CheckerForm.IdLinesAppend | apps/web/src/app/play/checker/_components/checker-form.tsx:141 | the id lines of two line lists joined are the two results joined, and one line is kept exactly when it is an id, so line order is kept |
| CheckerForm.Navigations | apps/web/src/app/play/checker/_components/checker-form.tsx:141-163 | one navigation per id line, in order, each to that id: a push to its result page when redirecting, else a replace; lines without ids navigate nowhere |
| CheckerForm.ReadChunk | apps/web/src/app/play/checker/_components/checker-form.tsx:130-178 | an empty chunk adds no row and navigates nowhere; any chunk adds exactly the rows of its non-empty lines and navigates once per id line, in order, to that id |
| CheckerForm.ReadStream | apps/web/src/app/play/checker/_components/checker-form.tsx:106-201 | the result starts empty and ends as every chunk's rows, in arrival order; the browser navigates once per id line across all chunks, in arrival order, each to that id; when the fetch or a read rejects, reading stops with the rows kept and one last navigation clears the `id`, and only then |
| CheckerForm.RowsComeFromLines | apps/web/src/app/play/checker/_components/checker-form.tsx:136-174 | every row of the result is the parse of a non-id line of some chunk |
| CheckerForm.IdLinesAddNothing | apps/web/src/app/play/checker/_components/checker-form.tsx:141-168 | a chunk made only of id lines adds no row |
| CheckerForm.UnparsedLinesDropped | apps/web/src/app/play/checker/_components/checker-form.tsx:165-174 | lines that fail to parse add no row |
| CheckerForm.StatusClassColour | apps/web/src/app/play/checker/_components/checker-form.tsx:399-414 | a status code from 100 to 599 is gray, green, blue, yellow or red by its class |
| CheckerForm.FirstCharOnly | apps/web/src/app/play/checker/_components/checker-form.tsx:399-414 | only the first character counts: 20 is green, and a negative value is gray |
| CheckerForm.FirstCharIsLeadDigit | apps/web/src/app/play/checker/_components/checker-form.tsx:400 | the printed number starts with its leading digit |
| MonitorColumns.HasTagNamed | apps/web/src/components/data-table/monitor/columns.tsx:123 | true exactly when some tag has the name |
| MonitorColumns.AnySelected | apps/web/src/components/data-table/monitor/columns.tsx:122-124 | true exactly when the row has tags and one of them is named by a selected item |
| MonitorColumns.TagsFilterMeaning | apps/web/src/components/data-table/monitor/columns.tsx:122-124 | the filter passes exactly when some selected name equals some tag's name; an empty selection or a row without tags never passes |
| MonitorColumns.PublicFilterMeaning | apps/web/src/components/data-table/monitor/columns.tsx:147-150 | selecting `[true]` keeps exactly the public monitors and `[false]` exactly the private ones; selecting both keeps every row, selecting neither keeps none |
| MonitorColumns.Uptime | apps/web/src/components/data-table/monitor/columns.tsx:195-200 | a ratio is never shown with a zero count or ok |
| MonitorColumns.UptimeShownIff | apps/web/src/components/data-table/monitor/columns.tsx:196-200 | the ratio is shown exactly when count and ok are present and non-zero, and it is ok over count |
| WebVitals.ConfigWellFormed | packages/rum/src/config.ts:3-169 | each of the six events has an entry with good, needs-improvement and poor bands from 0, contiguous, the last unbounded, with strictly increasing thresholds; CLS alone is unitless, the rest in ms |
| WebVitals.Rate | packages/rum/src/config.ts:12-169 | a non-negative value falls in one band of a well-formed entry, each band taken to include its lower end and exclude its upper one (the configuration does not say which); a negative value falls in none |
| WebVitals.BandsPartition | packages/rum/src/config.ts:12-169 | the bands partition the non-negative values: a value in a band is rated as that band |
| Timezone.QuarterHours | apps/web/src/lib/timezone.ts:29-30 | the printed hours are never empty, and a whole number of hours is printed as that number (the fractional text is stated by `Timezone.QuarterHoursReadBack`) |
| Timezone.QuarterHoursReadBack | apps/web/src/lib/timezone.ts:29-30 | the printed hours are what `Number` reads as the quarter count divided by four, fractions ".25", ".5" and ".75" included |
| Timezone.ConvertMeaning | apps/web/src/lib/timezone.ts:15-33 | a non-empty explicit zone decides the name whatever the header and server zone, failing that a non-empty header decides it whatever the server zone; the name reads back as the chosen zone's offset, whole hours or not |
| Timezone.OffsetOfName | apps/web/src/lib/timezone.ts:27-32 | a name reads back as the unknown offset exactly when it is "Etc/UTC" |
| Timezone.ZoneNameRoundTrip | apps/web/src/lib/timezone.ts:27-32 | round trip: every offset, quarter hours included, and the unknown one reads back from its name, the written sign being the opposite of the offset's |
| Timezone.ZeroOffsetName | apps/web/src/lib/timezone.ts:30 | offset zero is written "Etc/GMT-0" |
| JsNumber.NumberOfNatToString | apps/server/src/checker/index.ts:32 | `Number` of a natural number's decimal text is that number |

## Left out

- **Database, Redis, Tinybird, QStash signature checks, fetch, email sending and audit publishing.** These are I/O. Tables are sequences, maps or sets. A fetch that fails and a cache hit are parameters. An audit publish is an event that never fails.
- **The checker and the too-many-retries call in the ingress.** Only the fact that they were invoked is recorded; their completion and concurrency are not modelled.
- **Which of sendAlert, sendRecovery and sendDegraded the alert loop calls.** The alert loop calls `providerToFunction[provider]` itself, a record, so the dispatch is kept abstract. packages/notifications/slack/src/index.ts defines no `sendDegraded`, though apps/server/src/checker/utils.ts imports one.
- **Parsing of joined monitor rows in the alert loop.** The loop parses each joined row with `selectMonitorSchema` and `selectNotificationSchema`; channel rows are taken as valid.
- **Cross-region aggregation and status-transition detection.** They are outside the modelled files.
- **Fresh ids and the random slug generator.** Database-assigned ids become an argument, or `NextId` (one above every id in use). The random slugs become a finite list of candidates, so `Workspaces.PickSlug` can end with no slug where the source would keep drawing.
- **Json.** It covers flat objects whose members are strings: the notification data and the request bodies as value trees. Numbers inside JSON text, nesting and arrays are not parsed from text. A `\u` escape pair of a high and a low UTF-16 surrogate decodes to one character, but a lone surrogate escape (`"\uD800"`) is refused where `JSON.parse` accepts it, because a Dafny string holds Unicode scalar values only.
- **Dates.** `z.coerce.date()` and `new Date(...)` are modelled as parameters or integers in milliseconds.
- **Response serialisation.** The `IncidentSchema`, `MonitorSchema` and `StatusReportSchema` parses of responses are not modelled, apart from the region list.
- **Update of monitor headers.** The `headers` JSON encoding is not modelled: the monitor PUT stores it as a string column.
- **Email bodies, the Slack block layout and uptime rounding.** These are HTML, wire formatting and floating point. Only subjects, recipients, message text and the ratio are kept.
- **The `Intl` time-zone lookup, the request header and `getTimezoneOffset`.** These are parameters.
- Timezone.OffsetOfName: reads back only names whose hours are a non-negative whole number of quarters, the only ones `Timezone.ZoneName` writes; other offsets (a 20-minute zone, say) are outside `Timezone.Offset`.
- **TextDecoder splitting a multi-byte character across chunks.** Chunks are taken as already decoded strings.
- **The read-only workspace queries.** `getUserWithWorkspace`, `getWorkspace`, `getUserWorkspaces` and `getWorkspaceUsers` are plain reads with no rule to state.
- **Analytics on monitor creation.** The `trackAnalytics` call after a monitor is created is a side effect with no rule to state.
- **`updateWorkspace`.** It sets the name of the caller's workspace with no guard.
- JsNumber.ToNumber: finite values are exact reals, so `Number` does not round to double precision (in JavaScript "1.0000000000000001" reads as 1, here it does not equal 1, so a path id written that way misses its monitor or report).
- JsNumber.NumberOfNatToString: holds for exact values only; in JavaScript `String` prints 1e21 and above in exponent form and `Number` rounds above 2^53, neither of which `JsNumber.NatToString` or `JsNumber.ToNumber` model.
- Slack.Webhook: JSON text that is valid but not a flat object of strings (`{"slack":1}`, `{"a":{}}`, `[]`) is treated as a parse error, where `JSON.parse` succeeds and the `slack` member is read as it is; `Json` parses flat string objects only.
- Slack.Send: inherits `Slack.Webhook`'s treatment of valid JSON that is not a flat object of strings as a throw.
- Slack.SendAlert: throws on valid JSON that is not a flat object of strings, where JavaScript posts to whatever the `slack` member holds.
- Slack.SendRecovery: throws on valid JSON that is not a flat object of strings, as `Slack.SendAlert` does.
- NotificationForm.DefaultProviderData: valid JSON data that is not a flat object of strings is treated as a parse error, where `JSON.parse` succeeds and the provider's member is read as it is.
- MonitorGet.Get: apps/server/src/v1/monitors/schema.ts is not part of this model, so the route's response schema is a parameter; `MonitorGet.AgreesWithOlderRoute` assumes it reads rows as monitor.ts's `MonitorSchema` does.
- MonitorApi.ToView: of `MonitorSchema`'s checks only the region list is modelled; a row whose url is not a URL (monitor.ts:50), whose periodicity or method is outside its enumeration (monitor.ts:46, 83) or whose headers text is not JSON (monitor.ts:97-98) parses here but fails in the source, so the 500 that `MonitorApi.Get` and `MonitorApi.GetAll` give on an unreadable row is stated for region lists only.
- MonitorApi.SummaryCacheStable: the cache entry's 600-second expiry (`ex: 600`, monitor.ts:583) is not modelled; the lemma is about a second request that comes before the entry expires.
- CheckerForm.ReadStream: the toasts are not modelled, and a response without a readable body is modelled as a stream of no chunks, which has the same effect as the early `return` (the rows stay empty, nothing navigates).
- StatusReportList.Shown: for the "all" context the source sorts the caller's `statusReports` array in place, so the caller's own array is reordered as well; the model returns a fresh sequence and states only the order it has.
- MonitorApi.Create: the `MonitorSchema` output of the new row is reduced to the row itself (its readability is `MonitorApi.CreatedIsReadable`).

## Findings

| source | as written | input that shows it | evidently intended | confidence | as-written member | corrected member |
|---|---|---|---|---|---|---|
| apps/server/src/v1/monitor.ts:426-433 | the monitor PUT's `update(monitor).set(...)` has no `where` clause, so every monitor row is overwritten and `.get()` returns the first | a table with monitor 1 of workspace 1 and monitor 2 of workspace 2; workspace 2 updates monitor 2 | only the monitor with the path id is updated, and that monitor is returned | high, not executed | MonitorApi.UpdateAsWritten (shown by MonitorApi.UpdateAsWrittenClobbers) | MonitorApi.Update (with MonitorApi.UpdateTouchesOnlyTarget) |

=== FILE: alerting.dfy ===
/** Alerting (apps/server/src/checker/alerting.ts): the per-region monitor
    status table with its upsert keyed on (monitor, region), and the loop that
    sends one notification per channel linked to a monitor, each followed by an
    audit-log entry. */
module Alerting {
  import opened Wrappers
  import JsNumber
  import opened Providers

  // ---------------------------------------------------------------------
  // Monitor status table
  // ---------------------------------------------------------------------

  /** The table's composite key. The monitor id is `Number(monitorId)` of the
      caller's string. */
  datatype StatusKey = StatusKey(monitorId: JsNumber.Num, region: string)

  /** When a row was last written: the column default on insert, or the
      instant the conflicting upsert ran. */
  datatype Stamp = ColumnDefault | At(time: int)

  datatype StatusRow = StatusRow(key: StatusKey, status: string, updatedAt: Stamp)

  /** The primary key constraint: no two rows share a key. */
  predicate UniqueKeys(t: seq<StatusRow>) {
    forall i, j :: 0 <= i < j < |t| ==> t[i].key != t[j].key
  }

  /** The status stored under `k`, if any. */
  function StatusOf(t: seq<StatusRow>, k: StatusKey): (r: Option<string>)
    ensures r.Some? <==> exists i :: 0 <= i < |t| && t[i].key == k
    ensures r.Some? ==> exists i :: 0 <= i < |t| && t[i].key == k && t[i].status == r.value
  {
    if t == [] then None
    else if t[0].key == k then Some(t[0].status)
    else
      var r := StatusOf(t[1..], k);
      assert forall i :: 1 <= i < |t| ==> t[i] == t[1..][i - 1];
      if r.Some? then
        ghost var i :| 0 <= i < |t[1..]| && t[1..][i].key == k && t[1..][i].status == r.value;
        assert t[i + 1] == t[1..][i];
        r
      else r
  }

  /** `upsertMonitorStatus`: insert a row for `k`, or, on a key conflict,
      overwrite the existing row's status and stamp it with `now`. */
  function Upsert(t: seq<StatusRow>, k: StatusKey, status: string, now: int): (r: seq<StatusRow>)
    ensures |r| == |t| || |r| == |t| + 1
    ensures forall i :: 0 <= i < |t| ==> r[i].key == t[i].key
    ensures forall i :: 0 <= i < |t| && t[i].key != k ==> r[i] == t[i]
    ensures forall i :: 0 <= i < |t| && t[i].key == k ==>
      (forall j :: 0 <= j < i ==> t[j].key != k) ==> r[i] == t[i].(status := status, updatedAt := At(now))
    ensures |r| == |t| + 1 <==> forall i :: 0 <= i < |t| ==> t[i].key != k
    ensures |r| == |t| + 1 ==> r[|t|] == StatusRow(k, status, ColumnDefault)
  {
    if t == [] then [StatusRow(k, status, ColumnDefault)]
    else if t[0].key == k then [t[0].(status := status, updatedAt := At(now))] + t[1..]
    else [t[0]] + Upsert(t[1..], k, status, now)
  }

  /** After the upsert the key holds the new status and every other key
      keeps its status: the table behaves as a map from keys to statuses. */
  lemma {:induction false} StatusAfterUpsert(t: seq<StatusRow>, k: StatusKey, status: string, now: int, k': StatusKey)
    ensures StatusOf(Upsert(t, k, status, now), k') == if k' == k then Some(status) else StatusOf(t, k')
  {
    if t != [] && t[0].key != k {
      StatusAfterUpsert(t[1..], k, status, now, k');
      var r := Upsert(t, k, status, now);
      assert r[1..] == Upsert(t[1..], k, status, now);
    } else if t != [] {
      var r := Upsert(t, k, status, now);
      assert r[1..] == t[1..];
    }
  }

  /** The upsert keeps the key constraint, and afterwards exactly one row
      carries the key, with the new status. */
  lemma UpsertKeepsKeysUnique(t: seq<StatusRow>, k: StatusKey, status: string, now: int)
    requires UniqueKeys(t)
    ensures UniqueKeys(Upsert(t, k, status, now))
    ensures var r := Upsert(t, k, status, now);
      exists i :: 0 <= i < |r| && r[i].key == k && r[i].status == status
        && forall j :: 0 <= j < |r| && j != i ==> r[j].key != k
  {
    var r := Upsert(t, k, status, now);
    forall i, j | 0 <= i < j < |r| ensures r[i].key != r[j].key {
      if j == |t| {
        assert r[i].key == t[i].key;
      } else {
        assert r[i].key == t[i].key && r[j].key == t[j].key;
      }
    }
    StatusAfterUpsert(t, k, status, now, k);
    var i :| 0 <= i < |r| && r[i].key == k && r[i].status == status;
  }

  /** Repeating an upsert changes no status: the second call only moves the
      row's stamp. */
  lemma UpsertIdempotent(t: seq<StatusRow>, k: StatusKey, status: string, now: int, later: int, k': StatusKey)
    ensures StatusOf(Upsert(Upsert(t, k, status, now), k, status, later), k') ==
            StatusOf(Upsert(t, k, status, now), k')
  {
    StatusAfterUpsert(Upsert(t, k, status, now), k, status, later, k');
    StatusAfterUpsert(t, k, status, now, k');
  }

  // ---------------------------------------------------------------------
  // Notification fan-out
  // ---------------------------------------------------------------------

  /** A notification channel as stored. */
  datatype Notification = Notification(id: int, provider: Provider, data: string)

  /** A row of the join table between notifications and monitors. */
  datatype Link = Link(notificationId: int, monitorId: int)

  /** The tables the alerting query reads. Monitor rows are identified by
      their id only; their other columns are passed through to the provider. */
  datatype Store = Store(links: seq<Link>, notifications: map<int, Notification>, monitors: set<int>)

  /** One row of the query's result: a linked channel of the monitor. */
  datatype Channel = Channel(monitorId: int, notification: Notification)

  /** The inner join of links with notifications and monitors, restricted to
      the monitor whose id equals `Number(monitorId)`, in link order. */
  function Channels(s: Store, monitorId: string): (cs: seq<Channel>)
    ensures forall c :: c in cs ==>
      c.notification.id in s.notifications && s.notifications[c.notification.id] == c.notification
      && c.monitorId in s.monitors && Link(c.notification.id, c.monitorId) in s.links
      && JsNumber.Finite(c.monitorId as real) == JsNumber.ToNumber(monitorId)
  {
    JoinLinks(s, s.links, JsNumber.ToNumber(monitorId))
  }

  function JoinLinks(s: Store, links: seq<Link>, id: JsNumber.Num): (cs: seq<Channel>)
    ensures forall c :: c in cs ==>
      c.notification.id in s.notifications && s.notifications[c.notification.id] == c.notification
      && c.monitorId in s.monitors && Link(c.notification.id, c.monitorId) in links
      && JsNumber.Finite(c.monitorId as real) == id
  {
    if links == [] then []
    else
      var l := links[0];
      var rest := JoinLinks(s, links[1..], id);
      if l.notificationId in s.notifications && l.monitorId in s.monitors
         && JsNumber.Finite(l.monitorId as real) == id
         && s.notifications[l.notificationId].id == l.notificationId
      then [Channel(l.monitorId, s.notifications[l.notificationId])] + rest
      else rest
  }

  /** Every link of a monitor whose channel exists yields a channel. */
  lemma {:induction false} LinkedChannelsIncluded(s: Store, links: seq<Link>, id: JsNumber.Num, l: Link)
    requires l in links && l.notificationId in s.notifications && l.monitorId in s.monitors
    requires JsNumber.Finite(l.monitorId as real) == id
    requires s.notifications[l.notificationId].id == l.notificationId
    ensures Channel(l.monitorId, s.notifications[l.notificationId]) in JoinLinks(s, links, id)
  {
    if links[0] != l {
      LinkedChannelsIncluded(s, links[1..], id, l);
    }
  }

  /** What the alert says, the same for every channel: the monitor id as the
      caller gave it, the location of the region, and the optional status
      code and message. */
  datatype Alert = Alert(monitorId: string, location: string, statusCode: Option<int>, message: Option<string>)

  /** A side effect of the loop. */
  datatype Event =
    | Dispatch(provider: Provider, notificationId: int, alert: Alert)
    | Audit(id: string, action: string, target: string, provider: Provider)

  function DispatchOf(c: Channel, a: Alert): Event {
    Dispatch(c.notification.provider, c.notification.id, a)
  }

  /** The audit entry published after a successful send. */
  function AuditOf(c: Channel, a: Alert): Event {
    Audit("monitor:" + a.monitorId, "notification.sent", a.monitorId, c.notification.provider)
  }

  /** Reference definition of the fan-out's events: dispatch and audit per
      channel in order, stopping right after the first dispatch that throws
      (the channels in `failing`). */
  function FanOut(cs: seq<Channel>, a: Alert, failing: set<int>): seq<Event>
  {
    if cs == [] then []
    else if cs[0].notification.id in failing then [DispatchOf(cs[0], a)]
    else [DispatchOf(cs[0], a), AuditOf(cs[0], a)] + FanOut(cs[1..], a, failing)
  }

  /** The `for … of` loop over the joined channels: for each, the provider
      call and then the audit entry; a throw leaves the loop at once. Returns
      the events in order and whether the loop finished. */
  method SendAll(cs: seq<Channel>, a: Alert, failing: set<int>) returns (events: seq<Event>, completed: bool)
    ensures events == FanOut(cs, a, failing)
    ensures completed <==> forall c :: c in cs ==> c.notification.id !in failing
  {
    events := [];
    var i := 0;
    assert cs[0..] == cs;
    while i < |cs|
      invariant 0 <= i <= |cs|
      invariant forall j :: 0 <= j < i ==> cs[j].notification.id !in failing
      invariant FanOut(cs, a, failing) == events + FanOut(cs[i..], a, failing)
    {
      var c := cs[i];
      assert cs[i..][0] == c && cs[i..][1..] == cs[i + 1..];
      events := events + [DispatchOf(c, a)];
      if c.notification.id in failing {
        completed := false;
        assert c in cs;
        return;
      }
      events := events + [AuditOf(c, a)];
      i := i + 1;
    }
    completed := true;
  }

  /** `triggerAlerting`. `regions` is the region dictionary (region code to
      location), `failing` the channels whose provider call throws. Returns
      the events in order and whether the loop finished; a throw propagates
      out of the loop unhandled. */
  method TriggerAlerting(s: Store, monitorId: string, region: string, regions: map<string, string>,
                         statusCode: Option<int>, message: Option<string>, failing: set<int>)
    returns (events: seq<Event>, completed: bool)
    requires region in regions
    ensures events == FanOut(Channels(s, monitorId), Alert(monitorId, regions[region], statusCode, message), failing)
    ensures completed <==> forall c :: c in Channels(s, monitorId) ==> c.notification.id !in failing
  {
    var cs := Channels(s, monitorId);
    events, completed := SendAll(cs, Alert(monitorId, regions[region], statusCode, message), failing);
  }

  /** Without a failing send, the fan-out produces exactly a dispatch
      followed by its audit entry for each channel, in order: as many audit
      entries as channels. */
  lemma {:induction false} CompletedFanOut(cs: seq<Channel>, a: Alert, failing: set<int>)
    requires forall c :: c in cs ==> c.notification.id !in failing
    ensures |FanOut(cs, a, failing)| == 2 * |cs|
    ensures forall i :: 0 <= i < |cs| ==>
      FanOut(cs, a, failing)[2 * i] == DispatchOf(cs[i], a) && FanOut(cs, a, failing)[2 * i + 1] == AuditOf(cs[i], a)
  {
    if cs != [] {
      assert cs[0] in cs;
      assert forall c :: c in cs[1..] ==> c in cs;
      CompletedFanOut(cs[1..], a, failing);
      var rest := FanOut(cs[1..], a, failing);
      var e := FanOut(cs, a, failing);
      assert e == [DispatchOf(cs[0], a), AuditOf(cs[0], a)] + rest;
      forall i | 1 <= i < |cs| ensures e[2 * i] == DispatchOf(cs[i], a) && e[2 * i + 1] == AuditOf(cs[i], a) {
        assert e[2 * i] == rest[2 * (i - 1)] && e[2 * i + 1] == rest[2 * (i - 1) + 1];
        assert cs[i] == cs[1..][i - 1];
      }
    }
  }

  /** A send that throws ends the fan-out: the channels before it produced
      their dispatch and audit, it produced its dispatch alone, and no later
      channel was touched. */
  lemma {:induction false} AbortedFanOut(cs: seq<Channel>, k: nat, a: Alert, failing: set<int>)
    requires k < |cs| && cs[k].notification.id in failing
    requires forall j :: 0 <= j < k ==> cs[j].notification.id !in failing
    ensures FanOut(cs, a, failing) == FanOut(cs[..k], a, failing) + [DispatchOf(cs[k], a)]
    ensures |FanOut(cs, a, failing)| == 2 * k + 1
  {
    if k > 0 {
      AbortedFanOut(cs[1..], k - 1, a, failing);
      assert cs[1..][..k - 1] == cs[..k][1..];
    }
  }
}

=== FILE: checker_form.dfy ===
/** The checker playground form
    (apps/web/src/app/play/checker/_components/checker-form.tsx): its input
    schema, how streamed chunks become result rows, and the colour of a status
    dot. A row is of any type `Row`; `parse` stands for `JSON.parse` with the
    cast, `None` when it throws or yields `null`. */
module CheckerForm {
  import opened Wrappers
  import JsNumber
  import Text
  import Seqs

  datatype Method = Get | Post | Put | Delete

  /** `formSchema`: a URL, a method from `METHODS`, and the redirect flag. */
  datatype FormInput = FormInput(url: string, verb: Method, redirect: bool)

  /** `formSchema`'s defaults for a missing method or redirect flag. */
  function WithDefaults(url: string, verb: Option<Method>, redirect: Option<bool>): (f: FormInput)
    ensures f.url == url
    ensures verb.None? ==> f.verb == Get
    ensures verb.Some? ==> f.verb == verb.value
    ensures f.redirect <==> redirect == Some(true)
  {
    FormInput(url, verb.GetOr(Get), redirect.GetOr(false))
  }

  /** The defaults fill in only what is missing: a complete form is kept as
      it is, and a bare URL becomes a GET without redirect. */
  lemma DefaultsFillOnlyGaps(f: FormInput, url: string)
    ensures WithDefaults(f.url, Some(f.verb), Some(f.redirect)) == f
    ensures WithDefaults(url, None, None) == FormInput(url, Get, false)
  {
  }

  /** `s.split("\n")`: the lines of a chunk, empty ones included. */
  function Lines(s: string): seq<string> {
    Text.Split(s, '\n')
  }

  /** JavaScript truthiness of a string: it is not empty. */
  predicate Truthy(line: string) {
    line != ""
  }

  /** `.filter(Boolean)`: the non-empty lines, in order, each as often as
      it occurs. */
  function NonEmpty(ps: seq<string>): (r: seq<string>)
    ensures forall x :: x in r <==> x in ps && x != ""
    ensures forall x :: multiset(r)[x] == if x == "" then 0 else multiset(ps)[x]
    ensures |r| <= |ps|
  {
    Seqs.FilterMeaning(ps, Truthy);
    Seqs.Filter(ps, Truthy)
  }

  /** The non-empty lines of two runs of lines are those of the first run
      followed by those of the second; a single line is kept exactly when it
      is not empty. */
  lemma NonEmptyAppend(a: seq<string>, b: seq<string>)
    ensures NonEmpty(a + b) == NonEmpty(a) + NonEmpty(b)
    ensures forall x :: NonEmpty([x]) == if x == "" then [] else [x]
  {
    Seqs.FilterAppend(a, b, Truthy);
    forall x ensures NonEmpty([x]) == if x == "" then [] else [x] {
      Seqs.FilterOne(x, Truthy);
    }
  }

  predicate IsHexDigit(c: char) {
    '0' <= c <= '9' || 'a' <= c <= 'f' || 'A' <= c <= 'F'
  }

  /** `is32CharHex`: exactly 32 hexadecimal digits, the id under which the
      result is stored. */
  predicate Is32CharHex(s: string) {
    |s| == 32 && forall i :: 0 <= i < |s| ==> IsHexDigit(s[i])
  }

  /** Where the browser is sent: an id line pushes the result page or
      replaces the `id` search parameter; a failed stream removes it. */
  datatype Navigation = Push(path: string) | ReplaceId(id: string) | ClearId

  /** The row one line contributes: none for an id line, otherwise its parse. */
  function LineRow<Row>(line: string, parse: string -> Option<Row>): (r: Option<Row>)
    ensures Is32CharHex(line) ==> r.None?
    ensures !Is32CharHex(line) ==> r == parse(line)
  {
    if Is32CharHex(line) then None else parse(line)
  }

  /** The row of a line, as a function of the line. */
  function RowOf<Row>(parse: string -> Option<Row>): string -> Option<Row> {
    line => LineRow(line, parse)
  }

  /** The rows of a list of lines, in order, lines without a row dropped:
      every row comes from a line, and every line with a row contributes
      it. */
  function Rows<Row>(lines: seq<string>, parse: string -> Option<Row>): (r: seq<Row>)
    ensures |r| <= |lines|
    ensures forall x :: x in r ==> exists i :: 0 <= i < |lines| && !Is32CharHex(lines[i]) && parse(lines[i]) == Some(x)
    ensures forall i :: 0 <= i < |lines| && LineRow(lines[i], parse).Some? ==> LineRow(lines[i], parse).value in r
  {
    Seqs.FilterMapMeaning(lines, RowOf(parse));
    Seqs.FilterMap(lines, RowOf(parse))
  }

  /** The rows of two runs of lines are those of the first run followed by
      those of the second, and a single line gives its row when it has one:
      each line's row is kept, in line order. */
  lemma RowsAppend<Row>(a: seq<string>, b: seq<string>, parse: string -> Option<Row>)
    ensures Rows(a + b, parse) == Rows(a, parse) + Rows(b, parse)
    ensures forall l :: Rows([l], parse) == if LineRow(l, parse).Some? then [LineRow(l, parse).value] else []
  {
    Seqs.FilterMapAppend(a, b, RowOf(parse));
    forall l ensures Rows([l], parse) == if LineRow(l, parse).Some? then [LineRow(l, parse).value] else [] {
      Seqs.FilterMapOne(l, RowOf(parse));
    }
  }

  /** The id lines of a list of lines, in order, each as often as it
      occurs. */
  function IdLines(lines: seq<string>): (ids: seq<string>)
    ensures |ids| <= |lines|
    ensures forall x :: x in ids <==> x in lines && Is32CharHex(x)
    ensures forall x :: multiset(ids)[x] == if Is32CharHex(x) then multiset(lines)[x] else 0
  {
    Seqs.FilterMeaning(lines, Is32CharHex);
    Seqs.Filter(lines, Is32CharHex)
  }

  /** The id lines of two runs of lines are those of the first run followed
      by those of the second; a single line is an id line exactly when it is
      a 32-character hex id. */
  lemma IdLinesAppend(a: seq<string>, b: seq<string>)
    ensures IdLines(a + b) == IdLines(a) + IdLines(b)
    ensures forall x :: IdLines([x]) == if Is32CharHex(x) then [x] else []
  {
    Seqs.FilterAppend(a, b, Is32CharHex);
    forall x ensures IdLines([x]) == if Is32CharHex(x) then [x] else [] {
      Seqs.FilterOne(x, Is32CharHex);
    }
  }

  /** Where the id `id` sends the browser: `router.push` to the result page
      when redirecting, otherwise `router.replace` with `?id=` set. */
  function NavigationOf(id: string, redirect: bool): Navigation {
    if redirect then Push("/play/checker/" + id) else ReplaceId(id)
  }

  /** The navigations a list of lines triggers, line by line as the `map`
      callback meets them: one per id line, in order, each to that id. */
  function Navigations(lines: seq<string>, redirect: bool): (r: seq<Navigation>)
    ensures |r| == |IdLines(lines)|
    ensures forall k :: 0 <= k < |r| ==> r[k] == NavigationOf(IdLines(lines)[k], redirect)
    ensures forall k :: 0 <= k < |r| ==> (r[k].Push? <==> redirect)
    ensures (forall k :: 0 <= k < |lines| ==> !Is32CharHex(lines[k])) ==> r == []
  {
    if lines == [] then []
    else
      var rest := Navigations(lines[1..], redirect);
      var ids := IdLines(lines[1..]);
      Seqs.FilterCons(lines[0], lines[1..], Is32CharHex);
      assert [lines[0]] + lines[1..] == lines;
      assert forall k :: 1 <= k < |lines| ==> lines[k] == lines[1..][k - 1];
      if Is32CharHex(lines[0]) then
        assert IdLines(lines) == [lines[0]] + ids;
        NavigateAppend([NavigationOf(lines[0], redirect)], [lines[0]], rest, ids, redirect);
        [NavigationOf(lines[0], redirect)] + rest
      else
        assert IdLines(lines) == ids;
        rest
  }

  /** The rows one decoded chunk contributes. */
  function ChunkRows<Row>(chunk: string, parse: string -> Option<Row>): seq<Row> {
    Rows(NonEmpty(Lines(chunk)), parse)
  }

  /** The id lines one decoded chunk carries. */
  function ChunkIds(chunk: string): seq<string> {
    IdLines(NonEmpty(Lines(chunk)))
  }

  /** Reference definition of the stream's navigations: every chunk's id
      lines, in arrival order. */
  function AllIds(chunks: seq<string>): seq<string> {
    if chunks == [] then [] else ChunkIds(chunks[0]) + AllIds(chunks[1..])
  }

  /** Reference definition of the stream's result: every chunk's rows, in
      arrival order. */
  function AllRows<Row>(chunks: seq<string>, parse: string -> Option<Row>): seq<Row> {
    if chunks == [] then [] else ChunkRows(chunks[0], parse) + AllRows(chunks[1..], parse)
  }

  /** One step of the reference definition: the rows of the chunks from
      `i` on are chunk `i`'s rows followed by those of the later chunks. */
  lemma AllRowsStep<Row>(chunks: seq<string>, i: nat, parse: string -> Option<Row>)
    requires i < |chunks|
    ensures AllRows(chunks[i..], parse) == ChunkRows(chunks[i], parse) + AllRows(chunks[i + 1..], parse)
  {
    assert chunks[i..][0] == chunks[i] && chunks[i..][1..] == chunks[i + 1..];
  }

  /** An empty chunk has no rows. */
  lemma EmptyChunkNoRows<Row>(parse: string -> Option<Row>)
    ensures ChunkRows("", parse) == []
  {
    assert Lines("") == [""];
    NonEmptyAppend([], []);
  }

  /** The body of `fetchAndReadStream`'s loop for one decoded chunk: an
      empty chunk is skipped; otherwise its non-empty lines give the rows to
      append and the navigations to perform. */
  method ReadChunk<Row>(decoded: string, redirect: bool, parse: string -> Option<Row>)
    returns (rows: seq<Row>, navigations: seq<Navigation>)
    ensures rows == ChunkRows(decoded, parse)
    ensures |navigations| == |ChunkIds(decoded)|
    ensures forall k :: 0 <= k < |navigations| ==> navigations[k] == NavigationOf(ChunkIds(decoded)[k], redirect)
    ensures decoded == "" ==> rows == [] && navigations == []
  {
    if decoded == "" {
      EmptyChunkNoRows(parse);
      assert ChunkIds("") == [];
      return [], [];
    }
    var lines := NonEmpty(Lines(decoded));
    rows := Rows(lines, parse);
    navigations := Navigations(lines, redirect);
  }

  /** `if (!_result.length) continue; currentResult = [...currentResult,
      ..._result]`: skipping an empty batch is the same as appending it. */
  function Extend<Row>(acc: seq<Row>, rows: seq<Row>): (r: seq<Row>)
    ensures r == acc + rows
  {
    if |rows| > 0 then acc + rows
    else
      assert acc + rows == acc;
      acc
  }

  /** `fetchAndReadStream`: the result starts empty and each decoded chunk's
      rows are appended, an empty chunk or one without rows leaving it
      unchanged; every id line navigates. `chunks` are the values the reader
      delivers, none when the response has no body; `failed` says that the
      fetch or a later `reader.read()` rejected after them, whereupon the
      `catch` stops reading, keeps the rows already shown and removes the
      `id` from the URL. */
  method ReadStream<Row>(chunks: seq<string>, failed: bool, redirect: bool, parse: string -> Option<Row>)
    returns (result: seq<Row>, navigations: seq<Navigation>)
    ensures result == AllRows(chunks, parse)
    ensures |navigations| == |AllIds(chunks)| + (if failed then 1 else 0)
    ensures forall k :: 0 <= k < |AllIds(chunks)| ==> navigations[k] == NavigationOf(AllIds(chunks)[k], redirect)
    ensures failed ==> navigations[|navigations| - 1] == ClearId
    ensures forall k :: 0 <= k < |navigations| ==> (navigations[k] == ClearId <==> failed && k == |navigations| - 1)
  {
    result := [];
    navigations := [];
    ghost var ids: seq<string> := [];
    var i := 0;
    assert chunks[0..] == chunks;
    while i < |chunks|
      invariant 0 <= i <= |chunks|
      invariant result + AllRows(chunks[i..], parse) == AllRows(chunks, parse)
      invariant ids + AllIds(chunks[i..]) == AllIds(chunks)
      invariant Navigate(navigations, ids, redirect)
    {
      result, navigations, ids := ReadNext(chunks, i, redirect, parse, result, navigations, ids);
      i := i + 1;
    }
    assert chunks[i..] == [];
    assert ids == AllIds(chunks);
    if failed {
      navigations := navigations + [ClearId];
    }
  }

  /** One turn of `fetchAndReadStream`'s loop, reading chunk `i`: what is
      still to come shrinks by that chunk and what was done grows by it. */
  method ReadNext<Row>(chunks: seq<string>, i: nat, redirect: bool, parse: string -> Option<Row>,
                       result: seq<Row>, navigations: seq<Navigation>, ghost ids: seq<string>)
    returns (result': seq<Row>, navigations': seq<Navigation>, ghost ids': seq<string>)
    requires i < |chunks|
    requires Navigate(navigations, ids, redirect)
    ensures result' + AllRows(chunks[i + 1..], parse) == result + AllRows(chunks[i..], parse)
    ensures ids' + AllIds(chunks[i + 1..]) == ids + AllIds(chunks[i..])
    ensures Navigate(navigations', ids', redirect)
  {
    var rows, navs := ReadChunk(chunks[i], redirect, parse);
    var chunkIds := ChunkIds(chunks[i]);
    AllRowsStep(chunks, i, parse);
    AllIdsStep(chunks, i);
    NavigateAppend(navigations, ids, navs, chunkIds, redirect);
    navigations' := navigations + navs;
    ids' := ids + chunkIds;
    result' := Extend(result, rows);
    Seqs.Associative(result, rows, AllRows(chunks[i + 1..], parse));
    Seqs.Associative(ids, chunkIds, AllIds(chunks[i + 1..]));
  }

  /** `navs` are the navigations to `ids`, one each, in order. */
  predicate Navigate(navs: seq<Navigation>, ids: seq<string>, redirect: bool) {
    |navs| == |ids| && forall k :: 0 <= k < |navs| ==> navs[k] == NavigationOf(ids[k], redirect)
  }

  /** Navigating to two runs of ids one after the other. */
  lemma NavigateAppend(navs: seq<Navigation>, ids: seq<string>, navs': seq<Navigation>, ids': seq<string>, redirect: bool)
    requires Navigate(navs, ids, redirect) && Navigate(navs', ids', redirect)
    ensures Navigate(navs + navs', ids + ids', redirect)
  {
    var n, m := navs + navs', ids + ids';
    forall k | 0 <= k < |n| ensures n[k] == NavigationOf(m[k], redirect) {
      if k >= |navs| {
        assert n[k] == navs'[k - |navs|] && m[k] == ids'[k - |ids|];
      }
    }
  }

  /** One step of the navigations' reference definition. */
  lemma AllIdsStep(chunks: seq<string>, i: nat)
    requires i < |chunks|
    ensures AllIds(chunks[i..]) == ChunkIds(chunks[i]) + AllIds(chunks[i + 1..])
  {
    assert chunks[i..][0] == chunks[i] && chunks[i..][1..] == chunks[i + 1..];
  }

  /** Every row of the result is the parse of a non-id line of some chunk. */
  lemma {:induction false} RowsComeFromLines<Row>(chunks: seq<string>, parse: string -> Option<Row>, x: Row)
    requires x in AllRows(chunks, parse)
    ensures exists c, l :: 0 <= c < |chunks| && l in Lines(chunks[c]) && !Is32CharHex(l) && parse(l) == Some(x)
  {
    var first := ChunkRows(chunks[0], parse);
    if x in first {
      var lines := NonEmpty(Lines(chunks[0]));
      var j :| 0 <= j < |lines| && !Is32CharHex(lines[j]) && parse(lines[j]) == Some(x);
      assert lines[j] in lines;
    } else {
      RowsComeFromLines(chunks[1..], parse, x);
      var c, l :| 0 <= c < |chunks[1..]| && l in Lines(chunks[1..][c]) && !Is32CharHex(l) && parse(l) == Some(x);
      assert chunks[c + 1] == chunks[1..][c];
    }
  }

  /** A chunk made only of id lines adds no row. */
  lemma {:induction false} IdLinesAddNothing<Row>(lines: seq<string>, parse: string -> Option<Row>)
    requires forall i :: 0 <= i < |lines| ==> Is32CharHex(lines[i])
    ensures Rows(lines, parse) == []
  {
    if lines != [] {
      IdLinesAddNothing(lines[1..], parse);
      RowsAppend([lines[0]], lines[1..], parse);
      assert [lines[0]] + lines[1..] == lines;
    }
  }

  /** Lines that parse to nothing contribute nothing. */
  lemma {:induction false} UnparsedLinesDropped<Row>(lines: seq<string>, parse: string -> Option<Row>)
    requires forall i :: 0 <= i < |lines| ==> parse(lines[i]).None?
    ensures Rows(lines, parse) == []
  {
    if lines != [] {
      UnparsedLinesDropped(lines[1..], parse);
      RowsAppend([lines[0]], lines[1..], parse);
      assert [lines[0]] + lines[1..] == lines;
    }
  }

  /** The colour of a `StatusDot`. */
  datatype Colour = Gray | Green | Blue | Yellow | Red

  /** `StatusDot`: chosen by the first character of the printed value. */
  function StatusDot(value: int): (c: Colour) {
    var s := JsNumber.IntToString(value);
    if s == [] then Gray
    else
      match s[0]
      case '1' => Gray
      case '2' => Green
      case '3' => Blue
      case '4' => Yellow
      case '5' => Red
      case _ => Gray
  }

  /** The leading decimal digit of a natural number. */
  function LeadDigit(n: nat): (d: nat)
    ensures d < 10
  {
    if n < 10 then n else LeadDigit(n / 10)
  }

  /** The printed text starts with the leading digit. */
  lemma {:induction false} FirstCharIsLeadDigit(n: nat)
    ensures JsNumber.NatToString(n)[0] == JsNumber.DigitChar(LeadDigit(n))
  {
    if n >= 10 {
      FirstCharIsLeadDigit(n / 10);
    }
  }

  /** The colour of a status code is that of its class: 1xx gray, 2xx
      green, 3xx blue, 4xx yellow, 5xx red. */
  lemma StatusClassColour(code: int)
    requires 100 <= code < 600
    ensures StatusDot(code) == [Gray, Green, Blue, Yellow, Red][code / 100 - 1]
  {
    var d := code / 100;
    FirstCharIsLeadDigit(code);
    assert LeadDigit(code) == LeadDigit(code / 10) == d;
    var c := JsNumber.IntToString(code)[0];
    assert c == JsNumber.DigitChar(d);
    if d == 1 { assert c == '1'; }
    else if d == 2 { assert c == '2'; }
    else if d == 3 { assert c == '3'; }
    else if d == 4 { assert c == '4'; }
    else { assert c == '5'; }
  }

  /** The dot reads only the first character: 20 is green like 200, and a
      negative value is gray. */
  lemma FirstCharOnly(n: int)
    ensures StatusDot(20) == Green
    ensures n < 0 ==> StatusDot(n) == Gray
  {
    FirstCharIsLeadDigit(20);
  }
}

=== FILE: checker_payload.dfy ===
/** The check-result payload and its validator (`payloadSchema`,
    apps/web/src/app/api/checker/schema.ts). The allowed methods and statuses
    (`monitorMethods`, `monitorStatus`) are declared in a database schema file
    that is not part of this model; the validator takes them as parameters. */
module CheckerPayload {
  import opened Wrappers
  import opened Json

  datatype Header = Header(key: string, value: string)

  /** A validated payload. Unknown members of the input object are dropped. */
  datatype Payload = Payload(
    workspaceId: string,
    monitorId: string,
    httpMethod: string,
    body: Option<string>,
    headers: Option<seq<Header>>,
    url: string,
    cronTimestamp: real,
    status: string,
    assertions: Option<string>)

  /** The enumerations the schema refers to. */
  datatype Enums = Enums(methods: set<string>, statuses: set<string>)

  /** The schema's fields. */
  datatype Field = WorkspaceId | MonitorId | Method | Body | Headers | Url | CronTimestamp | Status | Assertions

  /** The fields in declaration order; a validation failure lists the
      offending fields in this order. */
  const AllFields: seq<Field> :=
    [WorkspaceId, MonitorId, Method, Body, Headers, Url, CronTimestamp, Status, Assertions]

  /** The member name of a field in the JSON object. */
  function Key(f: Field): string {
    match f
    case WorkspaceId => "workspaceId"
    case MonitorId => "monitorId"
    case Method => "method"
    case Body => "body"
    case Headers => "headers"
    case Url => "url"
    case CronTimestamp => "cronTimestamp"
    case Status => "status"
    case Assertions => "assertions"
  }

  predicate IsStringAt(fields: map<string, Value>, k: string) {
    k in fields && fields[k].JString?
  }

  /** One `{ key, value }` header object: both members present and strings. */
  predicate IsHeader(v: Value) {
    v.JObject? && IsStringAt(v.fields, "key") && IsStringAt(v.fields, "value")
  }

  predicate IsHeaderList(v: Value) {
    v.JArray? && forall i :: 0 <= i < |v.items| ==> IsHeader(v.items[i])
  }

  /** Whether the input object satisfies the schema entry of field `f`:
      required strings, enum members, an optional string body, an optional
      list of header objects, a required number, and `assertions`, which must
      be present but may be `null`. */
  predicate FieldValid(fields: map<string, Value>, f: Field, e: Enums) {
    var k := Key(f);
    match f
    case WorkspaceId => IsStringAt(fields, k)
    case MonitorId => IsStringAt(fields, k)
    case Url => IsStringAt(fields, k)
    case Method => IsStringAt(fields, k) && fields[k].s in e.methods
    case Status => IsStringAt(fields, k) && fields[k].s in e.statuses
    case Body => k !in fields || fields[k].JString?
    case Headers => k !in fields || IsHeaderList(fields[k])
    case CronTimestamp => k in fields && fields[k].JNumber?
    case Assertions => k in fields && (fields[k].JString? || fields[k].JNull?)
  }

  /** Every field satisfies its schema entry. */
  predicate Conforms(fields: map<string, Value>, e: Enums) {
    && FieldValid(fields, WorkspaceId, e) && FieldValid(fields, MonitorId, e)
    && FieldValid(fields, Method, e) && FieldValid(fields, Body, e)
    && FieldValid(fields, Headers, e) && FieldValid(fields, Url, e)
    && FieldValid(fields, CronTimestamp, e) && FieldValid(fields, Status, e)
    && FieldValid(fields, Assertions, e)
  }

  lemma AllFieldsComplete(f: Field)
    ensures f in AllFields
  {
    match f
    case WorkspaceId => assert AllFields[0] == f;
    case MonitorId => assert AllFields[1] == f;
    case Method => assert AllFields[2] == f;
    case Body => assert AllFields[3] == f;
    case Headers => assert AllFields[4] == f;
    case Url => assert AllFields[5] == f;
    case CronTimestamp => assert AllFields[6] == f;
    case Status => assert AllFields[7] == f;
    case Assertions => assert AllFields[8] == f;
  }

  /** The fields of `fs` that fail their schema entry, in order. */
  function InvalidFields(fields: map<string, Value>, fs: seq<Field>, e: Enums): (r: seq<Field>)
    ensures forall x :: x in r <==> x in fs && !FieldValid(fields, x, e)
  {
    if fs == [] then []
    else
      var rest := InvalidFields(fields, fs[1..], e);
      if FieldValid(fields, fs[0], e) then rest else [fs[0]] + rest
  }

  function HeaderOf(v: Value): Header
    requires IsHeader(v)
  {
    Header(v.fields["key"].s, v.fields["value"].s)
  }

  function ToHeaders(items: seq<Value>): (hs: seq<Header>)
    requires forall i :: 0 <= i < |items| ==> IsHeader(items[i])
    ensures |hs| == |items|
    ensures forall i :: 0 <= i < |items| ==> IsHeader(items[i]) && hs[i] == HeaderOf(items[i])
  {
    if items == [] then []
    else
      assert IsHeader(items[0]);
      [HeaderOf(items[0])] + ToHeaders(items[1..])
  }

  /** Why a payload was refused. */
  datatype ValidationError = NotAnObject | InvalidFieldList(fields: seq<Field>)

  /** The payload an object satisfying the schema parses to: each field read
      from its member, `body` and `headers` only when present, and a `null`
      `assertions` as none. */
  function PayloadOf(f: map<string, Value>, e: Enums): (p: Payload)
    requires Conforms(f, e)
    ensures p.httpMethod in e.methods && p.status in e.statuses
    ensures p.body.Some? <==> "body" in f
    ensures p.headers.Some? <==> "headers" in f
    ensures p.headers.Some? ==> |p.headers.value| == |f["headers"].items|
    ensures p.assertions.None? <==> f["assertions"].JNull?
  {
    Payload(
      f["workspaceId"].s,
      f["monitorId"].s,
      f["method"].s,
      if "body" in f then Some(f["body"].s) else None,
      if "headers" in f then Some(ToHeaders(f["headers"].items)) else None,
      f["url"].s,
      f["cronTimestamp"].n,
      f["status"].s,
      if f["assertions"].JString? then Some(f["assertions"].s) else None)
  }

  /** `payloadSchema.safeParse(json)`: success exactly when the input is an
      object satisfying every field's entry, with the payload read from the
      input's members; otherwise the list of offending fields. */
  function Validate(v: Value, e: Enums): (r: Result<Payload, ValidationError>)
    ensures r.Success? <==> v.JObject? && Conforms(v.fields, e)
    ensures !v.JObject? ==> r == Failure(NotAnObject)
    ensures r.Failure? && v.JObject? ==>
      r.error.InvalidFieldList? && r.error.fields != [] && forall f :: f in r.error.fields <==> !FieldValid(v.fields, f, e)
    ensures r.Success? ==> r.value == PayloadOf(v.fields, e)
  {
    if !v.JObject? then Failure(NotAnObject)
    else
      var f := v.fields;
      var bad := InvalidFields(f, AllFields, e);
      assert forall x: Field :: x in bad <==> !FieldValid(f, x, e) by {
        forall x: Field ensures x in AllFields { AllFieldsComplete(x); }
      }
      if bad != [] then
        assert bad[0] in bad;
        Failure(InvalidFieldList(bad))
      else
        assert Conforms(f, e) by {
          assert WorkspaceId !in bad && MonitorId !in bad && Method !in bad;
          assert Body !in bad && Headers !in bad && Url !in bad;
          assert CronTimestamp !in bad && Status !in bad && Assertions !in bad;
        }
        Success(PayloadOf(f, e))
  }

  /** The JSON object a producer sends for a payload. */
  function Encode(p: Payload): Value {
    JObject(EncodeFields(p))
  }

  function EncodeAssertions(a: Option<string>): Value {
    match a
    case Some(t) => JString(t)
    case None => JNull
  }

  /** The members of the encoded object: the required ones, then `body` and
      `headers` when present. */
  function EncodeFields(p: Payload): map<string, Value> {
    var required := map[
      "workspaceId" := JString(p.workspaceId),
      "monitorId" := JString(p.monitorId),
      "method" := JString(p.httpMethod),
      "url" := JString(p.url),
      "cronTimestamp" := JNumber(p.cronTimestamp),
      "status" := JString(p.status),
      "assertions" := EncodeAssertions(p.assertions)];
    var withBody := if p.body.Some? then required["body" := JString(p.body.value)] else required;
    if p.headers.Some? then withBody["headers" := JArray(EncodeHeaders(p.headers.value))] else withBody
  }

  function EncodeHeaders(hs: seq<Header>): (items: seq<Value>)
    ensures |items| == |hs|
    ensures forall i :: 0 <= i < |hs| ==>
      items[i] == JObject(map["key" := JString(hs[i].key), "value" := JString(hs[i].value)])
  {
    if hs == [] then [] else [JObject(map["key" := JString(hs[0].key), "value" := JString(hs[0].value)])] + EncodeHeaders(hs[1..])
  }

  /** Header objects as sent are read back as the same headers. */
  lemma HeadersRoundTrip(hs: seq<Header>)
    ensures IsHeaderList(JArray(EncodeHeaders(hs)))
    ensures ToHeaders(EncodeHeaders(hs)) == hs
  {
    var items := EncodeHeaders(hs);
    forall i | 0 <= i < |items| ensures IsHeader(items[i]) && HeaderOf(items[i]) == hs[i] {
      var m := items[i].fields;
      assert "key" in m && "value" in m;
    }
  }

  /** Each member of the encoded object holds the payload's value, and the
      optional members are present exactly when the payload has them. */
  lemma EncodedMembers(p: Payload)
    ensures var f := EncodeFields(p);
      && f["workspaceId"] == JString(p.workspaceId)
      && f["monitorId"] == JString(p.monitorId)
      && f["method"] == JString(p.httpMethod)
      && f["url"] == JString(p.url)
      && f["status"] == JString(p.status)
      && f["cronTimestamp"] == JNumber(p.cronTimestamp)
      && f["assertions"] == EncodeAssertions(p.assertions)
      && ("body" in f <==> p.body.Some?)
      && (p.body.Some? ==> f["body"] == JString(p.body.value))
      && ("headers" in f <==> p.headers.Some?)
      && (p.headers.Some? ==> f["headers"] == JArray(EncodeHeaders(p.headers.value)))
  {
  }

  /** Every payload whose method and status belong to the enumerations is
      accepted when sent as JSON, and validates back to itself. */
  lemma ValidateEncode(p: Payload, e: Enums)
    requires p.httpMethod in e.methods && p.status in e.statuses
    ensures Validate(Encode(p), e) == Success(p)
  {
    var f := EncodeFields(p);
    EncodeConforms(p, e);
    EncodedMembers(p);
    if p.headers.Some? {
      HeadersRoundTrip(p.headers.value);
    }
    var q := PayloadOf(f, e);
    assert q.assertions == p.assertions;
    assert q.body == p.body;
    assert q.headers == p.headers;
    assert q == p;
  }

  /** The encoded object satisfies the schema when its enumerated members do. */
  lemma EncodeConforms(p: Payload, e: Enums)
    requires p.httpMethod in e.methods && p.status in e.statuses
    ensures Conforms(Encode(p).fields, e)
  {
    var f := EncodeFields(p);
    EncodedMembers(p);
    if p.headers.Some? {
      HeadersRoundTrip(p.headers.value);
    }
    assert FieldValid(f, WorkspaceId, e) && FieldValid(f, MonitorId, e) && FieldValid(f, Url, e);
    assert FieldValid(f, Method, e) && FieldValid(f, Status, e);
    assert FieldValid(f, Body, e) && FieldValid(f, Headers, e);
    assert FieldValid(f, CronTimestamp, e) && FieldValid(f, Assertions, e);
  }

  /** Removing another field's member does not change whether a field is
      valid. */
  lemma RemovingOtherMember(fields: map<string, Value>, e: Enums, k: Field, j: Field)
    requires j != k
    ensures FieldValid(fields - {Key(k)}, j, e) == FieldValid(fields, j, e)
  {
    assert Key(j) != Key(k);
  }

  /** Exactly `body` and `headers` are optional: removing any other member
      from a valid object makes it invalid, removing one of those two keeps it
      valid. */
  lemma RequiredAndOptionalMembers(fields: map<string, Value>, e: Enums, k: Field)
    requires Validate(JObject(fields), e).Success?
    ensures Validate(JObject(fields - {Key(k)}), e).Success? <==> k == Body || k == Headers
  {
    var f' := fields - {Key(k)};
    forall j: Field | j != k ensures FieldValid(f', j, e) == FieldValid(fields, j, e) {
      RemovingOtherMember(fields, e, k, j);
    }
    assert FieldValid(f', k, e) <==> k == Body || k == Headers;
  }
}

=== FILE: checker_route.dfy ===
/** The check ingress (apps/server/src/checker/index.ts): the `/checker` handler,
    which validates a payload and either diverts it to the too-many-retries path
    or runs the checker, and the `/googleTest` handler, which only checks the
    shared secret and the payload. Both checker calls are made without `await`;
    only the fact that they were invoked is modelled. */
module CheckerRoute {
  import opened Wrappers
  import opened Json
  import JsNumber
  import opened CheckerPayload

  /** What a handler set in motion. */
  datatype Action =
    | RunChecker(payload: Payload)
    | TooManyRetry(payload: Payload)

  /** The HTTP status of the reply and the actions, in order. */
  datatype Response = Response(status: nat, actions: seq<Action>)

  /** The number of retries QStash reports: `Number(header || 0)`, where a
      missing or empty header falls back to the number 0. */
  function RetryCount(header: Option<string>): JsNumber.Num {
    if header.None? || header.value == "" then JsNumber.Finite(0.0)
    else JsNumber.ToNumber(header.value)
  }

  /** Whether the request is diverted to the too-many-retries path. */
  predicate TooManyRetries(header: Option<string>) {
    JsNumber.AtLeast(RetryCount(header), 2.0)
  }

  /** `POST /checker`. The body is `None` when it is not JSON: `c.req.json()`
      then throws, and the app, which sets no error handler, answers 500.
      `checkerThrows` says whether the (not awaited) call to the checker
      throws before returning its promise.
      An invalid payload is answered 422 and sets nothing in motion, whatever
      the retry header says; a valid one with two or more retries is diverted
      once and answered 200; any other valid one runs the checker exactly once
      and is answered 200, or 500 when that call throws. */
  function Checker(body: Option<Value>, retried: Option<string>, e: Enums, checkerThrows: bool): (r: Response)
    ensures body.None? ==> r == Response(500, [])
    ensures r.status == 422 <==> body.Some? && Validate(body.value, e).Failure?
    ensures r.status == 422 ==> r.actions == []
    ensures r.status == 200 ==> |r.actions| == 1 && r.actions[0].payload == Validate(body.value, e).value
    ensures r.status == 200 ==> (r.actions[0].TooManyRetry? <==> TooManyRetries(retried))
    ensures r.status == 500 <==> body.None? || (Validate(body.value, e).Success? && !TooManyRetries(retried) && checkerThrows)
    ensures r.status == 500 && body.Some? ==> r.actions == [RunChecker(Validate(body.value, e).value)]
    ensures r.status in {200, 422, 500}
  {
    if body.None? then Response(500, [])
    else
      match Validate(body.value, e)
      case Failure(_) => Response(422, [])
      case Success(p) =>
        if TooManyRetries(retried) then Response(200, [TooManyRetry(p)])
        else if checkerThrows then Response(500, [RunChecker(p)])
        else Response(200, [RunChecker(p)])
  }

  /** `POST /googleTest`: a body that is not JSON throws first, giving 500;
      then 401 unless the `Authorization` header is exactly `Basic <secret>`,
      checked before the payload; then 422 on an invalid payload; otherwise
      200. It never runs the checker. */
  function GoogleTest(body: Option<Value>, authorization: Option<string>, secret: string, e: Enums): (r: Response)
    ensures r.actions == []
    ensures r.status == 500 <==> body.None?
    ensures r.status == 401 <==> body.Some? && authorization != Some("Basic " + secret)
    ensures r.status == 422 <==> body.Some? && authorization == Some("Basic " + secret) && Validate(body.value, e).Failure?
    ensures r.status == 200 <==> body.Some? && authorization == Some("Basic " + secret) && Validate(body.value, e).Success?
  {
    if body.None? then Response(500, [])
    else if authorization != Some("Basic " + secret) then Response(401, [])
    else if Validate(body.value, e).Failure? then Response(422, [])
    else Response(200, [])
  }

  /** A retry header carrying the decimal number `n` diverts the request
      exactly when `n >= 2`; a missing or empty header never does. */
  lemma RetryThreshold(n: nat)
    ensures TooManyRetries(Some(JsNumber.NatToString(n))) <==> n >= 2
    ensures !TooManyRetries(None) && !TooManyRetries(Some(""))
  {
    var h := JsNumber.NatToString(n);
    JsNumber.NumberOfNatToString(n);
    assert RetryCount(Some(h)) == JsNumber.Finite(n as real);
  }

  /** A header that is not a number reads as `NaN`, which is below every
      threshold, so the checker runs. */
  lemma NonNumericHeaderRunsChecker(h: string)
    requires h != "" && JsNumber.ToNumber(h) == JsNumber.NaN
    ensures !TooManyRetries(Some(h))
  {
  }

  /** For instance the header `"two"` is not a number. */
  lemma WordHeaderIsNaN()
    ensures JsNumber.ToNumber("two") == JsNumber.NaN
  {
    var t := "two";
    assert !JsNumber.IsWhitespace(t[0]) && !JsNumber.IsWhitespace(t[2]);
    assert JsNumber.Trim(t) == t;
    assert JsNumber.SpanDigits(t, 10) == 0;
    assert JsNumber.SplitDecimal(t) == JsNumber.DecimalParts("", "", t);
  }

  /** End to end: a payload a producer sends with retry count `n` is diverted
      when `n >= 2` and otherwise handed to the checker. */
  lemma CheckerOfEncoded(p: Payload, e: Enums, n: nat, checkerThrows: bool)
    requires p.httpMethod in e.methods && p.status in e.statuses
    ensures Checker(Some(Encode(p)), Some(JsNumber.NatToString(n)), e, checkerThrows) ==
      if n >= 2 then Response(200, [TooManyRetry(p)])
      else Response(if checkerThrows then 500 else 200, [RunChecker(p)])
  {
    ValidateEncode(p, e);
    RetryThreshold(n);
  }

  /** End to end: a payload a producer sends with the shared secret is
      accepted, and with any other authorization refused, in both cases
      without running the checker. */
  lemma GoogleTestOfEncoded(p: Payload, e: Enums, secret: string, authorization: Option<string>)
    requires p.httpMethod in e.methods && p.status in e.statuses
    ensures GoogleTest(Some(Encode(p)), authorization, secret, e) ==
      Response(if authorization == Some("Basic " + secret) then 200 else 401, [])
  {
    ValidateEncode(p, e);
  }
}

=== FILE: incidents.dfy ===
/** The incident router (packages/api/src/router/incident.ts): listing a
    workspace's incidents, reading one, and the guarded lifecycle
    open → acknowledged → resolved. The table is a sequence of rows in storage
    order; ids are unique. Instants are integers (milliseconds). */
module Incidents {
  import opened Wrappers
  import Seqs

  datatype Incident = Incident(
    id: int,
    workspaceId: int,
    monitorId: Option<int>,
    acknowledgedAt: Option<int>,
    acknowledgedBy: Option<int>,
    resolvedAt: Option<int>,
    resolvedBy: Option<int>)

  /** The stage of an incident, read off its timestamps. */
  datatype Stage = Open | Acknowledged | Resolved

  function StageOf(i: Incident): Stage {
    if i.resolvedAt.Some? then Resolved
    else if i.acknowledgedAt.Some? then Acknowledged
    else Open
  }

  /** The lifecycle invariant: an incident is resolved only once acknowledged. */
  predicate WellStaged(i: Incident) {
    i.resolvedAt.Some? ==> i.acknowledgedAt.Some?
  }

  predicate AllWellStaged(t: seq<Incident>) {
    forall k :: 0 <= k < |t| ==> WellStaged(t[k])
  }

  /** The primary key: no two rows share an id. */
  predicate UniqueIds(t: seq<Incident>) {
    forall a, b :: 0 <= a < b < |t| ==> t[a].id != t[b].id
  }

  /** The caller's scope: a row is visible when both its id and its
      workspace match. */
  predicate Matches(i: Incident, id: int, workspaceId: int) {
    i.id == id && i.workspaceId == workspaceId
  }

  /** `select … where id = ? and workspaceId = ? .get()`: the first
      matching row. */
  function Find(t: seq<Incident>, id: int, workspaceId: int): (r: Option<nat>)
    ensures r.Some? ==> r.value < |t| && Matches(t[r.value], id, workspaceId)
    ensures r.Some? ==> forall k :: 0 <= k < r.value ==> !Matches(t[k], id, workspaceId)
    ensures r.None? <==> forall k :: 0 <= k < |t| ==> !Matches(t[k], id, workspaceId)
  {
    if t == [] then None
    else if Matches(t[0], id, workspaceId) then Some(0)
    else
      match Find(t[1..], id, workspaceId)
      case None => None
      case Some(k) => Some(k + 1)
  }

  /** Why a mutation failed. */
  datatype IncidentError = NotFound | AlreadyAcknowledged | NotAcknowledged | AlreadyResolved

  /** The two stamps a mutation can set. */
  datatype Mark = AcknowledgeMark | ResolveMark

  /** Stamps a row with the caller and `now`. */
  function Stamp(i: Incident, m: Mark, user: int, now: int): Incident {
    match m
    case AcknowledgeMark => i.(acknowledgedAt := Some(now), acknowledgedBy := Some(user))
    case ResolveMark => i.(resolvedAt := Some(now), resolvedBy := Some(user))
  }

  /** `update … set … where id = ? and workspaceId = ?`: the matching rows
      are stamped in place, every other row is left as it was. */
  function UpdateWhere(t: seq<Incident>, id: int, workspaceId: int, m: Mark, user: int, now: int): (r: seq<Incident>)
    ensures |r| == |t|
    ensures forall k :: 0 <= k < |t| && Matches(t[k], id, workspaceId) ==> r[k] == Stamp(t[k], m, user, now)
    ensures forall k :: 0 <= k < |t| && !Matches(t[k], id, workspaceId) ==> r[k] == t[k]
  {
    seq(|t|, k requires 0 <= k < |t| => if Matches(t[k], id, workspaceId) then Stamp(t[k], m, user, now) else t[k])
  }

  /** `acknowledgeIncident`: fails when no incident with this id exists in
      the caller's workspace, or when it is already acknowledged; otherwise
      stamps the acknowledgement with the caller and `now` on the matching
      row only, and returns `true`. */
  function Acknowledge(t: seq<Incident>, id: int, workspaceId: int, user: int, now: int)
    : (r: Result<(bool, seq<Incident>), IncidentError>)
    ensures Find(t, id, workspaceId).None? ==> r == Failure(NotFound)
    ensures Find(t, id, workspaceId).Some? && t[Find(t, id, workspaceId).value].acknowledgedAt.Some? ==>
      r == Failure(AlreadyAcknowledged)
    ensures r.Success? <==> Find(t, id, workspaceId).Some? && t[Find(t, id, workspaceId).value].acknowledgedAt.None?
    ensures r.Success? ==> r.value.0 && |r.value.1| == |t|
    ensures r.Success? ==> forall k :: 0 <= k < |t| ==>
      r.value.1[k] == if Matches(t[k], id, workspaceId)
                      then t[k].(acknowledgedAt := Some(now), acknowledgedBy := Some(user))
                      else t[k]
  {
    match Find(t, id, workspaceId)
    case None => Failure(NotFound)
    case Some(k) =>
      if t[k].acknowledgedAt.Some? then Failure(AlreadyAcknowledged)
      else Success((true, UpdateWhere(t, id, workspaceId, AcknowledgeMark, user, now)))
  }

  /** `resolvedIncident`: fails when the incident is not found in the
      caller's workspace, is not acknowledged, or is already resolved, in that
      order; otherwise stamps the resolution on the matching row only. */
  function Resolve(t: seq<Incident>, id: int, workspaceId: int, user: int, now: int)
    : (r: Result<(bool, seq<Incident>), IncidentError>)
    ensures Find(t, id, workspaceId).None? ==> r == Failure(NotFound)
    ensures Find(t, id, workspaceId).Some? ==>
      var i := t[Find(t, id, workspaceId).value];
      && (i.acknowledgedAt.None? ==> r == Failure(NotAcknowledged))
      && (i.acknowledgedAt.Some? && i.resolvedAt.Some? ==> r == Failure(AlreadyResolved))
      && (r.Success? <==> i.acknowledgedAt.Some? && i.resolvedAt.None?)
    ensures r.Success? ==> r.value.0 && |r.value.1| == |t|
    ensures r.Success? ==> forall k :: 0 <= k < |t| ==>
      r.value.1[k] == if Matches(t[k], id, workspaceId)
                      then t[k].(resolvedAt := Some(now), resolvedBy := Some(user))
                      else t[k]
  {
    match Find(t, id, workspaceId)
    case None => Failure(NotFound)
    case Some(k) =>
      if t[k].acknowledgedAt.None? then Failure(NotAcknowledged)
      else if t[k].resolvedAt.Some? then Failure(AlreadyResolved)
      else Success((true, UpdateWhere(t, id, workspaceId, ResolveMark, user, now)))
  }

  /** With unique ids, a successful acknowledge moves exactly the looked-up
      incident from open to acknowledged, and a successful resolve moves it
      from acknowledged to resolved; no other row changes. */
  lemma StageTransitions(t: seq<Incident>, id: int, workspaceId: int, user: int, now: int)
    requires UniqueIds(t) && AllWellStaged(t)
    ensures Acknowledge(t, id, workspaceId, user, now).Success? ==>
      var k := Find(t, id, workspaceId).value;
      var t' := Acknowledge(t, id, workspaceId, user, now).value.1;
      && StageOf(t[k]) == Open && StageOf(t'[k]) == Acknowledged
      && forall j :: 0 <= j < |t| && j != k ==> t'[j] == t[j]
    ensures Resolve(t, id, workspaceId, user, now).Success? ==>
      var k := Find(t, id, workspaceId).value;
      var t' := Resolve(t, id, workspaceId, user, now).value.1;
      && StageOf(t[k]) == Acknowledged && StageOf(t'[k]) == Resolved
      && forall j :: 0 <= j < |t| && j != k ==> t'[j] == t[j]
  {
    if Find(t, id, workspaceId).Some? {
      var k := Find(t, id, workspaceId).value;
      assert forall j :: 0 <= j < |t| && j != k ==> !Matches(t[j], id, workspaceId) by {
        forall j | 0 <= j < |t| && j != k ensures !Matches(t[j], id, workspaceId) {
          if j < k { } else { assert t[k].id != t[j].id; }
        }
      }
    }
  }

  /** Both mutations keep every incident well staged: nothing is ever
      resolved without having been acknowledged. */
  lemma MutationsKeepStaging(t: seq<Incident>, id: int, workspaceId: int, user: int, now: int)
    requires UniqueIds(t) && AllWellStaged(t)
    ensures Acknowledge(t, id, workspaceId, user, now).Success? ==>
      AllWellStaged(Acknowledge(t, id, workspaceId, user, now).value.1)
    ensures Resolve(t, id, workspaceId, user, now).Success? ==>
      AllWellStaged(Resolve(t, id, workspaceId, user, now).value.1)
  {
    var a := Acknowledge(t, id, workspaceId, user, now);
    if a.Success? {
      forall k | 0 <= k < |t| ensures WellStaged(a.value.1[k]) {
        assert WellStaged(t[k]);
      }
    }
    var r := Resolve(t, id, workspaceId, user, now);
    if r.Success? {
      var f := Find(t, id, workspaceId).value;
      forall k | 0 <= k < |t| ensures WellStaged(r.value.1[k]) {
        assert WellStaged(t[k]);
      }
    }
  }

  /** The other workspace's incident is invisible: to a caller of another
      workspace every mutation fails with "not found" and changes nothing. */
  lemma OtherWorkspaceNotFound(t: seq<Incident>, id: int, workspaceId: int, user: int, now: int)
    requires forall k :: 0 <= k < |t| && t[k].id == id ==> t[k].workspaceId != workspaceId
    ensures Acknowledge(t, id, workspaceId, user, now) == Failure(NotFound)
    ensures Resolve(t, id, workspaceId, user, now) == Failure(NotFound)
    ensures GetById(t, id, workspaceId).Failure?
  {
  }

  /** `getIncidentById`: the matching row, or a failure (parsing `undefined`
      against the incident schema throws). */
  function GetById(t: seq<Incident>, id: int, workspaceId: int): (r: Result<Incident, string>)
    ensures r.Success? <==> exists k :: 0 <= k < |t| && Matches(t[k], id, workspaceId)
    ensures r.Success? ==> r.value in t && Matches(r.value, id, workspaceId)
  {
    match Find(t, id, workspaceId)
    case None => Failure("invalid incident")
    case Some(k) => Success(t[k])
  }

  /** A row of the listing: the incident and the name of its monitor, absent
      when the incident has no monitor or the monitor row is gone. */
  datatype Listed = Listed(incident: Incident, monitorName: Option<string>)

  /** The monitor name the left join finds for an incident: none when the
      incident has no monitor or the monitor row is gone. */
  function MonitorName(i: Incident, monitorNames: map<int, string>): Option<string> {
    if i.monitorId.Some? && i.monitorId.value in monitorNames then Some(monitorNames[i.monitorId.value]) else None
  }

  /** The listing row of an incident of the workspace; none for another
      workspace's incident. */
  function ListingOf(monitorNames: map<int, string>, workspaceId: int): Incident -> Option<Listed> {
    (i: Incident) => if i.workspaceId == workspaceId then Some(Listed(i, MonitorName(i, monitorNames))) else None
  }

  /** `getIncidentsByWorkspace`: the caller's incidents in storage order,
      each left-joined with its monitor's name. */
  function ByWorkspace(t: seq<Incident>, monitorNames: map<int, string>, workspaceId: int): (r: seq<Listed>)
    ensures forall l :: l in r ==> l.incident in t && l.incident.workspaceId == workspaceId
    ensures forall l :: l in r ==>
      l.monitorName == if l.incident.monitorId.Some? && l.incident.monitorId.value in monitorNames
                       then Some(monitorNames[l.incident.monitorId.value]) else None
    ensures forall i :: i in t && i.workspaceId == workspaceId ==> exists l :: l in r && l.incident == i
  {
    var f := ListingOf(monitorNames, workspaceId);
    Seqs.FilterMapMeaning(t, f);
    var r := Seqs.FilterMap(t, f);
    assert forall i :: i in t && i.workspaceId == workspaceId ==> f(i).value in r by {
      forall i | i in t && i.workspaceId == workspaceId ensures f(i).value in r {
        var k :| 0 <= k < |t| && t[k] == i;
      }
    }
    r
  }

  /** The listing of two stretches of the table is that of the first
      followed by that of the second; a single incident gives one row,
      with its monitor's name, exactly when it is the workspace's. So the
      listing has one row per incident of the workspace, in storage order. */
  lemma ByWorkspaceAppend(a: seq<Incident>, b: seq<Incident>, monitorNames: map<int, string>, workspaceId: int)
    ensures ByWorkspace(a + b, monitorNames, workspaceId) == ByWorkspace(a, monitorNames, workspaceId) + ByWorkspace(b, monitorNames, workspaceId)
    ensures forall i :: ByWorkspace([i], monitorNames, workspaceId) ==
                        if i.workspaceId == workspaceId then [Listed(i, MonitorName(i, monitorNames))] else []
  {
    Seqs.FilterMapAppend(a, b, ListingOf(monitorNames, workspaceId));
    forall i ensures ByWorkspace([i], monitorNames, workspaceId) ==
                     if i.workspaceId == workspaceId then [Listed(i, MonitorName(i, monitorNames))] else [] {
      Seqs.FilterMapOne(i, ListingOf(monitorNames, workspaceId));
    }
  }
}

/** The public API's incident update (apps/server/src/v1/incidents/put.ts):
    a lookup scoped to the caller's workspace, then a partial update of the
    timestamps by id alone, with no lifecycle check. */
module IncidentPut {
  import opened Wrappers
  import JsNumber
  import Json
  import opened Incidents

  /** The accepted body: both timestamps optional. Other members are
      dropped by the schema. */
  datatype PutBody = PutBody(acknowledgedAt: Option<int>, resolvedAt: Option<int>)

  /** Reads one optional date member; `toDate` is `z.coerce.date()` (the
      `Date` constructor), failing on an invalid date. */
  function OptionalDate(fields: map<string, Json.Value>, key: string, toDate: Json.Value -> Option<int>)
    : (r: Result<Option<int>, string>)
    ensures key !in fields ==> r == Success(None)
    ensures key in fields ==> (r.Success? <==> toDate(fields[key]).Some?)
    ensures key in fields && r.Success? ==> r.value == toDate(fields[key])
  {
    if key !in fields then Success(None)
    else match toDate(fields[key])
      case None => Failure("invalid date: " + key)
      case Some(d) => Success(Some(d))
  }

  /** Validates the body: both members are optional, present ones must
      coerce to dates. */
  function ParseBody(fields: map<string, Json.Value>, toDate: Json.Value -> Option<int>)
    : (r: Result<PutBody, string>)
    ensures r.Success? <==>
      OptionalDate(fields, "acknowledgedAt", toDate).Success? && OptionalDate(fields, "resolvedAt", toDate).Success?
    ensures r.Success? ==> (r.value.acknowledgedAt.Some? <==> "acknowledgedAt" in fields)
    ensures r.Success? ==> (r.value.resolvedAt.Some? <==> "resolvedAt" in fields)
  {
    var a :- OptionalDate(fields, "acknowledgedAt", toDate);
    var r :- OptionalDate(fields, "resolvedAt", toDate);
    Success(PutBody(a, r))
  }

  /** `set({ ...inputValues })`: only the members present in the body are
      written. */
  function Apply(i: Incident, b: PutBody): (r: Incident)
    ensures r.id == i.id && r.workspaceId == i.workspaceId && r.monitorId == i.monitorId
    ensures r.acknowledgedBy == i.acknowledgedBy && r.resolvedBy == i.resolvedBy
    ensures r.acknowledgedAt == if b.acknowledgedAt.Some? then b.acknowledgedAt else i.acknowledgedAt
    ensures r.resolvedAt == if b.resolvedAt.Some? then b.resolvedAt else i.resolvedAt
  {
    var a := if b.acknowledgedAt.Some? then i.(acknowledgedAt := b.acknowledgedAt) else i;
    if b.resolvedAt.Some? then a.(resolvedAt := b.resolvedAt) else a
  }

  /** Whether a number, `Number` of a path or context value, is this id. */
  predicate IsIdOf(n: JsNumber.Num, x: int) {
    n == JsNumber.Finite(x as real)
  }

  /** `select … where id = Number(id) and workspaceId = Number(workspaceId)`,
      with `id` and `workspaceId` the two numbers. */
  function Lookup(t: seq<Incident>, id: JsNumber.Num, workspaceId: JsNumber.Num): (r: Option<nat>)
    ensures r.Some? ==>
      r.value < |t| && IsIdOf(id, t[r.value].id) && IsIdOf(workspaceId, t[r.value].workspaceId)
    ensures r.None? <==> forall k :: 0 <= k < |t| ==> !(IsIdOf(id, t[k].id) && IsIdOf(workspaceId, t[k].workspaceId))
  {
    LookupFrom(t, id, workspaceId, 0)
  }

  function LookupFrom(t: seq<Incident>, id: JsNumber.Num, ws: JsNumber.Num, from: nat): (r: Option<nat>)
    requires from <= |t|
    ensures r.Some? ==> from <= r.value < |t| && IsIdOf(id, t[r.value].id) && IsIdOf(ws, t[r.value].workspaceId)
    ensures r.None? <==> forall k :: from <= k < |t| ==> !(IsIdOf(id, t[k].id) && IsIdOf(ws, t[k].workspaceId))
    decreases |t| - from
  {
    if from == |t| then None
    else if IsIdOf(id, t[from].id) && IsIdOf(ws, t[from].workspaceId) then Some(from)
    else LookupFrom(t, id, ws, from + 1)
  }

  datatype PutResponse = NotFound404 | Unauthorized401 | Ok200(incident: Incident)

  /** `registerPutIncident`: 404 unless an incident with this id exists in
      the caller's workspace; then every row with this id gets the body's
      timestamps, and the first updated row is returned. */
  function Put(t: seq<Incident>, id: JsNumber.Num, workspaceId: JsNumber.Num, b: PutBody): (r: (PutResponse, seq<Incident>))
    ensures r.0.NotFound404? <==> Lookup(t, id, workspaceId).None?
    ensures r.0.NotFound404? ==> r.1 == t
    ensures |r.1| == |t|
    ensures r.0.Ok200? ==> forall k :: 0 <= k < |t| ==>
      r.1[k] == if IsIdOf(id, t[k].id) then Apply(t[k], b) else t[k]
    ensures r.0.Ok200? ==> r.0.incident in r.1 && IsIdOf(id, r.0.incident.id)
  {
    match Lookup(t, id, workspaceId)
    case None => (NotFound404, t)
    case Some(k) =>
      if workspaceId != JsNumber.Finite(t[k].workspaceId as real) then (Unauthorized401, t)
      else
        var t' := seq(|t|, j requires 0 <= j < |t| => if IsIdOf(id, t[j].id) then Apply(t[j], b) else t[j]);
        (Ok200(t'[k]), t')
  }

  /** The workspace check after the lookup can never fail: the lookup already
      required the workspace to match, so the handler never answers 401. */
  lemma NeverUnauthorized(t: seq<Incident>, id: JsNumber.Num, workspaceId: JsNumber.Num, b: PutBody)
    ensures !Put(t, id, workspaceId, b).0.Unauthorized401?
  {
  }

  /** With unique ids, the update touches only the looked-up incident. */
  lemma PutTouchesOnlyTarget(t: seq<Incident>, id: JsNumber.Num, workspaceId: JsNumber.Num, b: PutBody)
    requires UniqueIds(t)
    ensures var (resp, t') := Put(t, id, workspaceId, b);
      resp.Ok200? ==>
        var k := Lookup(t, id, workspaceId).value;
        && t'[k] == Apply(t[k], b) && resp.incident == t'[k]
        && forall j :: 0 <= j < |t| && j != k ==> t'[j] == t[j]
  {
    if Lookup(t, id, workspaceId).Some? {
      var k := Lookup(t, id, workspaceId).value;
      forall j | 0 <= j < |t| && j != k
        ensures !IsIdOf(id, t[j].id)
      {
        assert t[j].id != t[k].id by {
          if j < k { } else { }
        }
      }
    }
  }

  /** Unlike the router, the API lets an open incident be resolved without
      ever being acknowledged, so the lifecycle invariant does not hold for
      incidents changed through it. */
  lemma PutCanResolveUnacknowledged()
    ensures var i := Incident(1, 7, None, None, None, None, None);
      var (resp, t') := Put([i], JsNumber.Finite(1.0), JsNumber.Finite(7.0), PutBody(None, Some(5)));
      && WellStaged(i)
      && resp.Ok200? && !WellStaged(resp.incident) && !AllWellStaged(t')
  {
    var i := Incident(1, 7, None, None, None, None, None);
    assert Lookup([i], JsNumber.Finite(1.0), JsNumber.Finite(7.0)) == Some(0);
  }
}

=== FILE: js_number.dfy ===
/** JavaScript numbers as far as the handlers use them: the string-to-number
    conversion `Number(s)`, truthiness, the `>=` comparison, and the decimal
    printing of integers that template strings perform. Finite values are exact
    reals: rounding to double precision is not modelled. */
module JsNumber {
  import opened Wrappers

  /** A JavaScript number. */
  datatype Num = NaN | PosInf | NegInf | Finite(value: real)

  /** JavaScript truthiness of a number: `0` and `NaN` are falsy. */
  predicate Truthy(n: Num) {
    match n
    case NaN => false
    case Finite(v) => v != 0.0
    case _ => true
  }

  /** The comparison `n >= bound`; every comparison with `NaN` is false. */
  predicate AtLeast(n: Num, bound: real) {
    match n
    case Finite(v) => v >= bound
    case PosInf => true
    case _ => false
  }

  function Negate(n: Num): Num {
    match n
    case NaN => NaN
    case PosInf => NegInf
    case NegInf => PosInf
    case Finite(v) => Finite(-v)
  }

  /** The white-space and line-terminator characters `Number` strips
      (sections 12.2 and 12.3 of ECMA-262): tab, vertical tab, form feed,
      space, no-break space, the byte-order mark, the other Unicode space
      separators (category Zs), line feed, carriage return and the line and
      paragraph separators. */
  predicate IsWhitespace(c: char) {
    c == ' ' || c == '\t' || c == '\n' || c == '\r' || c == '\U{0B}' || c == '\U{0C}'
    || c == '\U{A0}' || c == '\U{FEFF}' || c == '\U{2028}' || c == '\U{2029}'
    || c == '\U{1680}' || '\U{2000}' <= c <= '\U{200A}' || c == '\U{202F}' || c == '\U{205F}' || c == '\U{3000}'
  }

  function TrimStart(s: string): (r: string)
    ensures |r| <= |s| && r == s[|s| - |r|..]
    ensures r == [] || !IsWhitespace(r[0])
    ensures forall i :: 0 <= i < |s| - |r| ==> IsWhitespace(s[i])
  {
    if s != [] && IsWhitespace(s[0]) then TrimStart(s[1..]) else s
  }

  function TrimEnd(s: string): (r: string)
    ensures |r| <= |s| && r == s[..|r|]
    ensures r == [] || !IsWhitespace(r[|r| - 1])
    ensures forall i :: |r| <= i < |s| ==> IsWhitespace(s[i])
  {
    if s != [] && IsWhitespace(s[|s| - 1]) then TrimEnd(s[..|s| - 1]) else s
  }

  /** `s` without leading and trailing white space. */
  function Trim(s: string): string {
    TrimEnd(TrimStart(s))
  }

  /** The value of a digit character in bases up to 36, or -1. */
  function DigitValue(c: char): int {
    if '0' <= c <= '9' then c as int - '0' as int
    else if 'a' <= c <= 'z' then c as int - 'a' as int + 10
    else if 'A' <= c <= 'Z' then c as int - 'A' as int + 10
    else -1
  }

  predicate IsDigitIn(c: char, base: nat) {
    0 <= DigitValue(c) < base
  }

  predicate AllDigits(s: string, base: nat) {
    forall i :: 0 <= i < |s| ==> IsDigitIn(s[i], base)
  }

  /** The value of a digit string, most significant digit first. */
  function DigitsValue(s: string, base: nat): nat
    requires AllDigits(s, base)
  {
    if s == [] then 0 else DigitsValue(s[..|s| - 1], base) * base + DigitValue(s[|s| - 1])
  }

  /** The length of the longest prefix of `s` made of digits of `base`. */
  function SpanDigits(s: string, base: nat): (n: nat)
    ensures n <= |s|
    ensures AllDigits(s[..n], base)
    ensures n < |s| ==> !IsDigitIn(s[n], base)
  {
    if s != [] && IsDigitIn(s[0], base) then
      var n := 1 + SpanDigits(s[1..], base);
      assert s[..n] == [s[0]] + s[1..][..n - 1];
      n
    else 0
  }

  function Pow(b: nat, e: nat): (p: nat)
    ensures b >= 1 ==> p >= 1
  {
    if e == 0 then 1 else b * Pow(b, e - 1)
  }

  /** A digit string of length `n` in base `b` is below `b^n`. */
  lemma {:induction false} DigitsValueBelow(s: string, base: nat)
    requires AllDigits(s, base)
    ensures DigitsValue(s, base) < Pow(base, |s|)
  {
    if s != [] {
      var init := s[..|s| - 1];
      assert AllDigits(init, base) by {
        forall i | 0 <= i < |init| ensures IsDigitIn(init[i], base) { assert init[i] == s[i]; }
      }
      DigitsValueBelow(init, base);
      var d := DigitValue(s[|s| - 1]);
      assert IsDigitIn(s[|s| - 1], base);
      var v := DigitsValue(init, base);
      var p := Pow(base, |init|);
      assert Pow(base, |s|) == base * p;
      MulMonotone(v, p - 1, base);
      assert DigitsValue(s, base) == v * base + d;
      assert (p - 1) * base == p * base - base by { DistributeOne(p, base); }
    }
  }

  lemma DistributeOne(p: int, b: int)
    ensures (p - 1) * b == p * b - b
  {
  }

  lemma MulMonotone(a: int, b: int, c: nat)
    requires a <= b
    ensures a * c <= b * c
  {
  }

  function Pow10(e: nat): (p: nat)
    ensures p >= 1
  {
    if e == 0 then 1 else 10 * Pow10(e - 1)
  }

  /** The exponent part of a decimal literal: empty (exponent 0) or
      `e`/`E`, an optional sign and at least one digit, and nothing after. */
  function ParseExponent(s: string): Option<int> {
    if s == [] then Some(0)
    else if s[0] != 'e' && s[0] != 'E' then None
    else
      var t := s[1..];
      var negative := t != [] && t[0] == '-';
      var ds := if t != [] && (t[0] == '-' || t[0] == '+') then t[1..] else t;
      if ds == [] || !AllDigits(ds, 10) then None
      else
        var v: int := DigitsValue(ds, 10);
        if negative then Some(-v) else Some(v)
  }

  function Scale(m: real, e: int): real {
    if e == 0 then m
    else if e > 0 then m * Pow10(e) as real
    else m / Pow10(-e) as real
  }

  /** A decimal literal cut into its integer digits, fraction digits and
      the text after them (the exponent part, if well formed). */
  datatype DecimalParts = DecimalParts(intPart: string, fracPart: string, exponent: string)

  function SplitDecimal(t: string): (p: DecimalParts)
    ensures AllDigits(p.intPart, 10) && AllDigits(p.fracPart, 10)
  {
    var i := SpanDigits(t, 10);
    var afterInt := t[i..];
    if afterInt != [] && afterInt[0] == '.' then
      var afterDot := afterInt[1..];
      var j := SpanDigits(afterDot, 10);
      DecimalParts(t[..i], afterDot[..j], afterDot[j..])
    else
      DecimalParts(t[..i], "", afterInt)
  }

  function Mantissa(intPart: string, fracPart: string): real
    requires AllDigits(intPart, 10) && AllDigits(fracPart, 10)
  {
    if fracPart == [] then DigitsValue(intPart, 10) as real
    else DigitsValue(intPart, 10) as real + DigitsValue(fracPart, 10) as real / Pow10(|fracPart|) as real
  }

  /** An unsigned decimal literal: `Infinity`, or digits with an optional
      fraction (at least one digit in all) and an optional exponent. */
  function ParseUnsignedDecimal(t: string): Num {
    if t == "Infinity" then PosInf
    else
      var p := SplitDecimal(t);
      if |p.intPart| + |p.fracPart| == 0 then NaN
      else
        match ParseExponent(p.exponent)
        case None => NaN
        case Some(e) => Finite(Scale(Mantissa(p.intPart, p.fracPart), e))
  }

  /** The base announced by the second character of a `0x`, `0o` or `0b`
      prefix, or 0. */
  function RadixOf(c: char): nat {
    if c == 'x' || c == 'X' then 16
    else if c == 'o' || c == 'O' then 8
    else if c == 'b' || c == 'B' then 2
    else 0
  }

  /** `Number(s)` for a string `s`: white space is trimmed, the empty string is
      0, `0x`/`0o`/`0b` literals are read in their base, decimal literals may
      carry a sign, and everything else is `NaN`. */
  function ToNumber(s: string): Num {
    var t := Trim(s);
    if t == [] then Finite(0.0)
    else if |t| >= 2 && t[0] == '0' && RadixOf(t[1]) > 0 then
      var ds := t[2..];
      if ds != [] && AllDigits(ds, RadixOf(t[1])) then Finite(DigitsValue(ds, RadixOf(t[1])) as real)
      else NaN
    else if t[0] == '-' then Negate(ParseUnsignedDecimal(t[1..]))
    else if t[0] == '+' then ParseUnsignedDecimal(t[1..])
    else ParseUnsignedDecimal(t)
  }

  function DigitChar(d: nat): (c: char)
    requires d < 10
    ensures DigitValue(c) == d
  {
    ['0', '1', '2', '3', '4', '5', '6', '7', '8', '9'][d]
  }

  /** The decimal text of a natural number, as `String(n)` prints it. */
  function NatToString(n: nat): (s: string)
    ensures s != [] && AllDigits(s, 10)
    ensures n >= 10 ==> |s| >= 2 && s[0] != '0'
    ensures n < 10 ==> s == [DigitChar(n)]
  {
    if n < 10 then [DigitChar(n)]
    else
      var p := NatToString(n / 10);
      p + [DigitChar(n % 10)]
  }

  /** The decimal text of an integer, as `String(i)` prints it. */
  function IntToString(i: int): string {
    if i < 0 then "-" + NatToString(-i) else NatToString(i)
  }

  lemma {:induction false} DigitsValueOfNatToString(n: nat)
    ensures DigitsValue(NatToString(n), 10) == n
  {
    if n >= 10 {
      var s := NatToString(n);
      assert s[..|s| - 1] == NatToString(n / 10);
      DigitsValueOfNatToString(n / 10);
    }
  }

  lemma TrimOfNonWhitespace(s: string)
    requires forall i :: 0 <= i < |s| ==> !IsWhitespace(s[i])
    ensures Trim(s) == s
  {
    var a := TrimStart(s);
    assert a == s;
  }

  /** A non-empty string of decimal digits reads as its digit value. */
  lemma SpanOfAllDigits(s: string, base: nat)
    requires AllDigits(s, base)
    ensures SpanDigits(s, base) == |s|
  {
    if s != [] {
      SpanOfAllDigits(s[1..], base);
    }
  }

  lemma UnsignedDecimalOfDigits(s: string)
    requires s != [] && AllDigits(s, 10)
    ensures ParseUnsignedDecimal(s) == Finite(DigitsValue(s, 10) as real)
  {
    assert s != "Infinity" by { assert IsDigitIn(s[0], 10); }
    SpanOfAllDigits(s, 10);
    assert s[..|s|] == s;
    var p := SplitDecimal(s);
    assert p == DecimalParts(s, "", "");
    assert ParseExponent(p.exponent) == Some(0);
  }

  /** `Number(String(n)) == n`: the conversion reads back what the printer writes. */
  lemma NumberOfNatToString(n: nat)
    ensures ToNumber(NatToString(n)) == Finite(n as real)
  {
    var s := NatToString(n);
    forall i | 0 <= i < |s| ensures !IsWhitespace(s[i]) {
      assert IsDigitIn(s[i], 10);
    }
    TrimOfNonWhitespace(s);
    assert IsDigitIn(s[0], 10);
    UnsignedDecimalOfDigits(s);
    DigitsValueOfNatToString(n);
  }

  /** The digits at the front of a string end where a non-digit begins. */
  lemma {:induction false} SpanOfDigitsThen(s: string, rest: string, base: nat)
    requires AllDigits(s, base)
    requires rest != [] && !IsDigitIn(rest[0], base)
    ensures SpanDigits(s + rest, base) == |s|
  {
    if s == [] {
      assert s + rest == rest;
    } else {
      SpanOfDigitsThen(s[1..], rest, base);
      assert (s + rest)[1..] == s[1..] + rest;
    }
  }

  /** Digits, a point and digits split into their two digit runs. */
  lemma SplitOfFraction(d: string, frac: string)
    requires AllDigits(d, 10) && AllDigits(frac, 10)
    ensures SplitDecimal(d + "." + frac) == DecimalParts(d, frac, "")
  {
    var s := d + "." + frac;
    assert s == d + ("." + frac);
    SpanOfDigitsThen(d, "." + frac, 10);
    assert s[..|d|] == d && s[|d|..] == "." + frac;
    SpanOfAllDigits(frac, 10);
    assert frac[..|frac|] == frac && frac[|frac|..] == "";
    assert ("." + frac)[1..] == frac;
  }

  /** Digits, a point and digits carry no white space. */
  lemma TrimOfFraction(d: string, frac: string)
    requires AllDigits(d, 10) && AllDigits(frac, 10)
    ensures Trim(d + "." + frac) == d + "." + frac
  {
    var s := d + "." + frac;
    forall i | 0 <= i < |s| ensures !IsWhitespace(s[i]) {
      if i < |d| {
        assert IsDigitIn(d[i], 10);
      } else if i > |d| {
        assert s[i] == frac[i - |d| - 1];
        assert IsDigitIn(frac[i - |d| - 1], 10);
      }
    }
    TrimOfNonWhitespace(s);
  }

  /** An unsigned literal with a fraction reads as its mantissa. */
  lemma UnsignedDecimalOfFraction(d: string, frac: string)
    requires d != [] && AllDigits(d, 10) && AllDigits(frac, 10)
    ensures ParseUnsignedDecimal(d + "." + frac) == Finite(Mantissa(d, frac))
  {
    assert IsDigitIn((d + "." + frac)[0], 10);
    SplitOfFraction(d, frac);
    assert ParseExponent("") == Some(0);
  }

  /** A trimmed literal that starts with a decimal digit and is no
      `0x`/`0o`/`0b` literal is read as an unsigned decimal. */
  lemma ToNumberOfUnsigned(t: string)
    requires t != [] && Trim(t) == t && IsDigitIn(t[0], 10)
    requires |t| >= 2 ==> t[1] == '.' || IsDigitIn(t[1], 10)
    ensures ToNumber(t) == ParseUnsignedDecimal(t)
  {
    assert t[0] != '-' && t[0] != '+';
    if |t| >= 2 {
      assert RadixOf(t[1]) == 0;
    }
  }

  /** A number's text followed by a point and fraction digits starts with
      a digit followed by a digit or the point. */
  lemma {:induction false} LeadOfFraction(n: nat, frac: string)
    ensures var s := NatToString(n) + "." + frac;
      IsDigitIn(s[0], 10) && (s[1] == '.' || IsDigitIn(s[1], 10))
  {
    var d := NatToString(n);
    assert IsDigitIn(d[0], 10);
    if |d| > 1 {
      assert IsDigitIn(d[1], 10);
    }
  }

  /** `Number` of a natural number's text followed by a point and fraction
      digits reads the mantissa. */
  lemma {:induction false} NumberOfFractionText(n: nat, frac: string)
    requires AllDigits(frac, 10)
    ensures ToNumber(NatToString(n) + "." + frac) == Finite(Mantissa(NatToString(n), frac))
  {
    var d := NatToString(n);
    var t := d + "." + frac;
    assert ToNumber(t) == ParseUnsignedDecimal(t) by {
      TrimOfFraction(d, frac);
      LeadOfFraction(n, frac);
      ToNumberOfUnsigned(t);
    }
    UnsignedDecimalOfFraction(d, frac);
  }

  /** `Number` of a natural number's text followed by a point and fraction
      digits is the number plus the fraction. */
  lemma {:induction false} NumberOfFraction(n: nat, frac: string)
    requires frac != [] && AllDigits(frac, 10)
    ensures ToNumber(NatToString(n) + "." + frac)
            == Finite(n as real + DigitsValue(frac, 10) as real / Pow10(|frac|) as real)
  {
    NumberOfFractionText(n, frac);
    DigitsValueOfNatToString(n);
  }
}

=== FILE: json.dfy ===
/** JSON as the handlers see it. `Value` is a parsed request body (what
    `c.req.json()` hands to a validator). The rest is the text codec for the
    documents the notification channels store: flat objects whose values are
    strings, `{"slack":"https://..."}`, written the way `JSON.stringify` writes
    them and read the way `JSON.parse` reads them. */
module Json {
  import opened Wrappers
  import JsNumber

  /** A parsed JSON document. Object member order is not kept; a repeated key
      keeps its last value, as `JSON.parse` does. */
  datatype Value =
    | JNull
    | JBool(b: bool)
    | JNumber(n: real)
    | JString(s: string)
    | JArray(items: seq<Value>)
    | JObject(fields: map<string, Value>)

  /** A flat object: its members in document order. */
  type Members = seq<(string, string)>

  // ---------------------------------------------------------------- writing

  function HexDigit(d: nat): (c: char)
    requires d < 16
    ensures JsNumber.DigitValue(c) == d
  {
    ['0', '1', '2', '3', '4', '5', '6', '7', '8', '9', 'a', 'b', 'c', 'd', 'e', 'f'][d]
  }

  /** How `JSON.stringify` writes one character inside a string literal. */
  function EscapeChar(c: char): (e: string)
    ensures e != [] && e[0] != '"'
  {
    if c == '"' then "\\\""
    else if c == '\\' then "\\\\"
    else if c == '\U{08}' then "\\b"
    else if c == '\U{0C}' then "\\f"
    else if c == '\n' then "\\n"
    else if c == '\r' then "\\r"
    else if c == '\t' then "\\t"
    else if (c as int) < 0x20 then "\\u00" + [HexDigit(c as int / 16), HexDigit(c as int % 16)]
    else [c]
  }

  function Escape(s: string): string {
    if s == [] then "" else EscapeChar(s[0]) + Escape(s[1..])
  }

  /** A JSON string literal for `s`. */
  function Quote(s: string): string {
    "\"" + Escape(s) + "\""
  }

  function Member(m: (string, string)): string {
    Quote(m.0) + ":" + Quote(m.1)
  }

  function JoinMembers(ms: Members): string {
    if ms == [] then ""
    else if |ms| == 1 then Member(ms[0])
    else Member(ms[0]) + "," + JoinMembers(ms[1..])
  }

  /** `JSON.stringify` of a flat object: no white space, members in order. */
  function Stringify(ms: Members): string {
    "{" + JoinMembers(ms) + "}"
  }

  // ---------------------------------------------------------------- reading

  predicate IsJsonWhitespace(c: char) {
    c == ' ' || c == '\t' || c == '\n' || c == '\r'
  }

  function SkipWs(s: string): (r: string)
    ensures |r| <= |s|
  {
    if s != [] && IsJsonWhitespace(s[0]) then SkipWs(s[1..]) else s
  }

  /** The character a short escape `\x` stands for, if `x` is one. */
  function ShortEscape(x: char): Option<char> {
    if x == '"' then Some('"')
    else if x == '\\' then Some('\\')
    else if x == '/' then Some('/')
    else if x == 'b' then Some('\U{08}')
    else if x == 'f' then Some('\U{0C}')
    else if x == 'n' then Some('\n')
    else if x == 'r' then Some('\r')
    else if x == 't' then Some('\t')
    else None
  }

  /** The UTF-16 code unit of a `\uXXXX` escape at the head of `s`, if one
      is there. */
  function UnitEscape(s: string): (r: Option<nat>)
    ensures r.Some? ==> 6 <= |s| && r.value < 0x10000
  {
    if |s| < 6 || s[0] != '\\' || s[1] != 'u' || !JsNumber.AllDigits(s[2..6], 16) then None
    else
      JsNumber.DigitsValueBelow(s[2..6], 16);
      assert JsNumber.Pow(16, 4) == 0x10000;
      Some(JsNumber.DigitsValue(s[2..6], 16))
  }

  /** Decodes one character of a string literal's body (never the closing
      quote): the character and how many input characters it used. A high
      surrogate escape followed by a low one is one character; a surrogate
      escape on its own is refused. */
  function DecodeUnit(s: string): (r: Option<(char, nat)>)
    requires s != [] && s[0] != '"'
    ensures r.Some? ==> 1 <= r.value.1 <= |s|
  {
    if s[0] == '\\' then
      if |s| < 2 then None
      else if s[1] == 'u' then
        match UnitEscape(s)
        case None => None
        case Some(code) =>
          if code < 0xD800 || 0xE000 <= code then Some((code as char, 6))
          else if 0xDC00 <= code then None
          else
            match UnitEscape(s[6..])
            case None => None
            case Some(low) =>
              if 0xDC00 <= low < 0xE000
              then Some(((0x10000 + (code - 0xD800) * 0x400 + (low - 0xDC00)) as char, 12))
              else None
      else
        match ShortEscape(s[1])
        case Some(c) => Some((c, 2))
        case None => None
    else if (s[0] as int) < 0x20 then None
    else Some((s[0], 1))
  }

  /** Reads a string literal's body up to and including the closing quote:
      the decoded text and what follows. */
  function ParseStringBody(s: string): Option<(string, string)>
    decreases |s|
  {
    if s == [] then None
    else if s[0] == '"' then Some(("", s[1..]))
    else
      match DecodeUnit(s)
      case None => None
      case Some((c, n)) =>
        match ParseStringBody(s[n..])
        case None => None
        case Some((t, rest)) => Some(([c] + t, rest))
  }

  /** Reads one string literal (after optional white space). */
  function ParseString(s: string): Option<(string, string)> {
    var t := SkipWs(s);
    if t != [] && t[0] == '"' then ParseStringBody(t[1..]) else None
  }

  /** Reads `"key" : "value"` (white space allowed between tokens). */
  function ParseMember(s: string): Option<((string, string), string)> {
    match ParseString(s)
    case None => None
    case Some((k, afterKey)) =>
      var t := SkipWs(afterKey);
      if t == [] || t[0] != ':' then None
      else
        match ParseString(t[1..])
        case None => None
        case Some((v, rest)) => Some(((k, v), rest))
  }

  /** Reads one or more members separated by commas, through the closing brace. */
  function ParseMembers(s: string): Option<(Members, string)>
    decreases |s|
  {
    match ParseMember(s)
    case None => None
    case Some((m, afterMember)) =>
      var t := SkipWs(afterMember);
      if t == [] then None
      else if t[0] == '}' then Some(([m], t[1..]))
      else if t[0] == ',' && |t| < |s| then
        match ParseMembers(t[1..])
        case None => None
        case Some((ms, rest)) => Some(([m] + ms, rest))
      else None
  }

  /** `JSON.parse` of a flat object; `None` is a thrown `SyntaxError`. Other
      JSON documents (nested values, numbers, arrays) are read as failures. */
  function ParseObject(s: string): Option<Members> {
    var t := SkipWs(s);
    if t == [] || t[0] != '{' then None
    else
      var u := SkipWs(t[1..]);
      if u != [] && u[0] == '}' then
        if SkipWs(u[1..]) == [] then Some([]) else None
      else
        match ParseMembers(u)
        case None => None
        case Some((ms, rest)) => if SkipWs(rest) == [] then Some(ms) else None
  }

  /** Property access `obj[key]` on a parsed flat object: the last member with
      that key, or `None` for `undefined`. */
  function Get(ms: Members, key: string): (r: Option<string>)
    ensures r.Some? <==> exists i :: 0 <= i < |ms| && ms[i].0 == key
    ensures r.Some? ==> exists i :: 0 <= i < |ms| && ms[i] == (key, r.value) &&
                                    forall j :: i < j < |ms| ==> ms[j].0 != key
  {
    if ms == [] then None
    else
      var last := ms[|ms| - 1];
      if last.0 == key then Some(last.1)
      else
        var r := Get(ms[..|ms| - 1], key);
        assert forall i :: 0 <= i < |ms| - 1 ==> ms[..|ms| - 1][i] == ms[i];
        r
  }

  // ---------------------------------------------------------------- round trip

  lemma SkipWsNoop(s: string)
    requires s == [] || !IsJsonWhitespace(s[0])
    ensures SkipWs(s) == s
  {
  }

  lemma HexPairValue(c: char)
    requires (c as int) < 0x20
    ensures var h := ['0', '0', HexDigit(c as int / 16), HexDigit(c as int % 16)];
            JsNumber.AllDigits(h, 16) && JsNumber.DigitsValue(h, 16) == c as int
  {
    var hi, lo := HexDigit(c as int / 16), HexDigit(c as int % 16);
    var h := ['0', '0', hi, lo];
    assert JsNumber.DigitsValue([], 16) == 0;
    assert JsNumber.DigitsValue(['0'], 16) == 0 by { assert ['0'][..0] == []; }
    assert JsNumber.DigitsValue(['0', '0'], 16) == 0 by { assert ['0', '0'][..1] == ['0']; }
    assert JsNumber.DigitsValue(['0', '0', hi], 16) == c as int / 16 by {
      assert ['0', '0', hi][..2] == ['0', '0'];
    }
    assert h[..3] == ['0', '0', hi];
    assert JsNumber.DigitsValue(h, 16) == (c as int / 16) * 16 + c as int % 16;
  }

  /** One written character decodes back to itself. */
  lemma DecodeEscapeChar(c: char, tail: string)
    ensures var s := EscapeChar(c) + tail;
            s != [] && s[0] != '"' && DecodeUnit(s) == Some((c, |EscapeChar(c)|))
  {
    var e := EscapeChar(c);
    var s := e + tail;
    if (c as int) < 0x20 && c != '\U{08}' && c != '\U{0C}' && c != '\n' && c != '\r' && c != '\t' {
      HexPairValue(c);
      assert s[2..6] == ['0', '0', HexDigit(c as int / 16), HexDigit(c as int % 16)];
    }
  }

  /** The body of a written literal reads back to the original text. */
  lemma {:induction false} ParseEscaped(x: string, rest: string)
    ensures ParseStringBody(Escape(x) + "\"" + rest) == Some((x, rest))
  {
    var s := Escape(x) + "\"" + rest;
    if x == [] {
      assert s == "\"" + rest;
    } else {
      var e := EscapeChar(x[0]);
      var tail := Escape(x[1..]) + "\"" + rest;
      assert s == e + tail;
      DecodeEscapeChar(x[0], tail);
      assert s[|e|..] == tail;
      ParseEscaped(x[1..], rest);
      assert [x[0]] + x[1..] == x;
    }
  }

  lemma ParseQuoted(x: string, rest: string)
    ensures ParseString(Quote(x) + rest) == Some((x, rest))
  {
    var s := Quote(x) + rest;
    SkipWsNoop(s);
    assert s[1..] == Escape(x) + "\"" + rest;
    ParseEscaped(x, rest);
  }

  /** A member is read as its key literal, a colon right after it, and the
      value literal. */
  lemma ParseMemberOf(s: string, k: string, afterKey: string, v: string, rest: string)
    requires ParseString(s) == Some((k, afterKey))
    requires afterKey != [] && afterKey[0] == ':'
    requires ParseString(afterKey[1..]) == Some((v, rest))
    ensures ParseMember(s) == Some(((k, v), rest))
  {
    SkipWsNoop(afterKey);
  }

  lemma ParseWrittenMember(m: (string, string), rest: string)
    ensures ParseMember(Member(m) + rest) == Some((m, rest))
  {
    var key, value := Quote(m.0), Quote(m.1);
    var tail := ":" + (value + rest);
    assert Member(m) + rest == key + tail by {
      assert Member(m) == key + ":" + value;
    }
    ParseQuoted(m.0, tail);
    assert tail[1..] == value + rest;
    ParseQuoted(m.1, rest);
    ParseMemberOf(Member(m) + rest, m.0, tail, m.1, rest);
  }

  /** After a member, a closing brace ends the list. */
  lemma ParseMembersLast(s: string, m: (string, string), t: string)
    requires ParseMember(s) == Some((m, t))
    requires t != [] && t[0] == '}'
    ensures ParseMembers(s) == Some(([m], t[1..]))
  {
    SkipWsNoop(t);
  }

  /** After a member, a comma continues the list with the members after it. */
  lemma ParseMembersNext(s: string, m: (string, string), t: string, ms: Members, rest: string)
    requires ParseMember(s) == Some((m, t))
    requires t != [] && t[0] == ',' && |t| < |s|
    requires ParseMembers(t[1..]) == Some((ms, rest))
    ensures ParseMembers(s) == Some(([m] + ms, rest))
  {
    SkipWsNoop(t);
  }

  lemma ParseLastMember(m: (string, string), rest: string)
    ensures ParseMembers(Member(m) + "}" + rest) == Some(([m], rest))
  {
    var s := Member(m) + "}" + rest;
    var tail := "}" + rest;
    assert s == Member(m) + tail;
    ParseWrittenMember(m, tail);
    assert tail[1..] == rest;
    ParseMembersLast(s, m, tail);
  }

  lemma ParseFirstMember(m: (string, string), more: string, ms: Members, rest: string)
    requires ParseMembers(more) == Some((ms, rest))
    ensures ParseMembers(Member(m) + "," + more) == Some(([m] + ms, rest))
  {
    var s := Member(m) + "," + more;
    var tail := "," + more;
    assert s == Member(m) + tail;
    ParseWrittenMember(m, tail);
    assert tail[1..] == more;
    assert |Member(m)| > 0 by { assert Member(m)[0] == '"'; }
    ParseMembersNext(s, m, tail, ms, rest);
  }

  lemma {:induction false} ParseJoinedMembers(ms: Members, rest: string)
    requires ms != []
    ensures ParseMembers(JoinMembers(ms) + "}" + rest) == Some((ms, rest))
  {
    if |ms| == 1 {
      assert JoinMembers(ms) == Member(ms[0]);
      assert ms == [ms[0]];
      ParseLastMember(ms[0], rest);
    } else {
      var more := JoinMembers(ms[1..]) + "}" + rest;
      assert JoinMembers(ms) + "}" + rest == Member(ms[0]) + "," + more;
      ParseJoinedMembers(ms[1..], rest);
      ParseFirstMember(ms[0], more, ms[1..], rest);
      assert [ms[0]] + ms[1..] == ms;
    }
  }

  /** An opening brace directly followed by a member list that ends the
      text is read as an object with those members. */
  lemma ParseObjectOf(s: string, ms: Members)
    requires |s| >= 2 && s[0] == '{' && s[1] == '"'
    requires ParseMembers(s[1..]) == Some((ms, ""))
    ensures ParseObject(s) == Some(ms)
  {
    SkipWsNoop(s);
    SkipWsNoop(s[1..]);
    SkipWsNoop("");
  }

  /** The empty object's text reads back as no members. */
  lemma ParseEmptyObject()
    ensures ParseObject(Stringify([])) == Some([])
  {
    var s := Stringify([]);
    assert s == "{}";
    SkipWsNoop(s);
    SkipWsNoop(s[1..]);
    SkipWsNoop("");
  }

  /** A written member starts with the quote of its key. */
  lemma MemberStartsWithQuote(m: (string, string))
    ensures |Member(m)| >= 1 && Member(m)[0] == '"'
  {
    var q := Quote(m.0);
    assert q[0] == '"';
    assert Member(m) == q + (":" + Quote(m.1));
  }

  /** The members' text starts with the quote of the first key. */
  lemma JoinMembersStartsWithQuote(ms: Members)
    requires ms != []
    ensures |JoinMembers(ms)| >= 1 && JoinMembers(ms)[0] == '"'
  {
    MemberStartsWithQuote(ms[0]);
    if |ms| > 1 {
      assert JoinMembers(ms) == Member(ms[0]) + ("," + JoinMembers(ms[1..]));
    }
  }

  /** Braces around a text starting with a quote. */
  lemma BracedShape(j: string)
    requires |j| >= 1 && j[0] == '"'
    ensures var s := "{" + j + "}";
      |s| >= 2 && s[0] == '{' && s[1] == '"' && s[1..] == j + "}" + ""
  {
    var s := "{" + j + "}";
    assert s[1..] == j + "}";
  }

  /** The text of a non-empty object starts with a brace and a quote. */
  lemma StringifyShape(ms: Members)
    requires ms != []
    ensures var s := Stringify(ms);
      |s| >= 2 && s[0] == '{' && s[1] == '"' && s[1..] == JoinMembers(ms) + "}" + ""
  {
    JoinMembersStartsWithQuote(ms);
    BracedShape(JoinMembers(ms));
  }

  /** `JSON.parse(JSON.stringify(obj))` gives back `obj`, members in order. */
  lemma ParseOfStringify(ms: Members)
    ensures ParseObject(Stringify(ms)) == Some(ms)
  {
    if ms == [] {
      ParseEmptyObject();
    } else {
      StringifyShape(ms);
      ParseJoinedMembers(ms, "");
      ParseObjectOf(Stringify(ms), ms);
    }
  }
}

=== FILE: monitor_api.dfy ===
/** The public monitor API (apps/server/src/v1/monitor.ts): listing, reading,
    creating, updating, soft-deleting and summarising monitors of the caller's
    workspace, with the plan's limits as gates. The monitor table is a sequence
    of rows in storage order. The caller's workspace id is the number the
    authentication middleware put in the context. */
module MonitorApi {
  import opened Wrappers
  import JsNumber
  import RegionCodec
  import Tables
  import Seqs

  datatype Header = Header(key: string, value: string)

  /** A monitor row. `regions` is the comma-joined string the database
      stores; `headers` is the stored header list (`null` when absent). */
  datatype MonitorRow = MonitorRow(
    id: int,
    workspaceId: int,
    periodicity: string,
    url: string,
    regions: string,
    name: string,
    description: string,
    httpMethod: string,
    body: string,
    headers: Option<seq<Header>>,
    active: bool,
    deletedAt: Option<int>)

  /** A monitor as the API returns it: the row with its regions read back. */
  datatype MonitorView = MonitorView(row: MonitorRow, regions: seq<string>)

  /** A validated create/update body. `regions` is already the joined string
      the input schema's transform produces. */
  datatype MonitorInput = MonitorInput(
    periodicity: string,
    url: string,
    regions: string,
    name: string,
    description: string,
    httpMethod: string,
    body: string,
    active: bool,
    headers: seq<Header>)

  /** The parts of the workspace's plan the handlers consult. */
  datatype Limits = Limits(monitors: int, periodicity: seq<string>)

  /** An HTTP reply: the status code and, on success, the monitor. */
  datatype Reply = Reply(code: nat, monitor: Option<MonitorView>)

  /** `MonitorSchema.parse(row)`: fails when a stored region is unknown. */
  function ToView(row: MonitorRow, known: set<string>): (r: Result<MonitorView, string>)
    ensures r.Success? <==> RegionCodec.Decode(Some(row.regions), known).Success?
    ensures r.Success? ==> r.value.row == row
  {
    var rs :- RegionCodec.Decode(Some(row.regions), known);
    Success(MonitorView(row, rs))
  }

  /** The reply carrying a parsed row: 200, or 500 when parsing throws. */
  function Respond(row: MonitorRow, known: set<string>): (r: Reply)
    ensures r.code == 200 <==> ToView(row, known).Success?
    ensures r.code == 200 ==> r.monitor == Some(ToView(row, known).value)
    ensures r.code in {200, 500}
  {
    match ToView(row, known)
    case Success(v) => Reply(200, Some(v))
    case Failure(_) => Reply(500, None)
  }

  /** Whether the path parameter, read with `Number`, names this id. */
  predicate HasId(id: JsNumber.Num, x: int) {
    id == JsNumber.Finite(x as real)
  }

  /** The primary key: no two rows share an id. */
  predicate UniqueIds(t: seq<MonitorRow>) {
    forall a, b :: 0 <= a < b < |t| ==> t[a].id != t[b].id
  }

  /** `select … where id = Number(id) .get()`: the first row with that id. */
  function FindById(t: seq<MonitorRow>, id: JsNumber.Num): (r: Option<nat>)
    ensures r.Some? ==> r.value < |t| && HasId(id, t[r.value].id)
    ensures r.Some? ==> forall k :: 0 <= k < r.value ==> !HasId(id, t[k].id)
    ensures r.None? <==> forall k :: 0 <= k < |t| ==> !HasId(id, t[k].id)
  {
    if t == [] then None
    else if HasId(id, t[0].id) then Some(0)
    else
      match FindById(t[1..], id)
      case None => None
      case Some(k) => Some(k + 1)
  }

  /** The lookup shared by GET, DELETE and the summary: 404 when no monitor
      has the id, else 401 when it belongs to another workspace, else the
      row's position. Existence is checked first, so another workspace's
      monitor answers 401, not 404. */
  function OwnedLookup(t: seq<MonitorRow>, id: JsNumber.Num, workspaceId: int): (r: Result<nat, nat>)
    ensures r == Failure(404) <==> forall k :: 0 <= k < |t| ==> !HasId(id, t[k].id)
    ensures r == Failure(401) <==> FindById(t, id).Some? && t[FindById(t, id).value].workspaceId != workspaceId
    ensures r.Failure? ==> r.error in {401, 404}
    ensures r.Success? ==> r.value < |t| && HasId(id, t[r.value].id) && t[r.value].workspaceId == workspaceId
  {
    match FindById(t, id)
    case None => Failure(404)
    case Some(k) => if workspaceId != t[k].workspaceId then Failure(401) else Success(k)
  }

  /** `GET /:id`: the monitor, whether soft-deleted or not. */
  function Get(t: seq<MonitorRow>, id: JsNumber.Num, workspaceId: int, known: set<string>): (r: Reply)
    ensures OwnedLookup(t, id, workspaceId).Failure? ==> r == Reply(OwnedLookup(t, id, workspaceId).error, None)
    ensures OwnedLookup(t, id, workspaceId).Success? ==> r == Respond(t[OwnedLookup(t, id, workspaceId).value], known)
  {
    match OwnedLookup(t, id, workspaceId)
    case Failure(code) => Reply(code, None)
    case Success(k) => Respond(t[k], known)
  }

  /** Whether a row belongs to the workspace. */
  function OfWorkspace(workspaceId: int): MonitorRow -> bool {
    (m: MonitorRow) => m.workspaceId == workspaceId
  }

  /** The caller's monitors in storage order, soft-deleted ones included,
      each row as often as the table holds it. */
  function InWorkspace(t: seq<MonitorRow>, workspaceId: int): (r: seq<MonitorRow>)
    ensures forall m :: m in r <==> m in t && m.workspaceId == workspaceId
    ensures forall m :: multiset(r)[m] == if m.workspaceId == workspaceId then multiset(t)[m] else 0
  {
    Seqs.FilterMeaning(t, OfWorkspace(workspaceId));
    Seqs.Filter(t, OfWorkspace(workspaceId))
  }

  /** The workspace's rows of two stretches of the table are those of the
      first followed by those of the second; a single row is listed exactly
      when it is the workspace's. */
  lemma InWorkspaceAppend(a: seq<MonitorRow>, b: seq<MonitorRow>, workspaceId: int)
    ensures InWorkspace(a + b, workspaceId) == InWorkspace(a, workspaceId) + InWorkspace(b, workspaceId)
    ensures forall m :: InWorkspace([m], workspaceId) == if m.workspaceId == workspaceId then [m] else []
  {
    Seqs.FilterAppend(a, b, OfWorkspace(workspaceId));
    forall m ensures InWorkspace([m], workspaceId) == if m.workspaceId == workspaceId then [m] else [] {
      Seqs.FilterOne(m, OfWorkspace(workspaceId));
    }
  }

  /** Parses every row, failing when any does. */
  function ToViews(rows: seq<MonitorRow>, known: set<string>): (r: Result<seq<MonitorView>, string>)
    ensures r.Success? <==> forall k :: 0 <= k < |rows| ==> ToView(rows[k], known).Success?
    ensures r.Success? ==> |r.value| == |rows| && forall k :: 0 <= k < |rows| ==> r.value[k] == ToView(rows[k], known).value
  {
    if rows == [] then Success([])
    else
      match ToView(rows[0], known)
      case Failure(e) => Failure(e)
      case Success(v) =>
        match ToViews(rows[1..], known)
        case Failure(e) => Failure(e)
        case Success(vs) => Success([v] + vs)
  }

  /** `GET /`: the query returns an array, which is always truthy, so the
      404 branch cannot be taken; the reply is 200 with the workspace's
      monitors or 500 when one fails to parse. */
  function GetAll(t: seq<MonitorRow>, workspaceId: int, known: set<string>): (r: (nat, seq<MonitorView>))
    ensures r.0 in {200, 500}
    ensures r.0 == 200 <==> ToViews(InWorkspace(t, workspaceId), known).Success?
    ensures r.0 == 200 ==> forall v :: v in r.1 ==> v.row in t && v.row.workspaceId == workspaceId
  {
    match ToViews(InWorkspace(t, workspaceId), known)
    case Failure(_) => (500, [])
    case Success(vs) =>
      assert forall v :: v in vs ==> v.row in InWorkspace(t, workspaceId) by {
        forall v | v in vs ensures v.row in InWorkspace(t, workspaceId) {
          var k :| 0 <= k < |vs| && vs[k] == v;
        }
      }
      (200, vs)
  }

  /** Whether a row is the workspace's and not soft-deleted. */
  function LiveIn(workspaceId: int): MonitorRow -> bool {
    (m: MonitorRow) => m.workspaceId == workspaceId && m.deletedAt.None?
  }

  /** The workspace's monitors that are not soft-deleted, in storage order,
      each row as often as the table holds it. */
  function LiveRows(t: seq<MonitorRow>, workspaceId: int): (r: seq<MonitorRow>)
    ensures |r| <= |t|
    ensures forall m :: m in r <==> m in t && m.workspaceId == workspaceId && m.deletedAt.None?
    ensures forall m :: multiset(r)[m] == if m.workspaceId == workspaceId && m.deletedAt.None? then multiset(t)[m] else 0
  {
    Seqs.FilterMeaning(t, LiveIn(workspaceId));
    Seqs.Filter(t, LiveIn(workspaceId))
  }

  /** The live rows of two stretches of the table are those of the first
      followed by those of the second, so the count adds up; a single row
      counts exactly when it is the workspace's and not soft-deleted. */
  lemma LiveRowsAppend(a: seq<MonitorRow>, b: seq<MonitorRow>, workspaceId: int)
    ensures LiveRows(a + b, workspaceId) == LiveRows(a, workspaceId) + LiveRows(b, workspaceId)
    ensures ActiveCount(a + b, workspaceId) == ActiveCount(a, workspaceId) + ActiveCount(b, workspaceId)
    ensures forall m :: LiveRows([m], workspaceId) == if m.workspaceId == workspaceId && m.deletedAt.None? then [m] else []
  {
    Seqs.FilterAppend(a, b, LiveIn(workspaceId));
    forall m ensures LiveRows([m], workspaceId) == if m.workspaceId == workspaceId && m.deletedAt.None? then [m] else [] {
      Seqs.FilterOne(m, LiveIn(workspaceId));
    }
  }

  /** `count(*)` of the workspace's monitors that are not soft-deleted. */
  function ActiveCount(t: seq<MonitorRow>, workspaceId: int): nat {
    |LiveRows(t, workspaceId)|
  }

  /** The auto-incremented id of a new row. */
  function NextId(t: seq<MonitorRow>): int {
    Tables.NextId(t, (m: MonitorRow) => m.id)
  }

  /** The row written from a body: `...rest` and the header list (always an
      array after the schema's default, hence always truthy and stored). */
  function FromInput(id: int, workspaceId: int, input: MonitorInput): MonitorRow {
    MonitorRow(id, workspaceId, input.periodicity, input.url, input.regions, input.name,
               input.description, input.httpMethod, input.body, Some(input.headers), input.active, None)
  }

  /** `POST /`: 403 when the workspace already has as many live monitors as
      its plan allows, then 403 when the periodicity is not in the plan;
      otherwise a new row with a fresh id, owned by the caller's workspace,
      is appended and returned. */
  function Create(t: seq<MonitorRow>, workspaceId: int, plan: Limits, input: MonitorInput, known: set<string>)
    : (r: (Reply, seq<MonitorRow>))
    ensures ActiveCount(t, workspaceId) >= plan.monitors ==> r == (Reply(403, None), t)
    ensures input.periodicity !in plan.periodicity ==> r == (Reply(403, None), t)
    ensures ActiveCount(t, workspaceId) < plan.monitors && input.periodicity in plan.periodicity ==>
      && |r.1| == |t| + 1 && r.1[..|t|] == t
      && r.1[|t|] == FromInput(r.1[|t|].id, workspaceId, input)
      && r.1[|t|].workspaceId == workspaceId && r.1[|t|].deletedAt.None?
      && (forall k :: 0 <= k < |t| ==> t[k].id != r.1[|t|].id)
      && r.0 == Respond(r.1[|t|], known)
  {
    if ActiveCount(t, workspaceId) >= plan.monitors then (Reply(403, None), t)
    else if input.periodicity !in plan.periodicity then (Reply(403, None), t)
    else
      var row := FromInput(NextId(t), workspaceId, input);
      (Respond(row, known), t + [row])
  }

  /** `...rest` of a body applied to an existing row: everything but the id,
      the workspace and the deletion stamp. */
  function Overwrite(m: MonitorRow, input: MonitorInput): (r: MonitorRow)
    ensures r == FromInput(m.id, m.workspaceId, input).(deletedAt := m.deletedAt)
  {
    m.(periodicity := input.periodicity, url := input.url, regions := input.regions, name := input.name,
       description := input.description, httpMethod := input.httpMethod, body := input.body,
       active := input.active, headers := Some(input.headers))
  }

  /** The gates PUT passes before writing: 400 on an empty id, then 403 on a
      periodicity outside the plan (before looking the monitor up), then the
      404/401 lookup. */
  function UpdateGate(t: seq<MonitorRow>, id: string, workspaceId: int, plan: Limits, input: MonitorInput)
    : (r: Result<nat, nat>)
    ensures id == "" ==> r == Failure(400)
    ensures id != "" && input.periodicity !in plan.periodicity ==> r == Failure(403)
    ensures id != "" && input.periodicity in plan.periodicity ==> r == OwnedLookup(t, JsNumber.ToNumber(id), workspaceId)
  {
    if id == "" then Failure(400)
    else if input.periodicity !in plan.periodicity then Failure(403)
    else OwnedLookup(t, JsNumber.ToNumber(id), workspaceId)
  }

  /** `PUT /:id` as written: once the gates pass, the update has no `where`
      clause, so every row of the table is overwritten, and the first row
      returned by the update is the one sent back. */
  function UpdateAsWritten(t: seq<MonitorRow>, id: string, workspaceId: int, plan: Limits,
                           input: MonitorInput, known: set<string>): (r: (Reply, seq<MonitorRow>))
    ensures UpdateGate(t, id, workspaceId, plan, input).Failure? ==>
      r == (Reply(UpdateGate(t, id, workspaceId, plan, input).error, None), t)
    ensures UpdateGate(t, id, workspaceId, plan, input).Success? ==>
      && |r.1| == |t| && t != []
      && (forall k :: 0 <= k < |t| ==> r.1[k] == Overwrite(t[k], input))
      && r.0 == Respond(r.1[0], known)
  {
    match UpdateGate(t, id, workspaceId, plan, input)
    case Failure(code) => (Reply(code, None), t)
    case Success(_) =>
      var t' := seq(|t|, k requires 0 <= k < |t| => Overwrite(t[k], input));
      (Respond(t'[0], known), t')
  }

  /** `PUT /:id` with the update restricted to the monitor's id: the looked-up
      monitor is overwritten and returned, and every other row is left as it
      was. */
  function Update(t: seq<MonitorRow>, id: string, workspaceId: int, plan: Limits,
                  input: MonitorInput, known: set<string>): (r: (Reply, seq<MonitorRow>))
    ensures UpdateGate(t, id, workspaceId, plan, input).Failure? ==>
      r == (Reply(UpdateGate(t, id, workspaceId, plan, input).error, None), t)
    ensures UpdateGate(t, id, workspaceId, plan, input).Success? ==>
      var k := UpdateGate(t, id, workspaceId, plan, input).value;
      && |r.1| == |t|
      && r.1[k] == Overwrite(t[k], input)
      && r.1[k].workspaceId == workspaceId
      && (forall j :: 0 <= j < |t| && !HasId(JsNumber.ToNumber(id), t[j].id) ==> r.1[j] == t[j])
      && r.0 == Respond(r.1[k], known)
  {
    match UpdateGate(t, id, workspaceId, plan, input)
    case Failure(code) => (Reply(code, None), t)
    case Success(k) =>
      var t' := seq(|t|, j requires 0 <= j < |t| => if HasId(JsNumber.ToNumber(id), t[j].id) then Overwrite(t[j], input) else t[j]);
      (Respond(t'[k], known), t')
  }

  /** With unique ids, the corrected update changes the target row alone. */
  lemma UpdateTouchesOnlyTarget(t: seq<MonitorRow>, id: string, workspaceId: int, plan: Limits,
                                input: MonitorInput, known: set<string>)
    requires UniqueIds(t)
    requires UpdateGate(t, id, workspaceId, plan, input).Success?
    ensures var k := UpdateGate(t, id, workspaceId, plan, input).value;
      forall j :: 0 <= j < |t| && j != k ==> Update(t, id, workspaceId, plan, input, known).1[j] == t[j]
  {
    var k := UpdateGate(t, id, workspaceId, plan, input).value;
    forall j | 0 <= j < |t| && j != k ensures !HasId(JsNumber.ToNumber(id), t[j].id) {
      assert t[j].id != t[k].id by {
        if j < k { } else { }
      }
    }
  }

  /** The periodicity gate comes first: a periodicity outside the plan is
      refused with 403 even when the monitor does not exist or belongs to
      another workspace. */
  lemma PeriodicityBeforeExistence(t: seq<MonitorRow>, id: string, workspaceId: int, plan: Limits,
                                   input: MonitorInput, known: set<string>)
    requires id != "" && input.periodicity !in plan.periodicity
    ensures Update(t, id, workspaceId, plan, input, known) == (Reply(403, None), t)
    ensures UpdateAsWritten(t, id, workspaceId, plan, input, known) == (Reply(403, None), t)
  {
  }

  /** The as-written update overwrites other workspaces' monitors: updating
      monitor 2 of workspace 2 also rewrites monitor 1 of workspace 1, and the
      reply carries monitor 1. */
  lemma UpdateAsWrittenClobbers(input: MonitorInput, known: set<string>)
    ensures var m1 := MonitorRow(1, 1, "1m", "https://a.example", "", "a", "", "GET", "", None, true, None);
      var m2 := MonitorRow(2, 2, "1m", "https://b.example", "", "b", "", "GET", "", None, true, None);
      var plan := Limits(10, [input.periodicity]);
      var (reply, t') := UpdateAsWritten([m1, m2], JsNumber.NatToString(2), 2, plan, input, known);
      && t'[0] != m1 && t'[0].workspaceId == 1
      && (reply.code == 200 ==> reply.monitor.value.row.id == 1)
  {
    var m1 := MonitorRow(1, 1, "1m", "https://a.example", "", "a", "", "GET", "", None, true, None);
    var m2 := MonitorRow(2, 2, "1m", "https://b.example", "", "b", "", "GET", "", None, true, None);
    var id := JsNumber.NatToString(2);
    JsNumber.NumberOfNatToString(2);
    assert !HasId(JsNumber.ToNumber(id), m1.id) && HasId(JsNumber.ToNumber(id), m2.id);
    assert FindById([m1, m2], JsNumber.ToNumber(id)) == Some(1);
    assert Overwrite(m1, input).headers.Some?;
  }

  /** `DELETE /:id`: after the 404/401 lookup, the monitor is deactivated and
      stamped as deleted; the row stays in the table. */
  function Delete(t: seq<MonitorRow>, id: JsNumber.Num, workspaceId: int, now: int): (r: (nat, seq<MonitorRow>))
    ensures OwnedLookup(t, id, workspaceId).Failure? ==> r == (OwnedLookup(t, id, workspaceId).error, t)
    ensures OwnedLookup(t, id, workspaceId).Success? ==>
      && r.0 == 200 && |r.1| == |t|
      && forall k :: 0 <= k < |t| ==>
           r.1[k] == if HasId(id, t[k].id) then t[k].(active := false, deletedAt := Some(now)) else t[k]
  {
    match OwnedLookup(t, id, workspaceId)
    case Failure(code) => (code, t)
    case Success(_) =>
      (200, seq(|t|, k requires 0 <= k < |t| =>
                 if HasId(id, t[k].id) then t[k].(active := false, deletedAt := Some(now)) else t[k]))
  }

  /** Deleting is soft: the old GET still finds the monitor, now inactive,
      and the workspace's live-monitor count drops by one. */
  lemma DeleteIsSoft(t: seq<MonitorRow>, id: JsNumber.Num, workspaceId: int, now: int)
    requires UniqueIds(t)
    requires OwnedLookup(t, id, workspaceId).Success?
    ensures var k := OwnedLookup(t, id, workspaceId).value;
      var t' := Delete(t, id, workspaceId, now).1;
      && OwnedLookup(t', id, workspaceId) == Success(k)
      && t'[k] == t[k].(active := false, deletedAt := Some(now))
      && (forall j :: 0 <= j < |t| && j != k ==> t'[j] == t[j])
  {
    var k := OwnedLookup(t, id, workspaceId).value;
    var t' := Delete(t, id, workspaceId, now).1;
    forall j | 0 <= j < |t| && j != k ensures !HasId(id, t[j].id) {
      assert t[j].id != t[k].id by {
        if j < k { } else { }
      }
    }
    assert FindById(t', id) == Some(k) by {
      assert forall j :: 0 <= j < |t| ==> t'[j].id == t[j].id;
    }
  }

  /** A daily statistics row of the summary. */
  datatype DailyStat = DailyStat(ok: int, count: int, day: string)

  /** The cache key of a monitor's summary. */
  function CacheKey(id: int): string {
    JsNumber.IntToString(id) + "-daily-stats"
  }

  /** `GET /:id/summary`: after the 404/401 lookup, the cached statistics
      when present; otherwise the freshly `fetched` ones, which are cached. */
  function Summary(t: seq<MonitorRow>, id: JsNumber.Num, workspaceId: int,
                   cache: map<string, seq<DailyStat>>, fetched: seq<DailyStat>)
    : (r: (nat, seq<DailyStat>, map<string, seq<DailyStat>>))
    ensures OwnedLookup(t, id, workspaceId).Failure? ==> r == (OwnedLookup(t, id, workspaceId).error, [], cache)
    ensures OwnedLookup(t, id, workspaceId).Success? ==>
      var key := CacheKey(t[OwnedLookup(t, id, workspaceId).value].id);
      && r.0 == 200
      && (key in cache ==> r.1 == cache[key] && r.2 == cache)
      && (key !in cache ==> r.1 == fetched && r.2 == cache[key := fetched])
  {
    match OwnedLookup(t, id, workspaceId)
    case Failure(code) => (code, [], cache)
    case Success(k) =>
      var key := CacheKey(t[k].id);
      if key in cache then (200, cache[key], cache) else (200, fetched, cache[key := fetched])
  }

  /** The summary is served from the cache after its first success: a second
      request, whatever the analytics would return then, gets the same reply
      and leaves the cache as the first left it; and a request caches under
      its own monitor's key only, every other entry kept. */
  lemma SummaryCacheStable(t: seq<MonitorRow>, id: JsNumber.Num, workspaceId: int,
                           cache: map<string, seq<DailyStat>>, fetched: seq<DailyStat>, later: seq<DailyStat>)
    ensures var first := Summary(t, id, workspaceId, cache, fetched);
      var second := Summary(t, id, workspaceId, first.2, later);
      second == first
    ensures var after := Summary(t, id, workspaceId, cache, fetched).2;
      var own := if OwnedLookup(t, id, workspaceId).Success?
        then Some(CacheKey(t[OwnedLookup(t, id, workspaceId).value].id)) else None;
      forall key :: key in cache && Some(key) != own ==> key in after && after[key] == cache[key]
  {
  }

  /** A create that passes both gates gets a positive id under which its
      workspace's GET finds it and replies with the row the request
      described, as the create itself replied. */
  lemma CreatedIsReadable(t: seq<MonitorRow>, workspaceId: int, plan: Limits, input: MonitorInput, known: set<string>)
    requires ActiveCount(t, workspaceId) < plan.monitors && input.periodicity in plan.periodicity
    ensures var t' := Create(t, workspaceId, plan, input, known).1;
      var m := t'[|t|];
      && m.id >= 1 && OwnedLookup(t', JsNumber.Finite(m.id as real), workspaceId) == Success(|t|)
      && Get(t', JsNumber.Finite(m.id as real), workspaceId, known) == Respond(FromInput(m.id, workspaceId, input), known)
      && Get(t', JsNumber.Finite(m.id as real), workspaceId, known) == Create(t, workspaceId, plan, input, known).0
  {
    var t' := Create(t, workspaceId, plan, input, known).1;
    var m := t'[|t|];
    Tables.NextIdPositive(t, (m: MonitorRow) => m.id);
    var id := JsNumber.Finite(m.id as real);
    assert forall k :: 0 <= k < |t| ==> !HasId(id, t'[k].id);
    assert FindById(t', id) == Some(|t|);
  }
}

=== FILE: monitor_columns.dfy ===
/** The monitor table's column logic
    (apps/web/src/components/data-table/monitor/columns.tsx): the filter
    functions of the tags and public columns, and when the uptime cell shows
    a number. */
module MonitorColumns {
  import opened Wrappers

  datatype Tag = Tag(name: string)

  /** The last day's metrics; a missing field is `undefined`. */
  datatype Metrics = Metrics(count: Option<int>, ok: Option<int>)

  /** A row of the monitor table: `tags` and `metrics` may be absent. */
  datatype Row = Row(isPublic: bool, tags: Option<seq<Tag>>, metrics: Option<Metrics>)

  /** A column filter's value: the filter functions act only on arrays. */
  datatype FilterValue<T> = NotArray | Selection(items: seq<T>)

  /** `tags.some(tag => tag.name === item)`. */
  function HasTagNamed(tags: seq<Tag>, item: string): (b: bool)
    ensures b <==> exists k :: 0 <= k < |tags| && tags[k].name == item
  {
    if tags == [] then false
    else if tags[0].name == item then true
    else
      var b := HasTagNamed(tags[1..], item);
      assert forall k :: 1 <= k < |tags| ==> tags[k] == tags[1..][k - 1];
      b
  }

  /** `value.some(item => row.original.tags?.some(...))`; an absent tag list
      makes every inner call `undefined`, which is falsy. */
  function AnySelected(items: seq<string>, tags: Option<seq<Tag>>): (b: bool)
    ensures b <==> tags.Some? && exists i :: 0 <= i < |items| && HasTagNamed(tags.value, items[i])
  {
    if items == [] then false
    else if tags.Some? && HasTagNamed(tags.value, items[0]) then true
    else
      var b := AnySelected(items[1..], tags);
      assert forall i :: 1 <= i < |items| ==> items[i] == items[1..][i - 1];
      b
  }

  /** The tags column's `filterFn`. */
  function TagsFilter(row: Row, value: FilterValue<string>): (keep: bool)
    ensures value.NotArray? ==> keep
    ensures value.Selection? ==> (keep <==> AnySelected(value.items, row.tags))
  {
    match value
    case NotArray => true
    case Selection(items) => AnySelected(items, row.tags)
  }

  /** A row passes the tags filter iff one of the selected names is the name
      of one of its tags; an empty selection and a row without tags never
      pass. */
  lemma TagsFilterMeaning(row: Row, items: seq<string>)
    ensures TagsFilter(row, Selection(items)) <==>
      row.tags.Some? && exists i, k :: 0 <= i < |items| && 0 <= k < |row.tags.value| && row.tags.value[k].name == items[i]
    ensures items == [] || row.tags.None? ==> !TagsFilter(row, Selection(items))
  {
  }

  /** The public column's `filterFn`: `value.includes(row.monitor.public)`. */
  function PublicFilter(row: Row, value: FilterValue<bool>): (keep: bool)
    ensures value.NotArray? ==> keep
    ensures value.Selection? ==> (keep <==> row.isPublic in value.items)
  {
    match value
    case NotArray => true
    case Selection(items) => row.isPublic in items
  }

  /** Selecting `[true]` keeps exactly the public monitors and `[false]`
      exactly the private ones; selecting both keeps every row and selecting
      neither keeps none. */
  lemma PublicFilterMeaning(row: Row)
    ensures PublicFilter(row, Selection([true])) <==> row.isPublic
    ensures PublicFilter(row, Selection([false])) <==> !row.isPublic
    ensures PublicFilter(row, Selection([true, false])) && PublicFilter(row, Selection([false, true]))
    ensures !PublicFilter(row, Selection([]))
  {
  }

  /** The uptime cell: a dash, or the ratio of successful checks (its
      rounding to two decimals is not modelled). */
  datatype UptimeCell = Dash | Ratio(ok: int, count: int)

  /** `if (!count || !ok)` shows a dash. */
  function Uptime(row: Row): (c: UptimeCell)
    ensures c.Ratio? ==> c.count != 0 && c.ok != 0
  {
    var m := row.metrics.GetOr(Metrics(None, None));
    if m.count.None? || m.count.value == 0 || m.ok.None? || m.ok.value == 0 then Dash
    else Ratio(m.ok.value, m.count.value)
  }

  /** The ratio is shown exactly when both numbers are present and non-zero,
      so the division never sees a zero count. */
  lemma UptimeShownIff(row: Row)
    ensures Uptime(row).Ratio? <==>
      row.metrics.Some? && row.metrics.value.count.Some? && row.metrics.value.count.value != 0
      && row.metrics.value.ok.Some? && row.metrics.value.ok.value != 0
    ensures Uptime(row).Ratio? ==> Uptime(row) == Ratio(row.metrics.value.ok.value, row.metrics.value.count.value)
  {
  }
}

=== FILE: monitor_get.dfy ===
/** The newer single-monitor read (apps/server/src/v1/monitors/get.ts): one
    query matching id, workspace and "not soft-deleted" together, so every miss
    is a 404. The handler reads the table and returns a reply only; it has no
    way to change the table. */
module MonitorGet {
  import opened Wrappers
  import JsNumber
  import opened MonitorApi

  /** Whether a row is visible to the caller: its id and workspace are the
      numbers the query compares with, and it is not soft-deleted. `id` is
      `Number` of the path parameter and `workspaceId` `Number` of the
      context's workspace id. */
  predicate Visible(m: MonitorRow, id: JsNumber.Num, workspaceId: JsNumber.Num) {
    id == JsNumber.Finite(m.id as real) && workspaceId == JsNumber.Finite(m.workspaceId as real) && m.deletedAt.None?
  }

  /** `.get()` of the query: the first visible row. */
  function FindVisible(t: seq<MonitorRow>, id: JsNumber.Num, workspaceId: JsNumber.Num): (r: Option<nat>)
    ensures r.Some? ==> r.value < |t| && Visible(t[r.value], id, workspaceId)
    ensures r.Some? ==> forall k :: 0 <= k < r.value ==> !Visible(t[k], id, workspaceId)
    ensures r.None? <==> forall k :: 0 <= k < |t| ==> !Visible(t[k], id, workspaceId)
  {
    if t == [] then None
    else if Visible(t[0], id, workspaceId) then Some(0)
    else
      match FindVisible(t[1..], id, workspaceId)
      case None => None
      case Some(k) => Some(k + 1)
  }

  /** `registerGetMonitor`: 404 unless a live monitor with this id exists in
      the caller's workspace, otherwise that monitor read through the route's
      own response schema `parse` (apps/server/src/v1/monitors/schema.ts is
      not part of this model), a parse failure being answered 500. */
  function Get(t: seq<MonitorRow>, id: JsNumber.Num, workspaceId: JsNumber.Num,
               parse: MonitorRow -> Result<MonitorView, string>): (r: Reply)
    ensures r.code == 404 <==> forall k :: 0 <= k < |t| ==> !Visible(t[k], id, workspaceId)
    ensures r.code in {200, 404, 500}
    ensures r.code != 404 ==>
      var row := t[FindVisible(t, id, workspaceId).value];
      (r.code == 200 <==> parse(row).Success?) && (r.code == 200 ==> r.monitor == Some(parse(row).value))
    ensures r.code == 200 ==> exists k :: 0 <= k < |t| && Visible(t[k], id, workspaceId) && parse(t[k]) == Success(r.monitor.value)
  {
    match FindVisible(t, id, workspaceId)
    case None => Reply(404, None)
    case Some(k) =>
      match parse(t[k])
      case Success(v) => Reply(200, Some(v))
      case Failure(_) => Reply(500, None)
  }

  /** The number of a workspace id. */
  function WorkspaceNumber(ws: int): JsNumber.Num {
    JsNumber.Finite(ws as real)
  }

  /** A monitor of another workspace is answered 404 here, where the older
      route answers 401. */
  lemma OtherWorkspaceIs404(t: seq<MonitorRow>, id: JsNumber.Num, ws: int, known: set<string>,
                            parse: MonitorRow -> Result<MonitorView, string>)
    requires forall k :: 0 <= k < |t| && HasId(id, t[k].id) ==> t[k].workspaceId != ws
    ensures Get(t, id, WorkspaceNumber(ws), parse).code == 404
    ensures FindById(t, id).Some? ==> MonitorApi.Get(t, id, ws, known).code == 401
  {
  }

  /** A soft-deleted monitor disappears from this route while the older
      route keeps serving it. */
  lemma DeletedIsHidden(t: seq<MonitorRow>, id: JsNumber.Num, ws: int, now: int,
                        parse: MonitorRow -> Result<MonitorView, string>)
    requires UniqueIds(t)
    requires OwnedLookup(t, id, ws).Success?
    ensures var t' := Delete(t, id, ws, now).1;
      && Get(t', id, WorkspaceNumber(ws), parse).code == 404
      && OwnedLookup(t', id, ws).Success?
  {
    var t' := Delete(t, id, ws, now).1;
    DeleteIsSoft(t, id, ws, now);
    forall k | 0 <= k < |t'| ensures !Visible(t'[k], id, WorkspaceNumber(ws)) {
      assert HasId(id, t'[k].id) ==> t'[k].deletedAt.Some?;
    }
  }

  /** When the route's response schema reads rows as the older route's
      `MonitorSchema` does, whatever this route serves, the older route
      serves too, and the same way. */
  lemma AgreesWithOlderRoute(t: seq<MonitorRow>, id: JsNumber.Num, ws: int, known: set<string>,
                             parse: MonitorRow -> Result<MonitorView, string>)
    requires UniqueIds(t)
    requires forall row :: parse(row) == ToView(row, known)
    ensures Get(t, id, WorkspaceNumber(ws), parse).code != 404 ==>
      Get(t, id, WorkspaceNumber(ws), parse) == MonitorApi.Get(t, id, ws, known)
  {
    var w := WorkspaceNumber(ws);
    if FindVisible(t, id, w).Some? {
      var k := FindVisible(t, id, w).value;
      var j := FindById(t, id).value;
      assert t[j].id == t[k].id;
    }
  }
}

=== FILE: notification_form.dfy ===
/** The notification channel form
    (apps/web/src/components/forms/notification-form.tsx): the channel's data
    is stored as a one-member JSON object keyed by the provider's name, read
    back into the form field, guarded on submit, and gated by plan. */
module NotificationForm {
  import opened Wrappers
  import Json
  import opened Providers
  import opened Plans

  /** `setProviderData`: the object `{[provider]: data}`. */
  function SetProviderData(p: Provider, data: string): (ms: Json.Members)
    ensures |ms| == 1 && ms[0].0 == Name(p) && ms[0].1 == data
  {
    [(Name(p), data)]
  }

  /** The stored `data` column: `JSON.stringify(setProviderData(p, d))`. */
  function StoredData(p: Provider, data: string): string {
    Json.Stringify(SetProviderData(p, data))
  }

  /** `getDefaultProviderData`: "" when no provider is set; otherwise the
      provider's member of the parsed data, a missing or empty data string
      parsing as "{}". `Success(None)` is `undefined`; a parse error throws. */
  function DefaultProviderData(provider: Option<Provider>, data: Option<string>): (r: Result<Option<string>, string>)
    ensures provider.None? ==> r == Success(Some(""))
    ensures provider.Some? && (data.None? || data.value == "") ==> r == Success(None)
    ensures provider.Some? && data.Some? && data.value != "" ==>
      match Json.ParseObject(data.value)
      case None => r.Failure?
      case Some(ms) => r == Success(Json.Get(ms, Name(provider.value)))
  {
    if provider.None? then Success(Some(""))
    else
      var text := if data.None? || data.value == "" then "{}" else data.value;
      match Json.ParseObject(text)
      case None => Failure("SyntaxError")
      case Some(ms) => Success(Json.Get(ms, Name(provider.value)))
  }

  /** Editing a saved channel shows the data it was saved with. */
  lemma DefaultOfStored(p: Provider, data: string)
    ensures DefaultProviderData(Some(p), Some(StoredData(p, data))) == Success(Some(data))
  {
    Json.ParseOfStringify(SetProviderData(p, data));
    assert StoredData(p, data)[0] == '{';
  }

  /** Data saved for one provider reads as `undefined` under another. */
  lemma OtherProviderIsUndefined(p: Provider, q: Provider, data: string)
    requires p != q
    ensures DefaultProviderData(Some(q), Some(StoredData(p, data))) == Success(None)
  {
    Json.ParseOfStringify(SetProviderData(p, data));
    assert StoredData(p, data)[0] == '{';
    NamesRoundTrip(p);
  }

  /** `getProviderMetaData(p).plans`. */
  function PlansOf(p: Provider): (plans: seq<WorkspacePlan>)
    ensures forall q :: q in plans ==> q in AllPlans
  {
    match p
    case Sms => [Pro, Team]
    case _ => [Free, Starter, Pro, Team]
  }

  /** Whether `getProviderMetaData(p)` has a `sendTest` function. The default
      branch names its member `send`, so it has none. */
  predicate HasTest(p: Provider) {
    match p
    case Slack => true
    case Discord => true
    case _ => false
  }

  /** Whether the provider's option, and its data input, is disabled. */
  predicate Disabled(p: Provider, plan: WorkspacePlan) {
    plan !in PlansOf(p)
  }

  /** sms needs the pro or team plan; every other provider is on all four
      plans. */
  lemma PlanGating(p: Provider, plan: WorkspacePlan)
    ensures Disabled(p, plan) <==> p == Sms && (plan == Free || plan == Starter)
  {
  }

  /** The test button is offered for the webhook providers only. */
  lemma TestOnlyForWebhooks(p: Provider)
    ensures HasTest(p) <==> p == Slack || p == Discord
  {
  }

  datatype Mutation = Create | Update

  datatype SubmitOutcome =
    | FieldError(field: string, message: string)
    | Mutate(kind: Mutation, provider: Provider, data: string)

  /** `onSubmit`: empty data is a field error and nothing is sent; otherwise
      an update when the form was opened on a saved channel, else a create,
      with the data stored as the provider's JSON object. */
  function Submit(p: Provider, data: string, editing: bool): (r: SubmitOutcome)
    ensures data == "" <==> r.FieldError?
    ensures r.FieldError? ==> r == FieldError("data", "This field is required")
    ensures r.Mutate? ==> (r.kind == Update <==> editing) && r.provider == p
    ensures r.Mutate? ==> DefaultProviderData(Some(p), Some(r.data)) == Success(Some(data))
  {
    if data == "" then FieldError("data", "This field is required")
    else
      DefaultOfStored(p, data);
      Mutate(if editing then Update else Create, p, StoredData(p, data))
  }

  /** What the test ping does: the provider it calls, if any, and the toast
      it shows, if any. */
  datatype Ping = Ping(called: Option<Provider>, toast: Option<string>)

  /** `sendTestWebhookPing`; `succeeds` is the result of the provider's test
      call. */
  function TestPing(p: Provider, webhook: string, succeeds: bool): (r: Ping)
    ensures webhook == "" ==> r == Ping(None, None)
    ensures r.called.Some? <==> webhook != "" && HasTest(p)
    ensures r.called.Some? ==> r.called.value == p
    ensures r.toast == Some("test-success") <==> webhook != "" && HasTest(p) && succeeds
  {
    if webhook == "" then Ping(None, None)
    else if HasTest(p) then Ping(Some(p), Some(if succeeds then "test-success" else "test-error"))
    else Ping(None, Some("test-error"))
  }
}

=== FILE: providers.dfy ===
/** Notification providers and the provider dispatch table
    (apps/server/src/checker/utils.ts). */
module Providers {
  import opened Wrappers

  /** The notification channels a workspace can configure. */
  datatype Provider = Email | Slack | Discord | Sms | PagerDuty

  /** The providers in the order the form lists them. */
  const AllProviders: seq<Provider> := [Email, Slack, Discord, Sms, PagerDuty]

  /** The provider's name as stored in the `provider` column and used as the
      key of its notification data. */
  function Name(p: Provider): string {
    match p
    case Email => "email"
    case Slack => "slack"
    case Discord => "discord"
    case Sms => "sms"
    case PagerDuty => "pagerduty"
  }

  function FromName(s: string): (r: Option<Provider>)
    ensures r.Some? ==> Name(r.value) == s
  {
    if s == "email" then Some(Email)
    else if s == "slack" then Some(Slack)
    else if s == "discord" then Some(Discord)
    else if s == "sms" then Some(Sms)
    else if s == "pagerduty" then Some(PagerDuty)
    else None
  }

  /** Every provider name reads back as its provider, and the list of
      providers covers every provider once. */
  lemma NamesRoundTrip(p: Provider)
    ensures FromName(Name(p)) == Some(p)
    ensures p in AllProviders
    ensures forall q :: Name(q) == Name(p) ==> q == p
  {
  }

  /** The three exports each provider package offers. */
  datatype Operation = SendAlert | SendRecovery | SendDegraded

  /** A notification function: the package it is imported from and which of
      that package's exports it is. */
  datatype Sender = Sender(provider: Provider, operation: Operation)

  /** One entry of the dispatch table. */
  datatype Notif = Notif(sendAlert: Sender, sendRecovery: Sender, sendDegraded: Sender)

  /** The entry's function for one operation. */
  function Select(n: Notif, op: Operation): Sender {
    match op
    case SendAlert => n.sendAlert
    case SendRecovery => n.sendRecovery
    case SendDegraded => n.sendDegraded
  }

  /** `providerToFunction`: a record keyed by provider name, each entry
      holding the three functions imported from one package. */
  function ProviderToFunction(key: string): Option<Notif> {
    if key == "email" then Some(Notif(Sender(Email, SendAlert), Sender(Email, SendRecovery), Sender(Email, SendDegraded)))
    else if key == "slack" then Some(Notif(Sender(Slack, SendAlert), Sender(Slack, SendRecovery), Sender(Slack, SendDegraded)))
    else if key == "discord" then Some(Notif(Sender(Discord, SendAlert), Sender(Discord, SendRecovery), Sender(Discord, SendDegraded)))
    else if key == "sms" then Some(Notif(Sender(Sms, SendAlert), Sender(Sms, SendRecovery), Sender(Sms, SendDegraded)))
    else if key == "pagerduty" then Some(Notif(Sender(PagerDuty, SendAlert), Sender(PagerDuty, SendRecovery), Sender(PagerDuty, SendDegraded)))
    else None
  }

  /** The table is wired straight: looked up under the name a channel stores,
      every provider's entry offers all three operations, each taken from that
      provider's own package under the matching export, so no two table slots
      share a function. */
  lemma NoCrossWiring(p: Provider, op: Operation, q: Provider, op': Operation)
    ensures ProviderToFunction(Name(p)).Some?
    ensures Select(ProviderToFunction(Name(p)).value, op) == Sender(p, op)
    ensures ProviderToFunction(Name(q)).Some? && Select(ProviderToFunction(Name(p)).value, op) == Select(ProviderToFunction(Name(q)).value, op') ==> p == q && op == op'
  {
    EntryOf(p);
    EntryOf(q);
  }

  /** The entry under a provider's name, one provider at a time. */
  lemma EntryOf(p: Provider)
    ensures ProviderToFunction(Name(p)) == Some(Notif(Sender(p, SendAlert), Sender(p, SendRecovery), Sender(p, SendDegraded)))
  {
    match p
    case Email =>
    case Slack => assert Name(p) != "email";
    case Discord => assert Name(p) != "email" && Name(p) != "slack";
    case Sms => assert Name(p) != "email" && Name(p) != "slack" && Name(p) != "discord";
    case PagerDuty => assert Name(p) != "email" && Name(p) != "slack" && Name(p) != "discord" && Name(p) != "sms";
  }

  /** `satisfies Record<NotificationProvider, Notif>`: the table has an entry
      under a key exactly when the key is a provider name. */
  lemma TableKeysAreProviderNames(key: string)
    ensures ProviderToFunction(key).Some? <==> FromName(key).Some?
  {
  }
}

/** Workspace plans. */
module Plans {
  import opened Wrappers

  datatype WorkspacePlan = Free | Starter | Pro | Team

  const AllPlans: seq<WorkspacePlan> := [Free, Starter, Pro, Team]

  function PlanName(p: WorkspacePlan): string {
    match p
    case Free => "free"
    case Starter => "starter"
    case Pro => "pro"
    case Team => "team"
  }
}

=== FILE: region_codec.dfy ===
/** The monitor's region list as stored (apps/server/src/v1/monitor.ts): the
    input array is written as `String(array)`, the comma-joined codes, and read
    back by splitting on "," unless the string is empty, each piece being
    checked against the known region codes. */
module RegionCodec {
  import opened Wrappers
  import Text

  /** `String(array)`: the codes joined with ",". */
  function Encode(rs: seq<string>): string {
    Text.Join(rs, ',')
  }

  predicate AllKnown(ps: seq<string>, known: set<string>) {
    forall i :: 0 <= i < |ps| ==> ps[i] in known
  }

  /** The schema's region preprocessing: a missing value is the empty list;
      otherwise the string is split on "," if non-empty, and every piece must
      be a known region code. */
  function Decode(stored: Option<string>, known: set<string>): (r: Result<seq<string>, string>)
    ensures stored == None || stored == Some("") ==> r == Success([])
    ensures r.Success? ==> AllKnown(r.value, known)
    ensures stored.Some? && stored.value != "" ==>
      (r.Success? <==> AllKnown(Text.Split(stored.value, ','), known)) && (r.Success? ==> r.value == Text.Split(stored.value, ','))
  {
    if stored.None? || |stored.value| == 0 then Success([])
    else
      var ps := Text.Split(stored.value, ',');
      if AllKnown(ps, known) then Success(ps)
      else Failure("invalid region")
  }

  /** Region codes are non-empty and contain no comma. */
  predicate ValidCodes(known: set<string>) {
    forall r :: r in known ==> r != "" && ',' !in r
  }

  /** Round trip: any list of known region codes reads back as itself,
      including the empty list. */
  lemma DecodeOfJoin(rs: seq<string>, known: set<string>)
    requires ValidCodes(known)
    requires forall i :: 0 <= i < |rs| ==> rs[i] in known
    ensures Decode(Some(Encode(rs)), known) == Success(rs)
  {
    if rs != [] {
      assert rs[0] in known;
      Text.SplitJoin(rs, ',');
      assert Encode(rs) != "" by {
        if |rs| > 1 { assert Encode(rs)[|rs[0]|] == ','; }
      }
    }
  }

  /** A stored value with an unknown piece (an empty one from a doubled or
      trailing comma, for instance) does not read back. */
  lemma TrailingCommaRejected(r: string, known: set<string>)
    requires ValidCodes(known) && r in known
    ensures Decode(Some(r + ","), known).Failure?
  {
    Text.SplitPiece(r, "", ',');
    assert r + [','] + "" == r + ",";
    assert Text.Split(r + ",", ',') == [r, ""];
    assert Text.Split(r + ",", ',')[1] !in known;
  }
}

=== FILE: seqs.dfy ===
/** `Array.prototype.filter`: the elements of a list that pass a test, in
    their order. Every listing the model takes from a table, and the lines
    the checker keeps, are such filters; `FilterMap` is a `map` whose
    `null` results a `filter` then drops. */
module Seqs {
  import opened Wrappers

  /** The elements of `s` that `keep` accepts, in order. What the result
      holds is stated by FilterMeaning, its order by FilterAppend. */
  function Filter<T(!new)>(s: seq<T>, keep: T -> bool): (r: seq<T>)
    ensures |r| <= |s|
  {
    if s == [] then []
    else
      var rest := Filter(s[1..], keep);
      if keep(s[0]) then [s[0]] + rest else rest
  }

  /** The filter holds exactly the elements of `s` that pass, each as often
      as in `s`. */
  lemma {:induction false} FilterMeaning<T(!new)>(s: seq<T>, keep: T -> bool)
    ensures forall x :: x in Filter(s, keep) <==> x in s && keep(x)
    ensures forall x :: multiset(Filter(s, keep))[x] == if keep(x) then multiset(s)[x] else 0
  {
    if s != [] {
      FilterMeaning(s[1..], keep);
      assert s == [s[0]] + s[1..];
    }
  }

  /** Filtering a concatenation filters each part and keeps them in order;
      with FilterOne this fixes the result of a filter on every list. */
  lemma {:induction false} FilterAppend<T(!new)>(a: seq<T>, b: seq<T>, keep: T -> bool)
    ensures Filter(a + b, keep) == Filter(a, keep) + Filter(b, keep)
  {
    if a == [] {
      assert a + b == b;
    } else {
      FilterAppend(a[1..], b, keep);
      FilterCons(a[0], a[1..], keep);
      FilterCons(a[0], a[1..] + b, keep);
      assert [a[0]] + a[1..] == a;
      assert [a[0]] + (a[1..] + b) == a + b;
      var head := if keep(a[0]) then [a[0]] else [];
      Associative(head, Filter(a[1..], keep), Filter(b, keep));
    }
  }

  /** The first element is kept exactly when it passes, ahead of the rest. */
  lemma FilterCons<T(!new)>(x: T, s: seq<T>, keep: T -> bool)
    ensures Filter([x] + s, keep) == (if keep(x) then [x] else []) + Filter(s, keep)
  {
    assert ([x] + s)[1..] == s;
  }

  /** A single element is kept exactly when it passes. */
  lemma FilterOne<T(!new)>(x: T, keep: T -> bool)
    ensures Filter([x], keep) == if keep(x) then [x] else []
  {
    assert [x][1..] == [];
  }

  /** The result `f` gives for one element, if any, as a list. */
  function ResultOf<T, U>(x: T, f: T -> Option<U>): (r: seq<U>)
    ensures |r| <= 1
  {
    match f(x)
    case None => []
    case Some(y) => [y]
  }

  /** The results `f` gives for the elements of `s`, in order, elements
      without a result dropped. What the result holds is stated by
      FilterMapMeaning, its order by FilterMapAppend. */
  function FilterMap<T, U>(s: seq<T>, f: T -> Option<U>): (r: seq<U>)
    ensures |r| <= |s|
  {
    if s == [] then [] else ResultOf(s[0], f) + FilterMap(s[1..], f)
  }

  /** Every result is that of some element, and every element with a result
      contributes it. */
  lemma {:induction false} FilterMapMeaning<T, U>(s: seq<T>, f: T -> Option<U>)
    ensures forall y :: y in FilterMap(s, f) ==> exists i :: 0 <= i < |s| && f(s[i]) == Some(y)
    ensures forall i :: 0 <= i < |s| && f(s[i]).Some? ==> f(s[i]).value in FilterMap(s, f)
  {
    if s != [] {
      FilterMapMeaning(s[1..], f);
      assert forall i :: 1 <= i < |s| ==> s[i] == s[1..][i - 1];
      forall y | y in FilterMap(s[1..], f) ensures exists i :: 0 <= i < |s| && f(s[i]) == Some(y) {
        var j :| 0 <= j < |s[1..]| && f(s[1..][j]) == Some(y);
        assert s[j + 1] == s[1..][j];
      }
    }
  }

  /** Mapping a concatenation maps each part and keeps them in order. */
  lemma {:induction false} FilterMapAppend<T, U>(a: seq<T>, b: seq<T>, f: T -> Option<U>)
    ensures FilterMap(a + b, f) == FilterMap(a, f) + FilterMap(b, f)
  {
    if a == [] {
      assert a + b == b;
    } else {
      FilterMapAppend(a[1..], b, f);
      assert (a + b)[1..] == a[1..] + b;
      assert (a + b)[0] == a[0];
      Associative(ResultOf(a[0], f), FilterMap(a[1..], f), FilterMap(b, f));
    }
  }

  /** A single element gives its result, if any. */
  lemma FilterMapOne<T, U>(x: T, f: T -> Option<U>)
    ensures FilterMap([x], f) == if f(x).Some? then [f(x).value] else []
  {
    assert [x][1..] == [];
  }

  /** Concatenation is associative. */
  lemma Associative<T>(x: seq<T>, y: seq<T>, z: seq<T>)
    ensures x + (y + z) == (x + y) + z
  {
  }
}

=== FILE: slack.dfy ===
/** The Slack notification adapter (packages/notifications/slack/src/index.ts):
    which text an alert or a recovery carries, where it is posted, and which
    failures reach the caller. The network call is a parameter: whether
    `fetch` throws. */
module Slack {
  import opened Wrappers
  import Json
  import JsNumber

  /** The monitor columns the messages use. */
  datatype Monitor = Monitor(url: string, name: string)

  /** One POST to a webhook: the URL (`undefined` when the channel's data has
      no `slack` member) and the text of the message's section block. */
  datatype Post = Post(webhook: Option<string>, text: string)

  /** What a call did: the post it attempted, how many errors it logged, and
      whether it threw (its promise was rejected). */
  datatype Outcome = Outcome(post: Option<Post>, logged: nat, thrown: bool)

  const PoweredBy: string := " \n\n Powered by <https://www.openstatus.dev/|OpenStatus>."

  /** The text of an alert or recovery starts with a link to the monitor. */
  function MonitorLink(m: Monitor): string {
    "Your monitor <" + m.url + "/|" + m.name + ">"
  }

  /** The alert's reason: the status code when it is truthy (present and not
      0), otherwise the message, printed as `undefined` when absent. */
  function Detail(statusCode: Option<int>, message: Option<string>): string {
    if statusCode.Some? && statusCode.value != 0 then "status code " + JsNumber.IntToString(statusCode.value)
    else "error message " + message.GetOr("undefined")
  }

  function AlertText(m: Monitor, statusCode: Option<int>, message: Option<string>): string {
    MonitorLink(m) + " with " + Detail(statusCode, message) + " \U{1F6A8} " + PoweredBy
  }

  function RecoveryText(m: Monitor): string {
    MonitorLink(m) + " is up again\n              \U{1F680} " + PoweredBy
  }

  const TestText: string :=
    "This is a test notification from <https://www.openstatus.dev/|OpenStatus>.\n If you can read this, your Slack webhook is functioning correctly!"

  /** The webhook URL of a channel: the `slack` member of its parsed data, or
      `Failure` when `JSON.parse` throws. */
  function Webhook(data: string): (r: Result<Option<string>, string>)
    ensures r.Success? <==> Json.ParseObject(data).Some?
  {
    match Json.ParseObject(data)
    case None => Failure("JSON.parse")
    case Some(ms) => Success(Json.Get(ms, "slack"))
  }

  /** `postToWebhook`: one POST; a fetch error is logged and rethrown. */
  function PostToWebhook(text: string, webhook: Option<string>, fetchThrows: bool): (o: Outcome)
    ensures o.post == Some(Post(webhook, text))
    ensures o.thrown <==> fetchThrows
    ensures o.logged == if fetchThrows then 1 else 0
  {
    Outcome(Some(Post(webhook, text)), if fetchThrows then 1 else 0, fetchThrows)
  }

  /** Runs a send: parse the channel's data (a parse error escapes, nothing is
      posted), post, and swallow a post failure after logging it once more. */
  function Send(data: string, text: string, fetchThrows: bool): (o: Outcome)
    ensures o.thrown <==> Json.ParseObject(data).None?
    ensures o.post.Some? <==> Json.ParseObject(data).Some?
    ensures o.post.Some? ==> o.post.value == Post(Webhook(data).value, text)
    ensures o.logged == if o.post.Some? && fetchThrows then 2 else 0
  {
    match Webhook(data)
    case Failure(_) => Outcome(None, 0, true)
    case Success(url) =>
      var p := PostToWebhook(text, url, fetchThrows);
      if p.thrown then Outcome(p.post, p.logged + 1, false) else p
  }

  /** `sendAlert`. */
  function SendAlert(m: Monitor, data: string, statusCode: Option<int>, message: Option<string>,
                     fetchThrows: bool): (o: Outcome)
    ensures o.thrown <==> Json.ParseObject(data).None?
    ensures o.post.Some? ==> o.post.value.text == AlertText(m, statusCode, message)
  {
    Send(data, AlertText(m, statusCode, message), fetchThrows)
  }

  /** `sendRecovery`: the status code and message are accepted and ignored. */
  function SendRecovery(m: Monitor, data: string, statusCode: Option<int>, message: Option<string>,
                        fetchThrows: bool): (o: Outcome)
    ensures o.thrown <==> Json.ParseObject(data).None?
    ensures o.post.Some? ==> o.post.value.text == RecoveryText(m)
  {
    Send(data, RecoveryText(m), fetchThrows)
  }

  /** `sendTestSlackMessage`: posts the fixed test text to the given URL and
      reports whether the post went through. */
  function SendTestSlackMessage(webhook: string, fetchThrows: bool): (r: (bool, Post))
    ensures r.0 <==> !fetchThrows
    ensures r.1 == Post(Some(webhook), TestText)
  {
    var o := PostToWebhook(TestText, Some(webhook), fetchThrows);
    (!o.thrown, o.post.value)
  }

  /** A channel whose data was stored by the notification form for Slack
      posts to exactly the URL the user entered. */
  lemma WebhookOfStoredData(url: string)
    ensures Webhook(Json.Stringify([("slack", url)])) == Success(Some(url))
  {
    Json.ParseOfStringify([("slack", url)]);
  }

  /** A post failure never escapes `sendAlert` or `sendRecovery`: whether
      they throw depends only on the channel's data, not on the network. */
  lemma PostFailureSwallowed(m: Monitor, data: string, code: Option<int>, message: Option<string>)
    ensures SendAlert(m, data, code, message, true).thrown == SendAlert(m, data, code, message, false).thrown
    ensures SendRecovery(m, data, code, message, true).thrown == SendRecovery(m, data, code, message, false).thrown
  {
  }

  /** A truthy status code is reported and the message is not; a falsy one
      (absent or 0) gives way to the message. */
  lemma AlertDetailChoice(code: Option<int>, message: Option<string>, message': Option<string>)
    ensures code.Some? && code.value != 0 ==>
      Detail(code, message) == "status code " + JsNumber.IntToString(code.value)
      && Detail(code, message) == Detail(code, message')
    ensures code.None? || code.value == 0 ==>
      Detail(code, message) == "error message " + (if message.Some? then message.value else "undefined")
    ensures Detail(Some(0), message) == Detail(None, message)
  {
  }

  /** A status code is printed in decimal: `Number` reads it back from the
      alert's detail. */
  lemma StatusCodePrinted(n: nat)
    requires n != 0
    ensures Detail(Some(n), None) == "status code " + JsNumber.NatToString(n)
    ensures JsNumber.ToNumber(Detail(Some(n), None)[12..]) == JsNumber.Finite(n as real)
  {
    var d := Detail(Some(n), None);
    assert d[12..] == JsNumber.NatToString(n);
    JsNumber.NumberOfNatToString(n);
  }

  /** The recovery text does not depend on the status code or the message. */
  lemma RecoveryIgnoresDetail(m: Monitor, data: string, c1: Option<int>, m1: Option<string>,
                              c2: Option<int>, m2: Option<string>, fetchThrows: bool)
    ensures SendRecovery(m, data, c1, m1, fetchThrows) == SendRecovery(m, data, c2, m2, fetchThrows)
  {
  }
}

=== FILE: status_report_list.dfy ===
/** The public list of status reports
    (apps/web/src/components/status-page/status-report-list.tsx): an optional
    filter to the last seven days, a sort by last update, newest first and
    reports without an update time last, and the affected monitors of each
    report. Times are milliseconds since the epoch. */
module StatusReportList {
  import opened Wrappers
  import Seqs

  /** A status report with its updates' dates and its monitor links. */
  datatype ListedReport = ListedReport(id: int, updatedAt: Option<int>, updateDates: seq<int>, linkedMonitors: seq<int>)

  /** A monitor shown on the public page. */
  datatype PublicMonitor = PublicMonitor(id: int, name: string)

  datatype Context = All | Latest

  /** Seven days in milliseconds. */
  const Week: int := 1000 * 60 * 60 * 24 * 7

  /** Whether one of the report's updates is dated strictly after `since`. */
  predicate UpdatedAfter(r: ListedReport, since: int) {
    exists i :: 0 <= i < |r.updateDates| && r.updateDates[i] > since
  }

  /** Whether a report was updated within the week before `now`. */
  function RecentAt(now: int): ListedReport -> bool {
    r => UpdatedAfter(r, now - Week)
  }

  /** `getLastWeeksIncidents`, or every report for the "all" context: the
      latest list keeps, in order, each report updated within the week, as
      often as it is given. */
  function Visible(reports: seq<ListedReport>, context: Context, now: int): (r: seq<ListedReport>)
    ensures context == All ==> r == reports
    ensures context == Latest ==> forall x :: x in r <==> x in reports && UpdatedAfter(x, now - Week)
    ensures context == Latest ==> forall x :: multiset(r)[x] == if UpdatedAfter(x, now - Week) then multiset(reports)[x] else 0
    ensures |r| <= |reports|
  {
    if context == All then reports
    else
      Seqs.FilterMeaning(reports, RecentAt(now));
      Seqs.Filter(reports, RecentAt(now))
  }

  /** The visible reports of two runs of reports are those of the first run
      followed by those of the second; a single report is visible exactly
      when the context shows all or it was updated within the week. */
  lemma VisibleAppend(a: seq<ListedReport>, b: seq<ListedReport>, context: Context, now: int)
    ensures Visible(a + b, context, now) == Visible(a, context, now) + Visible(b, context, now)
    ensures forall x :: Visible([x], context, now) == if context == All || UpdatedAfter(x, now - Week) then [x] else []
  {
    Seqs.FilterAppend(a, b, RecentAt(now));
    forall x ensures Visible([x], context, now) == if context == All || UpdatedAfter(x, now - Week) then [x] else [] {
      Seqs.FilterOne(x, RecentAt(now));
    }
  }

  /** The comparator's order: `a` may stay before `b`. Reports with an
      update time come first, newest first. */
  predicate InOrder(a: ListedReport, b: ListedReport) {
    match (a.updatedAt, b.updatedAt)
    case (Some(x), Some(y)) => x >= y
    case (Some(_), None) => true
    case (None, Some(_)) => false
    case (None, None) => true
  }

  predicate Sorted(s: seq<ListedReport>) {
    forall i, j :: 0 <= i < j < |s| ==> InOrder(s[i], s[j])
  }

  /** Inserts `x` into a sorted list after every element it may not precede. */
  function Insert(x: ListedReport, s: seq<ListedReport>): (r: seq<ListedReport>)
    requires Sorted(s)
    ensures Sorted(r)
    ensures multiset(r) == multiset(s) + multiset{x}
    ensures |r| == |s| + 1
  {
    if s == [] then [x]
    else if InOrder(x, s[0]) then
      [x] + s
    else
      var rest := Insert(x, s[1..]);
      HeadPrecedesInsert(x, s, rest);
      ConsSorted(s[0], rest);
      assert multiset([s[0]] + rest) == multiset(s) + multiset{x} by {
        assert s == [s[0]] + s[1..];
      }
      [s[0]] + rest
  }

  /** The head of a sorted list may precede every element of its tail with
      `x` inserted, when `x` may not precede it. */
  lemma HeadPrecedesInsert(x: ListedReport, s: seq<ListedReport>, rest: seq<ListedReport>)
    requires Sorted(s) && s != [] && !InOrder(x, s[0])
    requires multiset(rest) == multiset(s[1..]) + multiset{x}
    ensures forall k :: 0 <= k < |rest| ==> InOrder(s[0], rest[k])
  {
    forall k | 0 <= k < |rest| ensures InOrder(s[0], rest[k]) {
      assert rest[k] in multiset(rest);
      if rest[k] != x {
        assert rest[k] in multiset(s[1..]);
        var j :| 0 <= j < |s[1..]| && s[1..][j] == rest[k];
        assert InOrder(s[0], s[j + 1]);
      }
    }
  }

  /** A sorted list stays sorted behind an element that may precede all of it. */
  lemma ConsSorted(a: ListedReport, rest: seq<ListedReport>)
    requires Sorted(rest)
    requires forall k :: 0 <= k < |rest| ==> InOrder(a, rest[k])
    ensures Sorted([a] + rest)
  {
    var r := [a] + rest;
    forall i, j | 0 <= i < j < |r| ensures InOrder(r[i], r[j]) {
      if i > 0 {
        assert r[i] == rest[i - 1] && r[j] == rest[j - 1];
      } else {
        assert r[j] == rest[j - 1];
      }
    }
  }

  /** The sort of the list: an insertion sort, so reports that compare equal
      keep their order. */
  function Sort(s: seq<ListedReport>): (r: seq<ListedReport>)
    ensures Sorted(r)
    ensures multiset(r) == multiset(s)
    ensures |r| == |s|
  {
    if s == [] then []
    else
      assert s == [s[0]] + s[1..];
      Insert(s[0], Sort(s[1..]))
  }

  /** What the page shows, in order. */
  function Shown(reports: seq<ListedReport>, context: Context, now: int): (r: seq<ListedReport>)
    ensures multiset(r) == multiset(Visible(reports, context, now))
    ensures forall i, j :: 0 <= i < j < |r| && r[i].updatedAt.None? ==> r[j].updatedAt.None?
    ensures forall i, j :: 0 <= i < j < |r| && r[j].updatedAt.Some? ==>
      r[i].updatedAt.Some? && r[i].updatedAt.value >= r[j].updatedAt.value
  {
    Sort(Visible(reports, context, now))
  }

  /** A report older than a week is gone from the latest list, whatever its
      update time; a report with a recent update is kept. */
  lemma LatestWindow(reports: seq<ListedReport>, now: int, x: ListedReport)
    requires x in reports
    ensures (forall i :: 0 <= i < |x.updateDates| ==> x.updateDates[i] <= now - Week) ==> x !in Shown(reports, Latest, now)
    ensures (exists i :: 0 <= i < |x.updateDates| && x.updateDates[i] > now - Week) ==> x in Shown(reports, Latest, now)
  {
    assert x in Shown(reports, Latest, now) <==> x in multiset(Shown(reports, Latest, now));
  }

  predicate IsPublic(monitors: seq<PublicMonitor>, id: int) {
    exists m :: m in monitors && m.id == id
  }

  /** `monitors.find` for one link. */
  function FindMonitor(monitors: seq<PublicMonitor>, id: int): (r: Option<PublicMonitor>)
    ensures r.Some? ==> r.value in monitors && r.value.id == id
    ensures r.None? <==> forall m :: m in monitors ==> m.id != id
  {
    if monitors == [] then None
    else if monitors[0].id == id then Some(monitors[0])
    else
      var r := FindMonitor(monitors[1..], id);
      assert forall m :: m in monitors <==> m == monitors[0] || m in monitors[1..];
      r
  }

  /** Whether `find` meets a monitor for the link. */
  function Known(monitors: seq<PublicMonitor>): int -> bool {
    id => FindMonitor(monitors, id).Some?
  }

  /** The links to public monitors, in link order, each as often as it is
      linked. */
  function PublicLinks(links: seq<int>, monitors: seq<PublicMonitor>): (pl: seq<int>)
    ensures |pl| <= |links|
    ensures forall x :: x in pl <==> x in links && IsPublic(monitors, x)
    ensures forall x :: multiset(pl)[x] == if IsPublic(monitors, x) then multiset(links)[x] else 0
  {
    Seqs.FilterMeaning(links, Known(monitors));
    Seqs.Filter(links, Known(monitors))
  }

  /** The public links of two runs of links are those of the first run
      followed by those of the second; a single link is kept exactly when
      its monitor is public. */
  lemma PublicLinksAppend(a: seq<int>, b: seq<int>, monitors: seq<PublicMonitor>)
    ensures PublicLinks(a + b, monitors) == PublicLinks(a, monitors) + PublicLinks(b, monitors)
    ensures forall x :: PublicLinks([x], monitors) == if IsPublic(monitors, x) then [x] else []
  {
    Seqs.FilterAppend(a, b, Known(monitors));
    forall x ensures PublicLinks([x], monitors) == if IsPublic(monitors, x) then [x] else [] {
      Seqs.FilterOne(x, Known(monitors));
    }
  }

  /** The affected monitors: each link's monitor, in link order, links to
      unknown monitors dropped. */
  function Affected(links: seq<int>, monitors: seq<PublicMonitor>): (r: seq<PublicMonitor>)
    ensures |r| <= |links|
    ensures forall i :: 0 <= i < |r| ==> r[i] in monitors
  {
    if links == [] then []
    else
      var rest := Affected(links[1..], monitors);
      match FindMonitor(monitors, links[0])
      case None => rest
      case Some(m) => [m] + rest
  }

  /** The affected monitors follow the public links: one monitor per link to
      a public monitor, in link order, each the one `find` returns for that
      link. */
  lemma {:induction false} AffectedFollowsPublicLinks(links: seq<int>, monitors: seq<PublicMonitor>)
    ensures |Affected(links, monitors)| == |PublicLinks(links, monitors)|
    ensures forall i :: 0 <= i < |Affected(links, monitors)| ==>
      FindMonitor(monitors, PublicLinks(links, monitors)[i]) == Some(Affected(links, monitors)[i])
  {
    if links != [] {
      AffectedFollowsPublicLinks(links[1..], monitors);
      var r, pl := Affected(links, monitors), PublicLinks(links, monitors);
      var rest, prest := Affected(links[1..], monitors), PublicLinks(links[1..], monitors);
      if FindMonitor(monitors, links[0]).Some? {
        assert r == [FindMonitor(monitors, links[0]).value] + rest;
        Seqs.FilterCons(links[0], links[1..], Known(monitors));
        assert [links[0]] + links[1..] == links;
        assert pl == [links[0]] + prest;
        FoundStep(monitors, links[0], FindMonitor(monitors, links[0]).value, prest, rest);
      } else {
        Seqs.FilterCons(links[0], links[1..], Known(monitors));
        assert [links[0]] + links[1..] == links;
        assert r == rest && pl == prest;
      }
    }
  }

  /** A found link put in front of links that correspond to their monitors. */
  lemma FoundStep(monitors: seq<PublicMonitor>, l: int, m: PublicMonitor, ls: seq<int>, ms: seq<PublicMonitor>)
    requires FindMonitor(monitors, l) == Some(m)
    requires |ls| == |ms| && forall i :: 0 <= i < |ms| ==> FindMonitor(monitors, ls[i]) == Some(ms[i])
    ensures forall i :: 0 <= i < |ms| + 1 ==> FindMonitor(monitors, ([l] + ls)[i]) == Some(([m] + ms)[i])
  {
  }

  /** When every linked monitor is public, the affected monitors are the
      links, one to one and in order. */
  lemma {:induction false} AffectedFollowsLinks(links: seq<int>, monitors: seq<PublicMonitor>)
    requires forall i :: 0 <= i < |links| ==> IsPublic(monitors, links[i])
    ensures |Affected(links, monitors)| == |links|
    ensures forall i :: 0 <= i < |links| ==> Affected(links, monitors)[i].id == links[i]
  {
    if links != [] {
      assert forall i :: 0 <= i < |links[1..]| ==> links[1..][i] == links[i + 1];
      AffectedFollowsLinks(links[1..], monitors);
      assert FindMonitor(monitors, links[0]).Some?;
    }
  }

  /** A link to a monitor that is not public contributes nothing. */
  lemma {:induction false} UnknownLinksDropped(links: seq<int>, monitors: seq<PublicMonitor>)
    requires forall i :: 0 <= i < |links| ==> !IsPublic(monitors, links[i])
    ensures Affected(links, monitors) == []
  {
    if links != [] {
      UnknownLinksDropped(links[1..], monitors);
    }
  }
}

=== FILE: status_report_schema.dfy ===
/** The status-report tables (packages/db/src/schema/status_reports/status_reports.ts):
    reports and their updates keyed by id, and the two join tables keyed by
    the pair of ids they link. Foreign keys are enforced; each cascade rule
    removes the rows that reference a deleted row. */
module StatusReportSchema {
  import opened Wrappers

  /** The `statusReportStatus` enum. */
  datatype ReportStatus = Investigating | Identified | Monitoring | Resolved

  const AllStatuses: seq<ReportStatus> := [Investigating, Identified, Monitoring, Resolved]

  function StatusName(s: ReportStatus): (n: string) {
    match s
    case Investigating => "investigating"
    case Identified => "identified"
    case Monitoring => "monitoring"
    case Resolved => "resolved"
  }

  /** The enum of names the status column is typed with: only the four
      names denote a status. */
  function StatusFromName(n: string): (r: Option<ReportStatus>)
    ensures r.Some? ==> StatusName(r.value) == n
    ensures r.None? <==> forall s :: StatusName(s) != n
  {
    if n == "investigating" then Some(Investigating)
    else if n == "identified" then Some(Identified)
    else if n == "monitoring" then Some(Monitoring)
    else if n == "resolved" then Some(Resolved)
    else None
  }

  /** The enum lists every status once, and names round-trip. */
  lemma StatusNamesRoundTrip(s: ReportStatus)
    ensures s in AllStatuses
    ensures StatusFromName(StatusName(s)) == Some(s)
    ensures forall i, j :: 0 <= i < j < |AllStatuses| ==> StatusName(AllStatuses[i]) != StatusName(AllStatuses[j])
  {
  }

  /** A row of `status_report`; `pageId` is read by the update route but is
      not a column of this table, so rows created here carry `None`. */
  datatype Report = Report(status: ReportStatus, title: string, workspaceId: Option<int>, pageId: Option<int>)

  /** A row of `status_report_update`. */
  datatype Update = Update(status: ReportStatus, date: int, message: string, reportId: int)

  /** The tables: primary keys as map keys, composite primary keys as the
      pairs of a set, and the ids of the monitors and pages that exist. */
  datatype Db = Db(
    reports: map<int, Report>,
    updates: map<int, Update>,
    monitorLinks: set<(int, int)>,  // (monitorId, statusReportId)
    pageLinks: set<(int, int)>,     // (pageId, statusReportId)
    monitors: set<int>,
    pages: set<int>)

  /** Every foreign key names an existing row. */
  predicate Integrity(db: Db) {
    && (forall u :: u in db.updates ==> db.updates[u].reportId in db.reports)
    && (forall l :: l in db.monitorLinks ==> l.0 in db.monitors && l.1 in db.reports)
    && (forall l :: l in db.pageLinks ==> l.0 in db.pages && l.1 in db.reports)
  }

  /** Inserting into `status_report_to_monitors`: the composite key rejects a
      second link for the same pair, and the foreign keys reject a link to
      a missing monitor or report. */
  function LinkMonitor(db: Db, monitorId: int, reportId: int): (r: Result<Db, string>)
    ensures r.Success? <==> (monitorId, reportId) !in db.monitorLinks && monitorId in db.monitors && reportId in db.reports
    ensures r.Success? ==> r.value == db.(monitorLinks := db.monitorLinks + {(monitorId, reportId)})
    ensures r.Success? ==> |r.value.monitorLinks| == |db.monitorLinks| + 1
    ensures Integrity(db) && r.Success? ==> Integrity(r.value)
  {
    if (monitorId, reportId) in db.monitorLinks then Failure("UNIQUE constraint failed")
    else if monitorId !in db.monitors || reportId !in db.reports then Failure("FOREIGN KEY constraint failed")
    else Success(db.(monitorLinks := db.monitorLinks + {(monitorId, reportId)}))
  }

  /** Inserting into `status_reports_to_pages`, with the same constraints. */
  function LinkPage(db: Db, pageId: int, reportId: int): (r: Result<Db, string>)
    ensures r.Success? <==> (pageId, reportId) !in db.pageLinks && pageId in db.pages && reportId in db.reports
    ensures r.Success? ==> r.value == db.(pageLinks := db.pageLinks + {(pageId, reportId)})
    ensures r.Success? ==> |r.value.pageLinks| == |db.pageLinks| + 1
    ensures Integrity(db) && r.Success? ==> Integrity(r.value)
  {
    if (pageId, reportId) in db.pageLinks then Failure("UNIQUE constraint failed")
    else if pageId !in db.pages || reportId !in db.reports then Failure("FOREIGN KEY constraint failed")
    else Success(db.(pageLinks := db.pageLinks + {(pageId, reportId)}))
  }

  /** Inserting an update: its report must exist and its id must be new. */
  function AddUpdate(db: Db, id: int, u: Update): (r: Result<Db, string>)
    ensures r.Success? <==> id !in db.updates && u.reportId in db.reports
    ensures r.Success? ==> r.value.updates == db.updates[id := u] && r.value.reports == db.reports
    ensures Integrity(db) && r.Success? ==> Integrity(r.value)
  {
    if id in db.updates then Failure("UNIQUE constraint failed")
    else if u.reportId !in db.reports then Failure("FOREIGN KEY constraint failed")
    else Success(db.(updates := db.updates[id := u]))
  }

  /** Deleting a report cascades to its updates and to both join tables. */
  function DeleteReport(db: Db, id: int): (r: Db)
    ensures r.reports.Keys == db.reports.Keys - {id}
    ensures forall k :: k in r.reports ==> r.reports[k] == db.reports[k]
    ensures forall u :: u in r.updates <==> u in db.updates && db.updates[u].reportId != id
    ensures forall u :: u in r.updates ==> r.updates[u] == db.updates[u]
    ensures forall l :: l in r.monitorLinks <==> l in db.monitorLinks && l.1 != id
    ensures forall l :: l in r.pageLinks <==> l in db.pageLinks && l.1 != id
    ensures r.monitors == db.monitors && r.pages == db.pages
  {
    Db((map k | k in db.reports && k != id :: db.reports[k]),
       (map u | u in db.updates && db.updates[u].reportId != id :: db.updates[u]),
       (set l | l in db.monitorLinks && l.1 != id),
       (set l | l in db.pageLinks && l.1 != id),
       db.monitors, db.pages)
  }

  /** Deleting a monitor cascades to its report links only. */
  function DeleteMonitor(db: Db, id: int): (r: Db)
    ensures r.monitors == db.monitors - {id}
    ensures forall l :: l in r.monitorLinks <==> l in db.monitorLinks && l.0 != id
    ensures r.reports == db.reports && r.updates == db.updates && r.pageLinks == db.pageLinks && r.pages == db.pages
  {
    db.(monitors := db.monitors - {id}, monitorLinks := (set l | l in db.monitorLinks && l.0 != id))
  }

  /** Deleting a page cascades to its report links only. */
  function DeletePage(db: Db, id: int): (r: Db)
    ensures r.pages == db.pages - {id}
    ensures forall l :: l in r.pageLinks <==> l in db.pageLinks && l.0 != id
    ensures r.reports == db.reports && r.updates == db.updates && r.monitorLinks == db.monitorLinks && r.monitors == db.monitors
  {
    db.(pages := db.pages - {id}, pageLinks := (set l | l in db.pageLinks && l.0 != id))
  }

  /** Every cascade keeps the foreign keys intact and leaves no row that
      references the deleted one. */
  lemma CascadesKeepIntegrity(db: Db, id: int)
    requires Integrity(db)
    ensures Integrity(DeleteReport(db, id)) && Integrity(DeleteMonitor(db, id)) && Integrity(DeletePage(db, id))
    ensures forall u :: u in DeleteReport(db, id).updates ==> DeleteReport(db, id).updates[u].reportId != id
    ensures forall l :: l in DeleteMonitor(db, id).monitorLinks ==> l.0 != id
    ensures forall l :: l in DeletePage(db, id).pageLinks ==> l.0 != id
  {
  }

  /** Without the cascades, deleting a report would leave dangling updates:
      integrity after the delete needs every referencing row gone. */
  lemma CascadeIsNeeded(db: Db, id: int, u: int)
    requires u in db.updates && db.updates[u].reportId == id
    ensures !Integrity(db.(reports := (map k | k in db.reports && k != id :: db.reports[k])))
  {
  }
}

=== FILE: status_report_update.dfy ===
/** The deprecated update route of a status report
    (apps/server/src/v1/statusReports/update/post.ts): set the report's status,
    insert an update row, and mail the accepted subscribers of the report's
    page. */
module StatusReportPost {
  import opened Wrappers
  import JsNumber
  import opened StatusReportSchema
  import Seqs

  /** A row of the page-subscriber table. */
  datatype Subscriber = Subscriber(email: string, pageId: int, acceptedAt: Option<int>)

  /** The parts of an outgoing email the model keeps; the HTML body is left
      out. */
  datatype Email = Email(to: string, subject: string)

  /** The validated request body. */
  datatype UpdateInput = UpdateInput(status: ReportStatus, date: int, message: string)

  datatype PostReply =
    | NotFound
    | Posted(db: Db, update: Update, emails: seq<Email>)

  /** `Number(id)` as a primary key: the integer a number denotes, if any. */
  function KeyOf(n: JsNumber.Num): (r: Option<int>)
    ensures forall k: int :: r == Some(k) <==> n == JsNumber.Finite(k as real)
  {
    if n.Finite? && n.value == n.value.Floor as real then Some(n.value.Floor) else None
  }

  /** The `update ... where id and workspace ... returning` lookup: the key of
      the report it hits, if any. `id` is `Number` of the path parameter. */
  function Target(db: Db, id: JsNumber.Num, workspaceId: int): (r: Option<int>)
    ensures r.Some? <==> exists k :: k in db.reports && id == JsNumber.Finite(k as real)
                                    && db.reports[k].workspaceId == Some(workspaceId)
    ensures r.Some? ==> r.value in db.reports && db.reports[r.value].workspaceId == Some(workspaceId)
                        && id == JsNumber.Finite(r.value as real)
  {
    match KeyOf(id)
    case None => None
    case Some(k) => if k in db.reports && db.reports[k].workspaceId == Some(workspaceId) then Some(k) else None
  }

  /** Whether a subscriber of the page has accepted. */
  function Accepts(pageId: int): Subscriber -> bool {
    (s: Subscriber) => s.pageId == pageId && s.acceptedAt.Some?
  }

  /** The subscribers of a page that have accepted, in table order, each as
      often as the table holds it. */
  function Accepted(subs: seq<Subscriber>, pageId: int): (r: seq<Subscriber>)
    ensures forall s :: s in r <==> s in subs && s.pageId == pageId && s.acceptedAt.Some?
    ensures forall s :: multiset(r)[s] == if s.pageId == pageId && s.acceptedAt.Some? then multiset(subs)[s] else 0
    ensures |r| <= |subs|
  {
    Seqs.FilterMeaning(subs, Accepts(pageId));
    Seqs.Filter(subs, Accepts(pageId))
  }

  /** The accepted subscribers of two stretches of the table are those of
      the first followed by those of the second; a single subscriber is
      kept exactly when it belongs to the page and has accepted. */
  lemma AcceptedAppend(a: seq<Subscriber>, b: seq<Subscriber>, pageId: int)
    ensures Accepted(a + b, pageId) == Accepted(a, pageId) + Accepted(b, pageId)
    ensures forall s :: Accepted([s], pageId) == if s.pageId == pageId && s.acceptedAt.Some? then [s] else []
  {
    Seqs.FilterAppend(a, b, Accepts(pageId));
    forall s ensures Accepted([s], pageId) == if s.pageId == pageId && s.acceptedAt.Some? then [s] else [] {
      Seqs.FilterOne(s, Accepts(pageId));
    }
  }

  /** One email per recipient, in order, with the page's title in the
      subject. */
  function Mails(recipients: seq<Subscriber>, title: string): (r: seq<Email>)
    ensures |r| == |recipients|
    ensures forall i :: 0 <= i < |r| ==> r[i] == Email(recipients[i].email, "New status update for " + title)
  {
    if recipients == [] then [] else [Email(recipients[0].email, "New status update for " + title)] + Mails(recipients[1..], title)
  }

  /** Whether the report's `pageId` is truthy: present and not 0. */
  predicate HasPage(report: Report) {
    report.pageId.Some? && report.pageId.value != 0
  }

  /** The emails the route sends once the report is updated: none unless the
      plan allows notifications and the report has a truthy page id naming a
      page that exists. */
  function Notify(report: Report, notificationsAllowed: bool, subs: seq<Subscriber>, pageTitles: map<int, string>)
    : (r: seq<Email>)
    ensures !notificationsAllowed || report.pageId.None? || report.pageId == Some(0) ==> r == []
    ensures report.pageId.Some? && report.pageId.value !in pageTitles ==> r == []
    ensures notificationsAllowed && HasPage(report) && report.pageId.value in pageTitles ==>
      r == Mails(Accepted(subs, report.pageId.value), pageTitles[report.pageId.value])
  {
    if notificationsAllowed && HasPage(report) && report.pageId.value in pageTitles then
      Mails(Accepted(subs, report.pageId.value), pageTitles[report.pageId.value])
    else []
  }

  /** `registerStatusReportUpdateRoutes`, with `id` already read by
      `Number`. `freshId` is the id the database assigns to the inserted
      update row. */
  function Post(db: Db, id: JsNumber.Num, workspaceId: int, input: UpdateInput, freshId: int,
                notificationsAllowed: bool, subs: seq<Subscriber>, pageTitles: map<int, string>): (r: PostReply)
    requires freshId !in db.updates
    ensures Target(db, id, workspaceId).None? <==> r == NotFound
    ensures r.Posted? ==>
      var k := Target(db, id, workspaceId).value;
      && r.update == Update(input.status, input.date, input.message, k)
      && r.db == db.(reports := db.reports[k := db.reports[k].(status := input.status)],
                     updates := db.updates[freshId := r.update])
      && r.emails == Notify(db.reports[k], notificationsAllowed, subs, pageTitles)
  {
    match Target(db, id, workspaceId)
    case None => NotFound
    case Some(k) =>
      var report := db.reports[k].(status := input.status);
      var u := Update(input.status, input.date, input.message, k);
      Posted(db.(reports := db.reports[k := report], updates := db.updates[freshId := u]),
             u, Notify(report, notificationsAllowed, subs, pageTitles))
  }

  /** Posting keeps the foreign keys intact, and changes only the status of
      the target report and adds one update. */
  lemma PostKeepsIntegrity(db: Db, id: JsNumber.Num, workspaceId: int, input: UpdateInput, freshId: int,
                           allowed: bool, subs: seq<Subscriber>, titles: map<int, string>)
    requires freshId !in db.updates
    requires Integrity(db)
    ensures var r := Post(db, id, workspaceId, input, freshId, allowed, subs, titles);
      r.Posted? ==>
        && Integrity(r.db) && r.db.reports.Keys == db.reports.Keys
        && (forall k :: k in db.reports && db.reports[k].workspaceId != Some(workspaceId) ==> r.db.reports[k] == db.reports[k])
        && |r.db.updates| == |db.updates| + 1
        && r.db.monitorLinks == db.monitorLinks && r.db.pageLinks == db.pageLinks
  {
  }

  /** The mails for a page go to exactly its accepted subscribers. */
  lemma MailsReachAccepted(subs: seq<Subscriber>, pageId: int, title: string)
    ensures var r := Mails(Accepted(subs, pageId), title);
      forall e :: e in r <==> exists s :: s in subs && s.pageId == pageId && s.acceptedAt.Some?
                                       && e == Email(s.email, "New status update for " + title)
  {
    var acc := Accepted(subs, pageId);
    var r := Mails(acc, title);
    var subject := "New status update for " + title;
    forall e ensures e in r <==> exists s :: s in subs && s.pageId == pageId && s.acceptedAt.Some?
                                         && e == Email(s.email, subject) {
      if e in r {
        var i :| 0 <= i < |r| && r[i] == e;
        assert acc[i] in acc;
      }
      if exists s :: s in subs && s.pageId == pageId && s.acceptedAt.Some? && e == Email(s.email, subject) {
        var s :| s in subs && s.pageId == pageId && s.acceptedAt.Some? && e == Email(s.email, subject);
        var i :| 0 <= i < |acc| && acc[i] == s;
        assert r[i] == e;
      }
    }
  }

  /** The recipients are exactly the page's accepted subscribers, one email
      each. */
  lemma RecipientsAreAcceptedSubscribers(db: Db, id: JsNumber.Num, workspaceId: int, input: UpdateInput, freshId: int,
                                         subs: seq<Subscriber>, titles: map<int, string>)
    requires freshId !in db.updates
    requires Post(db, id, workspaceId, input, freshId, true, subs, titles).Posted?
    ensures var r := Post(db, id, workspaceId, input, freshId, true, subs, titles);
      var p := db.reports[Target(db, id, workspaceId).value].pageId;
      p.Some? && p.value != 0 && p.value in titles ==>
        && |r.emails| == |Accepted(subs, p.value)|
        && forall e :: e in r.emails <==> exists s :: s in subs && s.pageId == p.value && s.acceptedAt.Some?
                                                  && e == Email(s.email, "New status update for " + titles[p.value])
  {
    var p := db.reports[Target(db, id, workspaceId).value].pageId;
    if p.Some? && p.value != 0 && p.value in titles {
      MailsReachAccepted(subs, p.value, titles[p.value]);
    }
  }

  /** Reports without a truthy page id (none, as for every report of the
      table as declared, or 0) never send email. */
  lemma NoPageNoEmail(db: Db, id: JsNumber.Num, workspaceId: int, input: UpdateInput, freshId: int,
                      allowed: bool, subs: seq<Subscriber>, titles: map<int, string>)
    requires freshId !in db.updates
    requires forall k :: k in db.reports ==> !HasPage(db.reports[k])
    ensures Post(db, id, workspaceId, input, freshId, allowed, subs, titles).Posted? ==>
      Post(db, id, workspaceId, input, freshId, allowed, subs, titles).emails == []
  {
  }
}

=== FILE: tables.dfy ===
/** What the model assumes of the database's tables: a new row's
    auto-incremented id is one above every id in use. */
module Tables {
  /** An id above every id of `t`, read through `idOf`; 1 for an empty table. */
  function NextId<T>(t: seq<T>, idOf: T -> int): (n: int)
    ensures forall k :: 0 <= k < |t| ==> idOf(t[k]) < n
  {
    if t == [] then 1
    else
      var rest := NextId(t[1..], idOf);
      assert forall k :: 1 <= k < |t| ==> t[k] == t[1..][k - 1];
      if idOf(t[0]) >= rest then idOf(t[0]) + 1 else rest
  }

  /** Fresh ids are positive. */
  lemma {:induction false} NextIdPositive<T>(t: seq<T>, idOf: T -> int)
    ensures NextId(t, idOf) >= 1
  {
    if t != [] {
      NextIdPositive(t[1..], idOf);
    }
  }
}

=== FILE: text.dfy ===
/** `String.prototype.split` on a one-character separator and its inverse,
    `Array.prototype.join`; the monitor's stored region list splits on ","
    and the checker's streamed chunks on "\n". */
module Text {
  /** `s.split(sep)`: the maximal pieces without `sep`, empty ones included;
      the empty string splits into one empty piece. */
  function Split(s: string, sep: char): (ps: seq<string>)
    ensures |ps| >= 1
    ensures forall i :: 0 <= i < |ps| ==> sep !in ps[i]
  {
    if s == [] then [""]
    else if s[0] == sep then [""] + Split(s[1..], sep)
    else
      var p := Split(s[1..], sep);
      [[s[0]] + p[0]] + p[1..]
  }

  /** `ps.join(sep)`: the pieces with `sep` between neighbours. */
  function Join(ps: seq<string>, sep: char): (s: string)
    ensures ps == [] ==> s == ""
    ensures |ps| == 1 ==> s == ps[0]
  {
    if ps == [] then ""
    else if |ps| == 1 then ps[0]
    else ps[0] + [sep] + Join(ps[1..], sep)
  }

  /** Splitting text that begins with a piece free of the separator. */
  lemma {:induction false} SplitPiece(a: string, rest: string, sep: char)
    requires sep !in a
    ensures Split(a, sep) == [a]
    ensures Split(a + [sep] + rest, sep) == [a] + Split(rest, sep)
  {
    if a != [] {
      SplitPiece(a[1..], rest, sep);
      assert (a + [sep] + rest)[1..] == a[1..] + [sep] + rest;
      assert [a[0]] + a[1..] == a;
    } else {
      assert a + [sep] + rest == [sep] + rest;
    }
  }

  /** Splitting undoes joining for a non-empty list of pieces free of the
      separator. */
  lemma {:induction false} SplitJoin(ps: seq<string>, sep: char)
    requires ps != []
    requires forall i :: 0 <= i < |ps| ==> sep !in ps[i]
    ensures Split(Join(ps, sep), sep) == ps
  {
    if |ps| == 1 {
      SplitPiece(ps[0], "", sep);
    } else {
      SplitJoin(ps[1..], sep);
      SplitPiece(ps[0], Join(ps[1..], sep), sep);
    }
  }

  /** Splitting loses nothing: the pieces joined with the separator give
      back the text. */
  lemma {:induction false} JoinSplit(s: string, sep: char)
    ensures Join(Split(s, sep), sep) == s
  {
    if s != [] {
      JoinSplit(s[1..], sep);
      var p := Split(s[1..], sep);
      if s[0] == sep {
        assert Split(s, sep)[1..] == p;
      } else if |p| == 1 {
        assert [s[0]] + s[1..] == s;
      } else {
        assert Split(s, sep)[1..] == p[1..];
        assert Join(p, sep) == p[0] + [sep] + Join(p[1..], sep);
        assert [s[0]] + p[0] + [sep] + Join(p[1..], sep) == [s[0]] + Join(p, sep);
        assert [s[0]] + s[1..] == s;
      }
    }
  }
}

=== FILE: timezone.dfy ===
/** `convertTimezoneToGMT` (apps/web/src/lib/timezone.ts): the zone to use is
    the explicit argument, else the request's zone header, else the server's
    zone; its offset is written as an `Etc/GMT` zone name, whose sign is the
    opposite of the offset's, as in the TZ variable of section 8.3 of IEEE Std
    1003.1 (Base Definitions). The offset lookup is a parameter. */
module Timezone {
  import opened Wrappers
  import JsNumber

  /** `getTimezoneOffset`'s result: `NaN` for an unknown zone, otherwise
      `q * 900000` milliseconds, so that `msOffset / (1000 * 60 * 60)` is
      `q / 4` hours (every current zone offset is a whole number of quarter
      hours). */
  datatype Offset = Unknown | Quarters(q: int)

  /** JavaScript truthiness of an optional string. */
  predicate Truthy(s: Option<string>) {
    s.Some? && s.value != ""
  }

  /** `timezone || requestTimezone || clientTimezone`. */
  function ChooseZone(timezone: Option<string>, header: Option<string>, server: string): (z: string)
    ensures Truthy(timezone) ==> z == timezone.value
    ensures !Truthy(timezone) && Truthy(header) ==> z == header.value
    ensures !Truthy(timezone) && !Truthy(header) ==> z == server
  {
    if Truthy(timezone) then timezone.value
    else if Truthy(header) then header.value
    else server
  }

  /** `String(x)` for a non-negative number of quarter hours: the whole hours
      and, when there is one, the fraction. */
  function QuarterHours(a: nat): (s: string)
    ensures s != []
    ensures a % 4 == 0 ==> s == JsNumber.NatToString(a / 4)
  {
    if a % 4 == 0 then JsNumber.NatToString(a / 4)
    else JsNumber.NatToString(a / 4) + "." + ["25", "5", "75"][a % 4 - 1]
  }

  /** `Number` reads the printed quarter hours back as the hours they
      stand for, fraction included ("5.5" for 22 quarters). */
  lemma {:induction false} QuarterHoursReadBack(a: nat)
    ensures JsNumber.ToNumber(QuarterHours(a)) == JsNumber.Finite(a as real / 4.0)
  {
    var h, r := a / 4, a % 4;
    if r == 0 {
      JsNumber.NumberOfNatToString(h);
    } else {
      FractionReadBack(h, r);
    }
  }

  /** Whole hours, a point and the digits of one to three quarters read
      back as the hours and quarters. */
  lemma {:induction false} FractionReadBack(h: nat, r: int)
    requires 1 <= r <= 3
    ensures JsNumber.ToNumber(JsNumber.NatToString(h) + "." + ["25", "5", "75"][r - 1])
            == JsNumber.Finite((4 * h + r) as real / 4.0)
  {
    QuarterDigits(r);
    JsNumber.NumberOfFraction(h, ["25", "5", "75"][r - 1]);
  }

  /** The fraction digits of one, two and three quarters. */
  lemma QuarterDigits(r: int)
    requires 1 <= r <= 3
    ensures var frac := ["25", "5", "75"][r - 1];
      frac != [] && JsNumber.AllDigits(frac, 10)
      && JsNumber.DigitsValue(frac, 10) as real / JsNumber.Pow10(|frac|) as real == r as real / 4.0
  {
    var frac := ["25", "5", "75"][r - 1];
    assert JsNumber.IsDigitIn('2', 10) && JsNumber.IsDigitIn('5', 10) && JsNumber.IsDigitIn('7', 10);
    assert JsNumber.Pow10(1) == 10 && JsNumber.Pow10(2) == 100;
    if r == 2 {
      assert JsNumber.DigitsValue(frac, 10) == 5 by {
        assert frac[..0] == [];
      }
    } else {
      assert JsNumber.DigitsValue([frac[0]], 10) == JsNumber.DigitValue(frac[0]) by {
        assert [frac[0]][..0] == [];
      }
      assert frac[..1] == [frac[0]];
    }
  }

  /** The sign written for an hour offset: "-" for zero and east of UTC. */
  function Sign(q: int): (c: char)
    ensures c == '-' <==> q >= 0
  {
    if q >= 0 then '-' else '+'
  }

  function Abs(q: int): nat {
    if q >= 0 then q else -q
  }

  /** The `Etc/GMT` name of an offset; `NaN` gives "Etc/UTC". */
  function ZoneName(o: Offset): (name: string)
    ensures o.Unknown? ==> name == "Etc/UTC"
    ensures o.Quarters? ==> name == "Etc/GMT" + [Sign(o.q)] + QuarterHours(Abs(o.q))
  {
    match o
    case Unknown => "Etc/UTC"
    case Quarters(q) => "Etc/GMT" + [Sign(q)] + QuarterHours(Abs(q))
  }

  /** `convertTimezoneToGMT`, with the offset lookup as `offsetOf`. */
  function ConvertTimezoneToGmt(timezone: Option<string>, header: Option<string>, server: string,
                                offsetOf: string -> Offset): (name: string)
    ensures name == ZoneName(offsetOf(ChooseZone(timezone, header, server)))
    ensures offsetOf(ChooseZone(timezone, header, server)).Unknown? ==> name == "Etc/UTC"
  {
    ZoneName(offsetOf(ChooseZone(timezone, header, server)))
  }

  /** The number of quarter hours `Number` reads from a text of hours,
      when it reads a non-negative whole number of quarters. */
  function QuartersOf(hours: string): Option<nat> {
    match JsNumber.ToNumber(hours)
    case Finite(x) =>
      var q := (4.0 * x).Floor;
      if x >= 0.0 && q as real == 4.0 * x then Some(q) else None
    case _ => None
  }

  /** A text `Number` reads as a whole number of quarter hours gives those
      quarters. */
  lemma {:induction false} QuartersOfNumber(hours: string, a: nat)
    requires JsNumber.ToNumber(hours) == JsNumber.Finite(a as real / 4.0)
    ensures QuartersOf(hours) == Some(a)
  {
    var x := a as real / 4.0;
    assert 4.0 * x == a as real;
  }

  /** The printed quarter hours read back as the same quarters. */
  lemma {:induction false} QuartersOfPrinted(a: nat)
    ensures QuartersOf(QuarterHours(a)) == Some(a)
  {
    QuarterHoursReadBack(a);
    QuartersOfNumber(QuarterHours(a), a);
  }

  /** Reads a zone name back: "Etc/UTC" is the unknown offset, and
      "Etc/GMT" with a sign and a number of hours that `Number` reads as a
      whole number of quarter hours is the offset of the opposite sign. */
  function OffsetOfName(name: string): (o: Option<Offset>)
    ensures o.Some? && o.value.Unknown? <==> name == "Etc/UTC"
  {
    if name == "Etc/UTC" then Some(Unknown)
    else if |name| > 8 && name[..7] == "Etc/GMT" && (name[7] == '-' || name[7] == '+') then
      match QuartersOf(name[8..])
      case Some(q) => Some(Quarters(if name[7] == '-' then q as int else -(q as int)))
      case None => None
    else None
  }

  /** An `Etc/GMT` name with a sign and hours that read as `q` quarters
      is the offset of `q` quarters with the opposite sign. */
  lemma {:induction false} OffsetOfGmtName(c: char, hours: string, q: nat)
    requires c == '-' || c == '+'
    requires hours != [] && QuartersOf(hours) == Some(q)
    ensures OffsetOfName("Etc/GMT" + [c] + hours) == Some(Quarters(if c == '-' then q as int else -(q as int)))
  {
    var name := "Etc/GMT" + [c] + hours;
    assert name[..7] == "Etc/GMT" && name[7] == c && name[8..] == hours;
    assert name != "Etc/UTC" by {
      assert name[4] == 'G' != "Etc/UTC"[4];
    }
  }

  /** Every offset, and the unknown one, reads back from its name: the sign
      written is the opposite of the offset's, and the hours may carry a
      fraction of quarters. */
  lemma ZoneNameRoundTrip(o: Offset)
    ensures OffsetOfName(ZoneName(o)) == Some(o)
  {
    if o.Quarters? {
      GmtNameRoundTrip(o.q);
    }
  }

  /** A known offset reads back from its `Etc/GMT` name. */
  lemma {:induction false} GmtNameRoundTrip(q: int)
    ensures OffsetOfName(ZoneName(Quarters(q))) == Some(Quarters(q))
  {
    var a := Abs(q);
    var name := ZoneName(Quarters(q));
    assert name == "Etc/GMT" + [Sign(q)] + QuarterHours(a);
    assert (if Sign(q) == '-' then a as int else -(a as int)) == q;
    QuartersOfPrinted(a);
    OffsetOfGmtName(Sign(q), QuarterHours(a), a);
  }

  /** What `convertTimezoneToGMT` promises its caller: a non-empty explicit
      zone decides the name whatever the request header and the server say,
      and failing that a non-empty header decides it whatever the server
      says; the name reads back as the chosen zone's offset. */
  lemma ConvertMeaning(timezone: Option<string>, header: Option<string>, header': Option<string>,
                       server: string, server': string, offsetOf: string -> Offset)
    ensures Truthy(timezone) ==>
      ConvertTimezoneToGmt(timezone, header, server, offsetOf) == ConvertTimezoneToGmt(timezone, header', server', offsetOf)
    ensures !Truthy(timezone) && Truthy(header) ==>
      ConvertTimezoneToGmt(timezone, header, server, offsetOf) == ConvertTimezoneToGmt(None, header, server', offsetOf)
    ensures OffsetOfName(ConvertTimezoneToGmt(timezone, header, server, offsetOf)) == Some(offsetOf(ChooseZone(timezone, header, server)))
  {
    ZoneNameRoundTrip(offsetOf(ChooseZone(timezone, header, server)));
  }

  /** At offset zero the sign is "-": UTC itself is "Etc/GMT-0". */
  lemma ZeroOffsetName()
    ensures ZoneName(Quarters(0)) == "Etc/GMT-0"
  {
  }
}

=== FILE: web_vitals.dfy ===
/** The real-user-monitoring thresholds (packages/rum/src/config.ts): for each
    web-vital event, its unit, its label and three rating bands. */
module WebVitals {
  import opened Wrappers

  /** `webVitalEvents`. */
  datatype Event = CLS | FCP | FID | INP | LCP | TTFB

  const AllEvents: seq<Event> := [CLS, FCP, FID, INP, LCP, TTFB]

  function EventName(e: Event): string {
    match e
    case CLS => "CLS"
    case FCP => "FCP"
    case FID => "FID"
    case INP => "INP"
    case LCP => "LCP"
    case TTFB => "TTFB"
  }

  datatype Rating = Good | NeedsImprovement | Poor

  /** A band's upper end; the last is `Number.POSITIVE_INFINITY`. */
  datatype Bound = Below(limit: real) | Unbounded

  datatype Band = Band(rating: Rating, min: real, max: Bound)

  datatype VitalConfig = VitalConfig(unit: string, name: string, values: seq<Band>)

  /** The three bands with the two thresholds between them. */
  function Bands(low: real, high: real): seq<Band> {
    [Band(Good, 0.0, Below(low)), Band(NeedsImprovement, low, Below(high)), Band(Poor, high, Unbounded)]
  }

  /** `webVitalsConfig`. */
  function Config(e: Event): VitalConfig {
    match e
    case CLS => VitalConfig("", "Cumulative Layout Shift", Bands(0.1, 0.25))
    case FCP => VitalConfig("ms", "First Contentful Paint", Bands(1800.0, 3000.0))
    case FID => VitalConfig("ms", "First Input Delay", Bands(100.0, 300.0))
    case INP => VitalConfig("ms", "Input Delay", Bands(200.0, 500.0))
    case LCP => VitalConfig("ms", "Largest Contentful Paint", Bands(2500.0, 4000.0))
    case TTFB => VitalConfig("ms", "Time to First Byte", Bands(800.0, 1800.0))
  }

  /** Whether a value lies in a band. The configuration gives each band's
      ends but not which end belongs to it; the model's choice is that the
      lower end is included and the upper end excluded. */
  predicate InBand(b: Band, v: real) {
    b.min <= v && (b.max.Below? ==> v < b.max.limit)
  }

  /** The shape every entry has: good, needs-improvement and poor in that
      order, starting at 0, each band ending where the next begins, the last
      unbounded, and the thresholds strictly increasing. */
  predicate WellFormed(bands: seq<Band>) {
    && |bands| == 3
    && bands[0].rating == Good && bands[1].rating == NeedsImprovement && bands[2].rating == Poor
    && bands[0].min == 0.0
    && bands[0].max == Below(bands[1].min) && bands[1].max == Below(bands[2].min)
    && bands[2].max.Unbounded?
    && bands[0].min < bands[1].min < bands[2].min
  }

  /** Every event of the list has an entry of that shape; CLS alone is
      unitless, every other metric is in milliseconds. */
  lemma ConfigWellFormed(e: Event)
    ensures e in AllEvents
    ensures WellFormed(Config(e).values)
    ensures Config(e).unit == "" <==> e == CLS
    ensures Config(e).unit != "" ==> Config(e).unit == "ms"
  {
  }

  /** The band a value falls in. */
  function Rate(bands: seq<Band>, v: real): (r: Option<nat>)
    requires WellFormed(bands)
    ensures r.Some? ==> r.value < 3 && InBand(bands[r.value], v)
    ensures r.None? <==> v < 0.0
  {
    if v < 0.0 then None
    else if InBand(bands[0], v) then Some(0)
    else if InBand(bands[1], v) then Some(1)
    else Some(2)
  }

  /** The bands of a well-formed entry partition the non-negative reals:
      every such value lies in exactly one band. */
  lemma BandsPartition(bands: seq<Band>, v: real, i: nat)
    requires WellFormed(bands)
    requires i < 3 && InBand(bands[i], v)
    ensures v >= 0.0
    ensures Rate(bands, v) == Some(i)
  {
  }
}

=== FILE: workspaces.dfy ===
/** The workspace router (packages/api/src/router/workspace.ts): creating a
    workspace under a fresh slug, removing a member, changing the plan, and the
    usage counters. Tables are sequences in storage order. */
module Workspaces {
  import opened Wrappers
  import opened Plans
  import Tables
  import Seqs

  datatype Workspace = Workspace(id: int, slug: string, name: string, plan: WorkspacePlan, stripeId: Option<string>)

  /** A row of the users-to-workspaces table. */
  datatype Membership = Membership(userId: int, workspaceId: int, role: string)

  datatype Store = Store(workspaces: seq<Workspace>, memberships: seq<Membership>)

  /** Whether some workspace already uses the slug. */
  predicate SlugTaken(ws: seq<Workspace>, slug: string) {
    exists k :: 0 <= k < |ws| && ws[k].slug == slug
  }

  /** A slug the loop accepts: truthy (non-empty) and not taken. */
  predicate Acceptable(ws: seq<Workspace>, slug: string) {
    slug != "" && !SlugTaken(ws, slug)
  }

  /** Reference definition of the slug loop: the first acceptable candidate,
      or `None` when the candidates run out before one is found. */
  function FirstFresh(ws: seq<Workspace>, candidates: seq<string>): (r: Option<nat>)
    ensures r.Some? ==> r.value < |candidates| && Acceptable(ws, candidates[r.value])
    ensures r.Some? ==> forall j :: 0 <= j < r.value ==> !Acceptable(ws, candidates[j])
    ensures r.None? <==> forall j :: 0 <= j < |candidates| ==> !Acceptable(ws, candidates[j])
  {
    if candidates == [] then None
    else if Acceptable(ws, candidates[0]) then Some(0)
    else
      match FirstFresh(ws, candidates[1..])
      case None => None
      case Some(j) => Some(j + 1)
  }

  /** The auto-incremented id of a new workspace. */
  function NextId(ws: seq<Workspace>): int {
    Tables.NextId(ws, (w: Workspace) => w.id)
  }

  /** The slug loop of `createWorkspace`: draws slugs from `candidates` (the
      successive results of the random slug generator) until one is
      non-empty and unused. Returns `None` if the candidates run out. */
  method PickSlug(ws: seq<Workspace>, candidates: seq<string>) returns (slug: Option<string>)
    ensures slug.Some? <==> FirstFresh(ws, candidates).Some?
    ensures slug.Some? ==> slug.value == candidates[FirstFresh(ws, candidates).value]
  {
    var i := 0;
    var current := "";
    while current == ""
      invariant 0 <= i <= |candidates|
      invariant current == "" ==> forall j :: 0 <= j < i ==> !Acceptable(ws, candidates[j])
      invariant current != "" ==> (0 < i && current == candidates[i - 1] && Acceptable(ws, current)
        && forall j :: 0 <= j < i - 1 ==> !Acceptable(ws, candidates[j]))
      decreases |candidates| - i, if current == "" then 1 else 0
    {
      if i == |candidates| {
        return None;
      }
      current := candidates[i];
      i := i + 1;
      if SlugTaken(ws, current) {
        current := "";
      }
    }
    FreshAt(ws, candidates, i - 1);
    slug := Some(current);
  }

  /** The first acceptable candidate is the one `FirstFresh` names. */
  lemma {:induction false} FreshAt(ws: seq<Workspace>, candidates: seq<string>, i: nat)
    requires i < |candidates| && Acceptable(ws, candidates[i])
    requires forall j :: 0 <= j < i ==> !Acceptable(ws, candidates[j])
    ensures FirstFresh(ws, candidates) == Some(i)
  {
    if i > 0 {
      FreshAt(ws, candidates[1..], i - 1);
    }
  }

  /** `createWorkspace`: a workspace with a fresh slug, an empty name and
      the plan column's default, and the caller (the session's user, not the
      `userId` of the input, which is ignored) linked to it as owner. */
  method CreateWorkspace(s: Store, sessionUser: int, inputUserId: string, defaultPlan: WorkspacePlan,
                         candidates: seq<string>) returns (r: Option<Store>)
    ensures r.Some? <==> FirstFresh(s.workspaces, candidates).Some?
    ensures r.Some? ==> |r.value.workspaces| == |s.workspaces| + 1
    ensures r.Some? && |r.value.workspaces| == |s.workspaces| + 1 ==>
      var w := r.value.workspaces[|s.workspaces|];
      && r.value.workspaces[..|s.workspaces|] == s.workspaces
      && w.name == "" && w.plan == defaultPlan && w.stripeId.None?
      && w.slug != "" && !SlugTaken(s.workspaces, w.slug)
      && (forall k :: 0 <= k < |s.workspaces| ==> s.workspaces[k].id != w.id)
      && r.value.memberships == s.memberships + [Membership(sessionUser, w.id, "owner")]
  {
    var slug := PickSlug(s.workspaces, candidates);
    if slug.None? {
      return None;
    }
    var w := Workspace(NextId(s.workspaces), slug.value, "", defaultPlan, None);
    r := Some(Store(s.workspaces + [w], s.memberships + [Membership(sessionUser, w.id, "owner")]));
    assert (s.workspaces + [w])[..|s.workspaces|] == s.workspaces;
  }

  /** After a successful create, slugs remain unique if they were. */
  lemma CreateKeepsSlugsUnique(s: Store, w: Workspace)
    requires forall a, b :: 0 <= a < b < |s.workspaces| ==> s.workspaces[a].slug != s.workspaces[b].slug
    requires !SlugTaken(s.workspaces, w.slug)
    ensures var ws := s.workspaces + [w];
      forall a, b :: 0 <= a < b < |ws| ==> ws[a].slug != ws[b].slug
  {
    var ws := s.workspaces + [w];
    forall a, b | 0 <= a < b < |ws| ensures ws[a].slug != ws[b].slug {
      if b == |s.workspaces| {
        assert ws[a] == s.workspaces[a];
      } else {
        assert ws[a] == s.workspaces[a] && ws[b] == s.workspaces[b];
      }
    }
  }

  /** `findFirst` of the caller's membership in the workspace. */
  function MembershipOf(ms: seq<Membership>, userId: int, workspaceId: int): (r: Option<Membership>)
    ensures r.Some? ==> r.value in ms && r.value.userId == userId && r.value.workspaceId == workspaceId
    ensures r.None? <==> forall m :: m in ms ==> !(m.userId == userId && m.workspaceId == workspaceId)
  {
    if ms == [] then None
    else if ms[0].userId == userId && ms[0].workspaceId == workspaceId then Some(ms[0])
    else
      var r := MembershipOf(ms[1..], userId, workspaceId);
      assert forall m :: m in ms <==> m == ms[0] || m in ms[1..];
      r
  }

  /** Why a membership-guarded mutation failed. */
  datatype WorkspaceError = NoMembership | NotOwner | CannotRemoveSelf | NoStripeId

  /** The caller's authority over the workspace: a membership must exist and
      its role must be "owner", checked in that order. */
  function OwnerCheck(ms: seq<Membership>, caller: int, workspaceId: int): (r: Result<(), WorkspaceError>)
    ensures MembershipOf(ms, caller, workspaceId).None? ==> r == Failure(NoMembership)
    ensures MembershipOf(ms, caller, workspaceId).Some? ==>
      (r.Success? <==> MembershipOf(ms, caller, workspaceId).value.role == "owner")
    ensures r.Failure? ==> r.error in {NoMembership, NotOwner}
  {
    match MembershipOf(ms, caller, workspaceId)
    case None => Failure(NoMembership)
    case Some(m) => if m.role != "owner" then Failure(NotOwner) else Success(())
  }

  /** Whether a membership survives deleting those of `target` in the
      workspace. */
  function Survives(target: int, workspaceId: int): Membership -> bool {
    (m: Membership) => !(m.userId == target && m.workspaceId == workspaceId)
  }

  /** The memberships left after deleting those of `target` in the
      workspace, in storage order, each as often as the table holds it. */
  function Without(ms: seq<Membership>, target: int, workspaceId: int): (r: seq<Membership>)
    ensures forall m :: m in r <==> m in ms && !(m.userId == target && m.workspaceId == workspaceId)
    ensures forall m :: multiset(r)[m] == if m.userId == target && m.workspaceId == workspaceId then 0 else multiset(ms)[m]
    ensures |r| <= |ms|
  {
    Seqs.FilterMeaning(ms, Survives(target, workspaceId));
    Seqs.Filter(ms, Survives(target, workspaceId))
  }

  /** Deleting from two stretches of the table deletes from each and keeps
      their order; a single membership is deleted exactly when it is the
      target's in the workspace. */
  lemma WithoutAppend(a: seq<Membership>, b: seq<Membership>, target: int, workspaceId: int)
    ensures Without(a + b, target, workspaceId) == Without(a, target, workspaceId) + Without(b, target, workspaceId)
    ensures forall m :: Without([m], target, workspaceId) == if m.userId == target && m.workspaceId == workspaceId then [] else [m]
  {
    Seqs.FilterAppend(a, b, Survives(target, workspaceId));
    forall m ensures Without([m], target, workspaceId) == if m.userId == target && m.workspaceId == workspaceId then [] else [m] {
      Seqs.FilterOne(m, Survives(target, workspaceId));
    }
  }

  /** `removeWorkspaceUser`: fails without a membership, then unless the
      caller is owner, then when the target is the caller; otherwise deletes
      exactly the target's membership of the caller's workspace. */
  function RemoveWorkspaceUser(ms: seq<Membership>, caller: int, workspaceId: int, target: int)
    : (r: Result<seq<Membership>, WorkspaceError>)
    ensures OwnerCheck(ms, caller, workspaceId).Failure? ==> r == Failure(OwnerCheck(ms, caller, workspaceId).error)
    ensures OwnerCheck(ms, caller, workspaceId).Success? && target == caller ==> r == Failure(CannotRemoveSelf)
    ensures r.Success? <==> OwnerCheck(ms, caller, workspaceId).Success? && target != caller
    ensures r.Success? ==> forall m :: m in r.value <==> m in ms && !(m.userId == target && m.workspaceId == workspaceId)
  {
    var _ :- OwnerCheck(ms, caller, workspaceId);
    if target == caller then Failure(CannotRemoveSelf)
    else Success(Without(ms, target, workspaceId))
  }

  /** An owner never loses their own membership through a removal: the
      caller stays an owner of the workspace. */
  lemma RemovalKeepsCaller(ms: seq<Membership>, caller: int, workspaceId: int, target: int)
    requires RemoveWorkspaceUser(ms, caller, workspaceId, target).Success?
    ensures var m := MembershipOf(ms, caller, workspaceId).value;
      m in RemoveWorkspaceUser(ms, caller, workspaceId, target).value && m.role == "owner"
  {
  }

  /** JavaScript truthiness of an optional string. */
  predicate Truthy(s: Option<string>) {
    s.Some? && s.value != ""
  }

  /** `changePlan`: membership, then owner role, then a Stripe id on the
      workspace, in that order; then only the plan of the caller's workspace
      changes. */
  function ChangePlan(s: Store, caller: int, current: Workspace, plan: WorkspacePlan): (r: Result<seq<Workspace>, WorkspaceError>)
    ensures OwnerCheck(s.memberships, caller, current.id).Failure? ==>
      r == Failure(OwnerCheck(s.memberships, caller, current.id).error)
    ensures OwnerCheck(s.memberships, caller, current.id).Success? && !Truthy(current.stripeId) ==>
      r == Failure(NoStripeId)
    ensures r.Success? <==> OwnerCheck(s.memberships, caller, current.id).Success? && Truthy(current.stripeId)
    ensures r.Success? ==> |r.value| == |s.workspaces| && forall k :: 0 <= k < |s.workspaces| ==>
      r.value[k] == if s.workspaces[k].id == current.id then s.workspaces[k].(plan := plan) else s.workspaces[k]
  {
    var _ :- OwnerCheck(s.memberships, caller, current.id);
    if !Truthy(current.stripeId) then Failure(NoStripeId)
    else
      Success(seq(|s.workspaces|, k requires 0 <= k < |s.workspaces| =>
        if s.workspaces[k].id == current.id then s.workspaces[k].(plan := plan) else s.workspaces[k]))
  }

  /** A non-owner member can neither remove users nor change the plan,
      whatever the inputs. */
  lemma MembersAreNotOwners(s: Store, caller: int, current: Workspace, target: int, plan: WorkspacePlan)
    requires MembershipOf(s.memberships, caller, current.id).Some?
    requires MembershipOf(s.memberships, caller, current.id).value.role != "owner"
    ensures RemoveWorkspaceUser(s.memberships, caller, current.id, target) == Failure(NotOwner)
    ensures ChangePlan(s, caller, current, plan) == Failure(NotOwner)
  {
  }

  /** `count || 0` over the first row of a count query; `None` is a `null`
      count. A query with no row at all makes the property access throw. */
  function CountOf(rows: seq<Option<int>>): (r: Result<int, string>)
    ensures rows == [] ==> r.Failure?
    ensures rows != [] ==> r == Success(if rows[0].Some? && rows[0].value != 0 then rows[0].value else 0)
  {
    if rows == [] then Failure("cannot read count of undefined")
    else if rows[0].Some? && rows[0].value != 0 then Success(rows[0].value)
    else Success(0)
  }

  datatype Numbers = Numbers(notificationChannels: int, monitors: int, statusPages: int)

  /** The number of rows of a table that belong to the workspace. */
  function CountIn(owners: seq<int>, workspaceId: int): (n: nat)
    ensures n <= |owners|
    ensures n == 0 <==> forall k :: 0 <= k < |owners| ==> owners[k] != workspaceId
    ensures n == multiset(owners)[workspaceId]
  {
    if owners == [] then 0
    else
      assert owners == [owners[0]] + owners[1..];
      (if owners[0] == workspaceId then 1 else 0) + CountIn(owners[1..], workspaceId)
  }

  /** `getCurrentWorkspaceNumbers` over the owning workspace ids of the
      notification, monitor and page tables: `count(*)` yields one row, so
      the numbers are the counts (0 for a workspace with none). */
  function CurrentNumbers(notifications: seq<int>, monitors: seq<int>, pages: seq<int>, workspaceId: int)
    : (r: Result<Numbers, string>)
    ensures r.Success?
    ensures r.value == Numbers(CountIn(notifications, workspaceId), CountIn(monitors, workspaceId), CountIn(pages, workspaceId))
  {
    Success(Numbers(
      CountOf([Some(CountIn(notifications, workspaceId))]).value,
      CountOf([Some(CountIn(monitors, workspaceId))]).value,
      CountOf([Some(CountIn(pages, workspaceId))]).value))
  }
}

=== FILE: wrappers.dfy ===
/** Option and Result, the failure-compatible wrappers the rest of the model uses
    for values that may be absent and for operations that may throw. */
module Wrappers {

  /** A value that may be absent (`undefined` / `null` in the source). */
  datatype Option<+T> = None | Some(value: T) {

    predicate IsFailure() {
      None?
    }

    function PropagateFailure<U>(): Option<U>
      requires None?
    {
      None
    }

    function Extract(): T
      requires Some?
    {
      value
    }

    /** The value, or `default` when absent. */
    function GetOr(default: T): T {
      match this
      case Some(v) => v
      case None => default
    }
  }

  /** The outcome of an operation that either returns a value or fails (throws). */
  datatype Result<+R, +E> = Success(value: R) | Failure(error: E) {

    predicate IsFailure() {
      Failure?
    }

    function PropagateFailure<U>(): Result<U, E>
      requires Failure?
    {
      Failure(error)
    }

    function Extract(): R
      requires Success?
    {
      value
    }
  }
}
